=== FILE: README.md ===
# bathbib check pipeline — a Dafny model

The Bath (Harvard) bibliography styles ship for biblatex, for BibTeX and
for CSL. Each style comes with hand-written target texts, and the
repository checks the styles' actual output against them. This project
models the in-memory text pipeline behind those checks and proves what it
does:

- **Targets** (`check.py`, `bst/check-output.py`) are the target texts.
  - `extract_dtx_targets` reads the `bibexbox` boxes of a documented style
    file.
  - `extract_csl_targets` reads the paragraphs of the LaTeX test file.
    Each paragraph is assigned to the identifiers queued from `\cite{..}`
    lines.
- **Segmenter** turns `.bbl`/`.bbi` lines into a flat list.
  - `get_bibitems` turns each record into a complete `\bibitem` line, one
    space-joined body line and an empty separator.
  - The older joiner of `bst/check-output.py` has no notion of records.
    After the first `\bibitem` line, it joins stripped lines with single
    spaces until their brackets and braces balance, and emits each such
    join as one line.
- **Interpreter** (`parse_bibitems`) is the character automaton that turns
  record bodies into plain text. It keeps:
  - a state stack of `Normal`/`Cs`/`Gobble`;
  - a brace level;
  - two checkpoint stacks, `exit_args` and `exit_gobbles`.
  
  **LegacyInterpreter** is the older variant in `bst/check-output.py`.
  It has single-slot checkpoints, no `}` branch in the command state, a
  merge of an adjacent `\emph{..} \emph{..}` pair, and a report loop.
- **SimpleNormalizer** (`parse_simple_bibitems`) is the lighter reader for
  biblatex output.
- **Reconciler** covers the comparison stage:
  - `ignore_unfixable` patches listed entries;
  - `format_diff` builds the first-difference marker;
  - `contrast_refs` contrasts several id-to-text mappings;
  - `sync` performs the missing-set logic.
- **CslAligner** (`csl/check-output.py`) is the five-state scan over
  pandoc's HTML. It pairs every generated reference with a target
  paragraph.

Every line loop has two parts:

- a step function and a fold over the lines, which is the specification;
- a method with the source's own loop, proved equal to that fold.

The properties are proved about the fold. Python exceptions become
`Failure` results. These are the `IndexError` of an empty checkpoint
stack, the `IndexError` of `pop(0)` on an empty target list, and the
`ClickException` of `contrast_refs` with no mapping. Each fixed regular
expression is its own matcher, tried left to right by a generic
`re.sub`/`re.finditer`/`re.search` model.

The model follows the code:

- a command keeps its backslash, its name and the braces of its argument,
  so `\emph{T}` survives `parse_bibitems`;
- `\bibinfo` swallows only its first group (the field name), and the
  value group after it is kept;
- `contrast_refs` only examines keys of the first mapping. Keys that only
  the other mappings hold are added by `sync`'s own loops.

## Model

| member | source | states |
|---|---|---|
| Text.LStrip | check.py:119 | The result is a suffix of the input, all that was removed is whitespace, and it does not start with whitespace. |
| Text.RStrip | check.py:119 | The mirror image of LStrip: a prefix of the input, with only trailing whitespace removed, not ending in whitespace. |
| Text.Search | check.py:170 | `re.search`: the match found is at the leftmost position where the pattern matches; no position matches when there is none. |
| Text.ReSubUnmatched | check.py:40 | Where a pattern matches at no position, `re.sub` returns its input unchanged. |
| Text.ReplaceCharGone | check.py:275 | After a character is replaced by text that does not contain some character `c`, no `c` remains, provided `c` was absent or is the replaced character. |
| Text.ReplaceNowhere | check.py:382 | `str.replace` leaves a text in which the pattern never occurs unchanged. |
| Text.ReplaceOnce | check.py:382 | A pattern found at the start and absent from the rest is replaced exactly once. |
| Patterns.CollapseLeavesNoSuffix | check.py:174-177 | After the date-suffix collapse, no `, dddd[ab]. ` is left anywhere in the text. |
| Patterns.CollapseIdempotent | check.py:174-177 | Applying the date-suffix collapse a second time changes nothing. |
| Patterns.UnwrapNatexlabLabel | check.py:195 | `{\natexlab{x}}` becomes the bare `x`. |
| Patterns.BibexboxIdOfOpening | check.py:28 | A line opening a `bibexbox` with options and an identifier yields that identifier. |
| Patterns.BibitemIdOfHeader | check.py:170 | A complete `\bibitem[tag]{id}` line yields `id`, even when the tag itself holds `]{`: the greedy match settles on the last one. |
| Patterns.LegacyBibitemIdOfHeader | bst/check-output.py:79 | The older header pattern yields the identifier of a line that begins with a `\bibitem[tag]{id}` header. |
| Patterns.CiteIdsCons | check.py:67-69 | A leading `\cite{id}` contributes `id` ahead of the identifiers cited in the rest of the line. |
| Patterns.EnquoteSpan | check.py:273 | A span between curly single quotes becomes `\enquote{..}` around the same text. |
| Patterns.SplitEmphYearTitle | check.py:385-387 | `\emph{title dddd}` becomes `\emph{title} \emph{dddd}`. |
| Targets.DtxStep | check.py:26-41 | Keeps the entry of the open box. Outside a box, the new current box is the one the line opens, if any. |
| Targets.DtxRunInOrder | check.py:22-30 | The insertion order kept beside the targets lists each key exactly once. |
| Targets.DtxBoxBody | check.py:33-41 | Inside a box, each text line extends the target by its cleaned text, joined by single spaces. |
| Targets.DtxBlankInBox | check.py:38-41 | A box line that cleans to nothing still adds the separating space when the target already has text. It changes nothing when the target is empty. |
| Targets.DtxBlankDoubleSpace | check.py:33-41 | A blank line between two text lines of a fresh box leaves a double space between their cleaned texts. |
| Targets.DtxBox | check.py:27-41 | A whole box (opening line, text lines, `\tcblower`) sets the box identifier's target to the cleaned lines joined by spaces and closes the box. |
| Targets.DtxOutsideBoxes | check.py:27-31 | Outside a box, lines that open none change nothing. |
| Targets.DtxKeysFromBoxes | check.py:27-30 | Every identifier in the result was named by a box-opening line. |
| Targets.ExtractDtxTargets | check.py:17-43 | The loop returns the targets and the insertion order of the scan. It serves both `check.py` and `bst/check-output.py:9-27`, which differ only in how a line is cleaned. |
| Targets.CslStep | check.py:56-76 | Identifiers are queued only when the queue is empty, in `\cite` order. Text is gathered only while an identifier waits. |
| Targets.CslGathers | check.py:72-76 | While an identifier waits, paragraph lines are gathered in order, cleaned. |
| Targets.CslParagraph | check.py:59-64 | A paragraph and the blank line after it become the target of the queue head, space-joined. The head leaves the queue and the gathered text is emptied. |
| Targets.CslQueuesCitations | check.py:66-70 | A citation line met with an empty queue queues its identifiers left to right. |
| Targets.Enqueue | check.py:67-69 | The loop over the matches appends them to the queue in order. |
| Targets.ExtractCslTargets | check.py:46-78 | The loop returns what the scan's fold returns. |
| Segmenter.PreambleDropped | check.py:112-116 | Lines before the first `\bibitem` line are dropped. Input made only of such lines yields nothing. |
| Segmenter.HeaderEmitted | check.py:134-144 | A `\bibitem` line whose `[`/`]` and `{`/`}` counts match is emitted alone. |
| Segmenter.HeaderJoined | check.py:134-144 | From a state with nothing pending, take a run of content lines that starts with a `\bibitem` line and whose accumulation balances only at its last line. Exactly one line is emitted: the run's stripped lines joined by single spaces. Nothing is left pending. |
| Segmenter.BlankLine | check.py:121-132 | With BibTeX output a blank line ends the record. With biblatex output it is skipped. |
| Segmenter.SegBody | check.py:134-144 | The body lines of a record accumulate, stripped. |
| Segmenter.RecordEmitted | check.py:104-132 | The line that ends a record emits its body space-joined, with `\url {` closed up, followed by an empty separator. |
| Segmenter.PendingFlushed | check.py:146-147 | A record still pending at the end of the input is flushed. |
| Segmenter.SegmentedShaped | check.py:81-149 | Every line returned is one of: an empty separator; a complete `\bibitem` line with matching brackets and braces; a body line followed by a separator. |
| Segmenter.GetBibitems | check.py:99-149 | The loop and the final flush return what the fold returns. |
| Segmenter.LegacyBlankLine | bst/check-output.py:53-60 | In the older joiner, a blank line with nothing pending is emitted as an empty line. |
| Segmenter.LegacyJoinedMatch | bst/check-output.py:41-60 | Every line the older joiner emits has matching `[`/`]` and `{`/`}` counts. |
| Segmenter.LegacyJoinedRun | bst/check-output.py:45-60 | With nothing pending, a run of lines whose accumulation balances only at its last line is emitted by the older joiner as one line: its stripped lines joined by single spaces. |
| Segmenter.JoinLegacyLines | bst/check-output.py:41-60 | The older joiner's loop returns what its fold returns. |
| Interpreter.NormalStep | check.py:201-214 | Fails exactly on a `}` with no checkpoint. A backslash moves to `Cs` and nothing else leaves `Normal`. A `}` is kept exactly when the new level equals the top checkpoint. |
| Interpreter.CsStep | check.py:215-240 | Enters `Gobble` exactly at `\bibinfo{`. Stays in `Cs` exactly on a name character. Any other `{` pushes the pre-increment level and keeps the brace. |
| Interpreter.GobbleStep | check.py:241-249 | Nothing reaches the text or the pending token. `Gobble` is left exactly when the level returns to the gobble checkpoint. |
| Interpreter.CharStep | check.py:200-251 | The state stack keeps one of its three shapes. The only failure is a `}` outside `Gobble` with no checkpoint. In `Gobble` nothing is produced. |
| Interpreter.ValidStep | check.py:200-251 | Every step keeps the record invariant: stack shapes, increasing checkpoints below the level, and no brace in a pending command name. |
| Interpreter.RunKeepsValid | check.py:200-251 | The invariant holds after a whole scanned line. |
| Interpreter.BraceFate | check.py:206-214 | Outside `Gobble`, a `{` is kept exactly when it opens a non-`\bibinfo` argument. A `}` is kept exactly when it returns the level to the top checkpoint, which is popped. Every other brace only moves the level. |
| Interpreter.CsCloseVisible | check.py:232-240 | A `}` that ends a command name leaves the name (except `\relax`), plus the brace when it closes an argument. |
| Interpreter.CommandKept | check.py:209-231 | `\name{t}` with plain `t` keeps backslash, name and both braces of its argument. |
| Interpreter.NestedCommandKept | check.py:209-238 | `\a{\b{x}}` keeps both closing braces: each argument pushes its own checkpoint. |
| Interpreter.PlainGroupUnwrapped | check.py:206-214 | A group that is not a command argument loses both braces and keeps its text. |
| Interpreter.GobbleRun | check.py:241-249 | A gobbled group of any nesting produces nothing and only moves the level. |
| Interpreter.BibinfoDropsField | check.py:220-249 | `\bibinfo{field}` produces nothing beyond flushing the pending token, whatever the field's nesting. |
| Interpreter.BibinfoKeepsValue | check.py:222-249 | `\bibinfo{field}{value}` keeps the value's text. |
| Interpreter.LineStep | check.py:168-254 | Every line keeps the parser's invariant. |
| Interpreter.HeaderLine | check.py:169-173 | Outside a record, a header opens it. A repeated identifier restarts from the empty text. |
| Interpreter.OtherLineOutside | check.py:169-173 | Outside a record, a line that is not a header changes nothing. |
| Interpreter.BlankLine | check.py:174-183 | A blank line applies the date-suffix collapse to the record's text. It resets the state to `[Normal]`, the level to 1 and both checkpoint stacks to `[0]`. |
| Interpreter.TextGrows | check.py:200-251 | Scanning a line only appends to the text already flushed. |
| Interpreter.BodyLineExtends | check.py:185-254 | A body line whose scan succeeds keeps the record open and the set of identifiers unchanged. The record's old text, with its separating space, stays a prefix of the new text. |
| Interpreter.BodyLinesExtend | check.py:168-254 | Over a run of non-blank lines inside a record, the record's text only grows. |
| Interpreter.LinesKeepBetween | check.py:168-254 | Outside a record the automaton is always in its reset state. |
| Interpreter.SkipsUntilHeader | check.py:169-173 | Lines before the first header change nothing. |
| Interpreter.PrepareKeepsVerbatim | check.py:185-195 | The literal rewrites and the `\natexlab` unwrap leave a line without backslash, brace or tilde unchanged. |
| Interpreter.VerbatimLines | check.py:197-254 | Verbatim body lines are joined to the record's text by single spaces. |
| Interpreter.VerbatimBodyThenBlank | check.py:174-254 | A record of verbatim lines ends with its lines space-joined and collapsed, and the automaton reset. |
| Interpreter.NormalChar | check.py:201-214 | The loop body for `Normal` computes NormalStep. |
| Interpreter.CsChar | check.py:215-240 | The loop body for `Cs` computes CsStep. |
| Interpreter.GobbleChar | check.py:241-249 | The loop body for `Gobble` computes GobbleStep. |
| Interpreter.ScanLine | check.py:200-251 | The character loop computes the scan of the line, or its `IndexError`. |
| Interpreter.ScanBodyLine | check.py:185-254 | One body line through the loop is LineStep. |
| Interpreter.ParseBibitems | check.py:152-256 | The whole function returns the fold's mapping, or the exception. |
| RecordFacts.RecordOfVerbatimLines | check.py:168-183 | A header, verbatim body lines and a blank line give the identifier its space-joined, collapsed text. |
| RecordFacts.ParsedSingleRecord | check.py:152-256 | `parse_bibitems` on one record of verbatim lines returns exactly that identifier with that text. |
| RecordFacts.OpenedRecordCloses | check.py:174-183 | The body and blank line of a just-opened record set its text and reset the automaton. |
| LegacyInterpreter.NormalStep | bst/check-output.py:110-123 | `{` only raises the level. `}` is kept only when it returns the level to the single checkpoint, which is then cleared. |
| LegacyInterpreter.CsStep | bst/check-output.py:124-140 | Only a space or `{` ends the name. A `}` is appended to the name and `Cs` continues. |
| LegacyInterpreter.GobbleStep | bst/check-output.py:141-149 | Nothing is produced. `Gobble` ends when the level returns to the gobble checkpoint. |
| LegacyInterpreter.CommandKept | bst/check-output.py:115-140 | A non-nested `\name{t}` keeps name and both braces. |
| LegacyInterpreter.NestedArgumentLosesBrace | bst/check-output.py:118-140 | In `\a{\b{x}}` the inner argument overwrites the single checkpoint, so the outer `}` is dropped. |
| LegacyInterpreter.NestedArgumentShown | bst/check-output.py:109-153 | The record then shows `\a{\b{x}`, one closing brace short. |
| LegacyInterpreter.BibinfoDropsField | bst/check-output.py:129-149 | `\bibinfo{field}` produces nothing beyond the flushed token. |
| LegacyInterpreter.GobbleRun | bst/check-output.py:141-149 | A gobbled group of any nesting produces nothing. |
| LegacyInterpreter.LineStep | bst/check-output.py:75-154 | Outside a record only a header matters. A bare `\newblock` is skipped. A blank line stores the merged text and resets the automaton. Other lines keep the record open. |
| LegacyInterpreter.NormalChar | bst/check-output.py:110-123 | The loop body for `NORMAL` computes NormalStep. |
| LegacyInterpreter.CsChar | bst/check-output.py:124-140 | The loop body for `CS` computes CsStep. |
| LegacyInterpreter.GobbleChar | bst/check-output.py:141-149 | The loop body for `GOBBLE` computes GobbleStep. |
| LegacyInterpreter.CharStep | bst/check-output.py:109-149 | One character leaves the state stack in one of its three shapes. In `[NORMAL, GOBBLE]` it changes no visible output. |
| LegacyInterpreter.Run | bst/check-output.py:109-153 | Scanning a line from a well-shaped state leaves the state stack in one of its three shapes. |
| LegacyInterpreter.ScanLine | bst/check-output.py:109-153 | The character loop computes the scan of the line. |
| LegacyInterpreter.ScanBodyLine | bst/check-output.py:92-154 | One body line through the loop is LineStep. |
| LegacyInterpreter.MergeEmph | bst/check-output.py:85-89 | The merge never lengthens the text, and it changes the text only when an `\emph` pair with balanced braces is found. |
| LegacyInterpreter.Compare | bst/check-output.py:156-165 | Reports only ids of the target order, at most one report per id. |
| LegacyInterpreter.PrepareKeepsVerbatim | bst/check-output.py:97-104 | The literal rewrites leave a line without backslash, brace or tilde unchanged. |
| LegacyInterpreter.VerbatimLine | bst/check-output.py:106-154 | A stripped body line without backslash, brace or tilde is appended after a separating space. |
| LegacyInterpreter.TextGrows | bst/check-output.py:109-153 | Scanning a line only appends to the text already flushed. |
| LegacyInterpreter.BodyLineExtends | bst/check-output.py:92-154 | A body line other than a bare `\newblock` keeps the record open and the set of identifiers unchanged. The record's old text, with its separating space, stays a prefix of the new text. |
| LegacyInterpreter.BodyLinesExtend | bst/check-output.py:75-154 | Over lines that are not blank after stripping, including bare `\newblock` lines, the record's text only grows. |
| LegacyInterpreter.HeaderOpens | bst/check-output.py:78-82 | A header opens a record with an empty text. |
| LegacyInterpreter.PairBalanced | bst/check-output.py:87 | An `\emph{x} \emph{y}` pair whose parts have no braces or backslashes has two `{` and two `}`, so it passes the balance test. |
| LegacyInterpreter.JointReplaced | bst/check-output.py:88 | Merging the pair turns `\emph{x} \emph{y}` into `\emph{x y}`. |
| LegacyInterpreter.PairFound | bst/check-output.py:86 | The pair pattern finds such a pair first when the text before it holds no backslash. |
| LegacyInterpreter.EmphPairMerged | bst/check-output.py:85-89 | At the end of a record, an `\emph{a} \emph{b}` pair (after text with no backslash, and not recurring later) becomes `\emph{a b}`, and the rest of the text is unchanged. |
| LegacyInterpreter.CompareReports | bst/check-output.py:156-165 | A target is reported missing exactly when it has no output. It is reported as a mismatch, with both texts, exactly when its output differs. Outputs without a target are never reported. |
| LegacyInterpreter.CompareSilent | bst/check-output.py:156-165 | Nothing is printed exactly when every target has an identical output. |
| LegacyInterpreter.ParseLines | bst/check-output.py:64-154 | The line loop returns the fold's outputs. |
| LegacyInterpreter.ReportDifferences | bst/check-output.py:156-165 | The report loop returns the verdicts in target order. |
| LegacyInterpreter.CheckOutput | bst/check-output.py:9-165 | The whole script is the report of the targets against the parsed joined lines. |
| SimpleNormalizer.Normalise | check.py:273-275 | No right single quote and no en dash survives the rewrites of a body line. |
| SimpleNormalizer.NormaliseKeepsPlain | check.py:273-275 | A line with no curly quote, en dash or comma is kept as it is. |
| SimpleNormalizer.TransliterateReplaces | check.py:275 | The two chained `str.replace` calls rewrite character by character: a right single quote becomes `'`, an en dash becomes `--`, and every other character is kept. |
| SimpleNormalizer.NormaliseTransliterates | check.py:273-275 | On a line with no left curly quote and no comma, the rewrites of a body line are exactly that character-by-character rewrite. |
| SimpleNormalizer.SimpleParsedClean | check.py:259-277 | No returned text holds a right single quote or an en dash. |
| SimpleNormalizer.SimpleKeysFromHeaders | check.py:266-269 | Every returned identifier was named by a `\bibitem{..}` line. |
| SimpleNormalizer.SimpleBodyRun | check.py:272-275 | Inside a record, the last non-blank line wins. |
| SimpleNormalizer.SimpleRecord | check.py:266-275 | Header, body and blank line leave the last body line's text, or no entry for an empty body, and close the record. |
| SimpleNormalizer.ParseSimpleBibitems | check.py:259-277 | The loop returns the fold's mapping. |
| Reconciler.PatchEach | check.py:358-387 | Each listed key that is present is patched. Every other key keeps its text, and the keys are unchanged. |
| Reconciler.ListsDisjoint | check.py:358-383 | No entry appears in two of the patch lists, and none twice in one. |
| Reconciler.IgnoreUnfixable | check.py:352-388 | The keys are kept, each text receives its own patch, and unlisted entries are untouched. |
| Reconciler.UnlistedUnpatched | check.py:352-388 | An entry in none of the lists keeps its text. |
| Reconciler.OnlinePatched | check.py:373-382 | Listed entries turn `title \textup{[Online]}}` into `title} [Online]`. |
| Reconciler.EmphYearPatched | check.py:383-387 | Listed entries turn `\emph{title dddd}` into `\emph{title} \emph{dddd}`. |
| Reconciler.Agree | check.py:395-398 | The length of the longest common prefix: both strings agree up to it and differ right after it. |
| Reconciler.AgreePrefix | check.py:395-398 | The common prefix is the whole primary string exactly when it is a prefix of the secondary one. |
| Reconciler.FormatDiff | check.py:391-400 | The loop builds the marker: `len(label)+2` spaces, a `-` per agreeing position, then `^` at the first difference. |
| Reconciler.DiffMarkerCaret | check.py:391-400 | There is a `^` exactly when the primary string is not a prefix of the secondary one. It is the last character and sits under the first difference or the secondary string's end. |
| Reconciler.CompareKey | check.py:426-434 | For one key, the inner loop marks the labels lacking it and produces the error lines. |
| Reconciler.ContrastRefs | check.py:403-449 | The returned mapping and reports are those of the fold over the primary keys. With no mapping the result is the exception. |
| Reconciler.LackingIff | check.py:427-429 | A label is marked exactly when its mapping lacks the key. |
| Reconciler.ErrorLinesEmpty | check.py:430-434 | A key has error lines exactly when some mapping's text differs from the target even after the date-letter drop. |
| Reconciler.ContrastMissing | check.py:423-449 | A key is returned exactly when it is a primary key, some mapping lacks it and none disagrees. Its entry is the set of lacking labels. |
| Reconciler.ContrastReports | check.py:435-444 | Reports describe primary keys with their text and error lines. Every key with error lines is reported. |
| Reconciler.SelfContrast | check.py:403-449 | A mapping contrasted with copies of itself gives no report and an empty result. |
| Reconciler.Sync | check.py:540-559 | The loops after the contrast compute the missing-set mapping. |
| Reconciler.MarkAbsentIs | check.py:550-559 | One loop adds, for each of its keys, the labels of the two other mappings that lack it. |
| Reconciler.SyncContrast | check.py:545-549 | The contrast of the three mappings returns only Biblatex keys, with their lacking labels. A key the other two both lack is always returned. |
| Reconciler.SyncExact | check.py:540-559 | `sync` lists exactly the keys found in some but not all three mappings, each with the labels of the mappings that lack it. |
| CslAligner.Paragraph | csl/check-output.py:82-87 | A generated line is wrapped as `<p>..</p>\n`. |
| CslAligner.FirstIndex | csl/check-output.py:88-90 | Returns the first index holding the paragraph, or none exactly when it is absent. |
| CslAligner.FindTarget | csl/check-output.py:88-90 | The search loop finds that first index. |
| CslAligner.RemoveOne | csl/check-output.py:90 | `remove` takes away exactly one occurrence. |
| CslAligner.PairLine | csl/check-output.py:82-104 | One generated line: rewrite, search, remove or `pop(0)`, write the block, empty the pending text. |
| CslAligner.CheckOutput | csl/check-output.py:27-106 | The whole scan, each line going through AlignStep, returns the text written, or the `IndexError` it stops with. |
| CslAligner.PhaseMoves | csl/check-output.py:44-104 | The state transitions are: normal to test at a citation span; test to target at the first `<p>`; target to refs; refs to generated; generated to refs and refs to normal at `</div>`. Only the generated state fails. |
| CslAligner.PlaceholderSkipped | csl/check-output.py:50-62 | `<p>...</p>` placeholders change nothing in the normal, test and target states. |
| CslAligner.OutputGrows | csl/check-output.py:44-104 | The written text is only ever appended to. |
| CslAligner.PairRemovesOne | csl/check-output.py:88-104 | Pairing a paragraph (Pair) removes exactly one target, and the phase is unchanged: the first equal one, giving a success block, or else the head, giving a failure block. The other targets keep their order: the first equal one is cut out of the sequence, or else the head is dropped. With no target left and no match the script fails. The pending text is emptied. |
| CslAligner.QueuedTargets | csl/check-output.py:54-66 | Only paragraph lines other than the placeholder are ever queued as targets. |
| CslAligner.GeneratedPairs | csl/check-output.py:76-104 | A generated line other than `</div>` is paired. |
| CslAligner.AllPaired | csl/check-output.py:88-96 | When the paragraphs are a sub-multiset of the targets, all pairs succeed and take exactly those targets. |
| CslAligner.EntryClosed | csl/check-output.py:76-104 | Take a generated reference whose paragraphs all find their targets. Its `</div>` line is written twice after the success blocks, and the scan returns to the expected references. |

## Left out

- The `make` subprocess calls and file-existence checks are not modelled. Neither are file reads and writes, and the "Please generate" and "Finished!" messages. Every loop takes the file's lines as a `seq<string>` and returns strings, maps or reports.
- `parse_csl_refs` (check.py:280-349) is not part of this model. It depends on lxml's HTML parsing and serialisation and on `html.unescape`.
- The click command group and its commands (check.py:461-536) are not modelled. Neither are `print_missing`, the `ngettext` wording, echo and secho output, the "No discrepancies found." line, or the printing loop of `sync` with its sorted labels (check.py:560-565). The model keeps the mappings, the reports and the missing-set logic those print.
- csl/yaml2json.py is not part of this model: it is a YAML-to-JSON wrapper. processor.py is not part of this model either: it is a schema with no behaviour.
- Python dictionary iteration order is an explicit sequence listing each key once (`ListsKeys`, `DtxScan.order`).
- `\d` in the fixed patterns is modelled as the ASCII digits. Python 3 also accepts other Unicode decimal digits.
- `ignore_unfixable`'s `compat` parameter is unused by the source, so it is not modelled.
- The last `else` branch of csl/check-output.py:105-106 has no counterpart. The phase is a five-valued datatype, so the branch cannot be reached.
- Regular expressions are not modelled in general. Each fixed pattern is its own matcher, with the greedy or lazy choice written out.
- CslAligner.Paragraph: states only the `<p>..</p>\n` wrapping. Its four rewrites (lis-link prefix, quote-span unwrap, nocase unwrap, `class="uri"`) are defined but not given separate properties.
- SimpleNormalizer.NormaliseTransliterates: gives the reference reading of a body line's rewrites only for lines with no left curly quote and no comma. On other lines the `\enquote` and date-suffix rewrites come first, and they have no separate reference definition.
- LegacyInterpreter.Compare: its own contract bounds the report. The exact content of the report is stated by CompareReports and CompareSilent.

## Findings

| source | as written | input that shows it | evidently intended | confidence | as-written member | corrected member |
|---|---|---|---|---|---|---|
| bst/check-output.py:118-140 | One `exit_arg` slot: the inner argument of a nested command overwrites it, and its `}` clears it. The outer command's `}` then finds no checkpoint and is dropped. | `\emph{\textbf{x}}` yields `\emph{\textbf{x}` | Both closing braces kept, as the checkpoint stack of check.py:209-238 does | not executed; medium (check.py replaced the slot by a stack) | LegacyInterpreter.NestedArgumentLosesBrace | Interpreter.NestedCommandKept |

=== FILE: csl_aligner.dfy ===
/** csl/check-output.py: a five-state scan over the lines of pandoc's HTML
    rendering of the CSL test document. Test citations are copied out, the
    target paragraphs of each test are queued, and each reference pandoc
    generated is normalised and paired with a queued target: the first
    equal one if there is one (a success block), otherwise the oldest one
    (a failure block). */
module CslAligner {
  import opened Wrappers
  import opened Text
  import opened Patterns

  /** The five values of `state`; Python's fallback branch for any other
      value (csl/check-output.py:105-106) has no counterpart, since no
      assignment ever leaves these five. */
  datatype Phase = Normal | Test | Target | Refs | Generated

  /** The script's variables: `output`, `state`, `target_strings` and
      `output_string`. */
  datatype Aligner = Aligner(output: string, phase: Phase, targets: seq<string>, pending: string)

  const Start := Aligner("", Normal, [], "")

  const CitationSpan := "<span class=\"citation\""
  const TestOpen := "<div class=\"test\">\n<div class=\"citation\">\n"
  const DivEnd := "</div>\n"
  const Ellipsis := "<p>...</p>"
  const ParaOpen := "<p>"
  const RefsOpen := "<div id=\"refs\""
  const RefOpen := "<div id=\"ref-"
  const DivClose := "</div>"
  const LisLink := "href=\"https://lis-link@"
  const LisLinkFix := "href=\"lis-link@"

  /** The rewrites of a generated reference line, wrapped as a paragraph
      (csl/check-output.py:82-86). */
  function Paragraph(line: string): (r: string)
    ensures ParaOpen <= r && |r| >= 5 && r[|r| - 5..] == "</p>\n"
  {
    var l1 := Replace(line, LisLink, LisLinkFix);
    var l2 := UnwrapQuoteSpans(l1);
    var l3 := UnwrapNocase(l2);
    var l4 := MarkUriAnchors(l3);
    var r := ParaOpen + Strip(l4) + "</p>\n";
    assert r[..|ParaOpen|] == ParaOpen;
    assert r[|r| - 5..] == "</p>\n";
    r
  }

  function SuccessBlock(target: string, refs: string): string {
    "<div class=\"target success\">\n" + target + DivEnd + "<div class=\"references success\">\n" + refs
  }

  function FailureBlock(target: string, refs: string): string {
    "<div class=\"target failure\">\n" + target + DivEnd + "<div class=\"references failure\">\n" + refs
  }

  /** The index of the first entry equal to `x`. */
  function FirstIndex(s: seq<string>, x: string): (r: Option<nat>)
    ensures r.Some? ==> r.value < |s| && s[r.value] == x && x !in s[..r.value]
    ensures r.None? <==> x !in s
    decreases |s|
  {
    if |s| == 0 then None
    else if s[0] == x then Some(0)
    else match FirstIndex(s[1..], x)
      case Some(j) =>
        assert s[..j + 1] == [s[0]] + s[1..][..j];
        Some(j + 1)
      case None => None
  }

  function Remove(s: seq<string>, j: nat): seq<string>
    requires j < |s|
  {
    s[..j] + s[j + 1..]
  }

  lemma RemoveOne(s: seq<string>, j: nat)
    requires j < |s|
    ensures multiset(Remove(s, j)) == multiset(s) - multiset{s[j]}
    ensures |Remove(s, j)| == |s| - 1
  {
    assert s == s[..j] + [s[j]] + s[j + 1..];
  }

  /** A generated reference's paragraph `p` paired with a target, and the
      pending reference text emitted (csl/check-output.py:87-104). */
  function Pair(a: Aligner, p: string): Result<Aligner, string> {
    var refs := a.pending + p;
    match FirstIndex(a.targets, p)
    case Some(j) =>
      Success(a.(output := a.output + SuccessBlock(a.targets[j], refs), targets := Remove(a.targets, j), pending := ""))
    case None =>
      if |a.targets| == 0 then Failure("pop from empty list")
      else Success(a.(output := a.output + FailureBlock(a.targets[0], refs), targets := a.targets[1..], pending := ""))
  }

  /** One line of the scan (csl/check-output.py:42-106). */
  function AlignStep(a: Aligner, line: string): Result<Aligner, string> {
    match a.phase
    case Normal =>
      if Contains(line, CitationSpan) then
        Success(a.(output := a.output + TestOpen + line + DivEnd, phase := Test))
      else if Ellipsis <= line then Success(a)
      else Success(a.(output := a.output + line))
    case Test =>
      if Ellipsis <= line then Success(a)
      else if ParaOpen <= line then Success(a.(targets := a.targets + [line], phase := Target))
      else Success(a)
    case Target =>
      if Ellipsis <= line then Success(a)
      else if ParaOpen <= line then Success(a.(targets := a.targets + [line]))
      else if RefsOpen <= line then Success(a.(phase := Refs))
      else Success(a)
    case Refs =>
      if RefOpen <= line then Success(a.(phase := Generated, pending := a.pending + line))
      else if DivClose <= line then Success(a.(output := a.output + line, phase := Normal))
      else Success(a.(pending := a.pending + line))
    case Generated =>
      if DivClose <= line then Success(a.(output := a.output + line + line, phase := Refs))
      else Pair(a, Paragraph(line))
  }

  function AlignRun(a: Aligner, lines: seq<string>): Result<Aligner, string>
    decreases |lines|
  {
    if |lines| == 0 then Success(a)
    else match AlignStep(a, lines[0])
      case Failure(e) => Failure(e)
      case Success(a') => AlignRun(a', lines[1..])
  }

  /** The text the script writes, or the IndexError it stops with. */
  function Aligned(lines: seq<string>): Result<string, string> {
    match AlignRun(Start, lines)
    case Success(a) => Success(a.output)
    case Failure(e) => Failure(e)
  }

  lemma FirstIndexAt(s: seq<string>, x: string, i: nat)
    requires i < |s| && s[i] == x && x !in s[..i]
    ensures FirstIndex(s, x) == Some(i)
  {
    assert x in s;
    var j := FirstIndex(s, x).value;
    assert forall k :: 0 <= k < i ==> s[..i][k] == s[k];
    assert forall k :: 0 <= k < j ==> s[..j][k] == s[k];
  }

  /** The inner loop of csl/check-output.py:88-90: the first target equal
      to the paragraph. */
  method FindTarget(targets: seq<string>, p: string) returns (found: Option<nat>)
    ensures found == FirstIndex(targets, p)
  {
    for i := 0 to |targets|
      invariant p !in targets[..i]
    {
      if targets[i] == p {
        FirstIndexAt(targets, p, i);
        return Some(i);
      }
      assert targets[..i + 1] == targets[..i] + [targets[i]];
    }
    assert targets[..|targets|] == targets;
    found := None;
  }

  lemma AlignCons(a: Aligner, lines: seq<string>, i: nat, b: Aligner)
    requires i < |lines| && AlignStep(a, lines[i]) == Success(b)
    ensures AlignRun(a, lines[i..]) == AlignRun(b, lines[i + 1..])
  {
    assert lines[i..][0] == lines[i] && lines[i..][1..] == lines[i + 1..];
  }

  lemma AlignFails(a: Aligner, lines: seq<string>, i: nat)
    requires i < |lines| && AlignStep(a, lines[i]).Failure?
    ensures AlignRun(a, lines[i..]) == Failure(AlignStep(a, lines[i]).error)
  {
    assert lines[i..][0] == lines[i];
  }

  /** Pairing one generated reference line with a target
      (csl/check-output.py:82-104). */
  method PairLine(a: Aligner, line: string) returns (r: Result<Aligner, string>)
    ensures r == Pair(a, Paragraph(line))
  {
    var targets := a.targets;
    var output := a.output;
    var p := Paragraph(line);
    var pending := a.pending + p;
    var found := FindTarget(targets, p);
    if found.Some? {
      var target := targets[found.value];
      targets := Remove(targets, found.value);
      output := output + SuccessBlock(target, pending);
    } else {
      if |targets| == 0 {
        return Failure("pop from empty list");
      }
      var target := targets[0];
      targets := targets[1..];
      output := output + FailureBlock(target, pending);
    }
    pending := "";
    r := Success(Aligner(output, a.phase, targets, pending));
  }

  /** csl/check-output.py over the lines of the pandoc output: the text it
      writes, or the IndexError it stops with. */
  method CheckOutput(lines: seq<string>) returns (r: Result<string, string>)
    ensures r == Aligned(lines)
  {
    var output := "";
    var state := Normal;
    var targets: seq<string> := [];
    var pending := "";
    for i := 0 to |lines|
      invariant AlignRun(Aligner(output, state, targets, pending), lines[i..]) == AlignRun(Start, lines)
    {
      var line := lines[i];
      var a := Aligner(output, state, targets, pending);
      match state {
        case Normal =>
          if Contains(line, CitationSpan) {
            output := output + TestOpen + line + DivEnd;
            state := Test;
          } else if !(Ellipsis <= line) {
            output := output + line;
          }
        case Test =>
          if !(Ellipsis <= line) && ParaOpen <= line {
            targets := targets + [line];
            state := Target;
          }
        case Target =>
          if !(Ellipsis <= line) {
            if ParaOpen <= line {
              targets := targets + [line];
            } else if RefsOpen <= line {
              state := Refs;
            }
          }
        case Refs =>
          if RefOpen <= line {
            state := Generated;
            pending := pending + line;
          } else if DivClose <= line {
            output := output + line;
            state := Normal;
          } else {
            pending := pending + line;
          }
        case Generated =>
          if DivClose <= line {
            output := output + line;
            output := output + line;
            state := Refs;
          } else {
            var paired := PairLine(a, line);
            if paired.Failure? {
              AlignFails(a, lines, i);
              return Failure(paired.error);
            }
            output, targets, pending := paired.value.output, paired.value.targets, paired.value.pending;
          }
      }
      AlignCons(a, lines, i, Aligner(output, state, targets, pending));
    }
    assert lines[|lines|..] == [];
    r := Success(output);
  }

  // ---------------------------------------------------------------------
  // What the scan promises.

  /** The transitions of `state`: normal to test at a citation span, test
      to target at the first paragraph, target to refs at the reference
      list, refs to generated at a reference, and back from generated to
      refs and from refs to normal at `</div>`. Only the generated state
      can fail. */
  lemma PhaseMoves(a: Aligner, line: string)
    ensures var r := AlignStep(a, line);
            && (r.Failure? ==> a.phase == Generated)
            && (r.Success? && a.phase == Normal ==>
                  r.value.phase == (if Contains(line, CitationSpan) then Test else Normal))
            && (r.Success? && a.phase == Test ==>
                  r.value.phase == (if ParaOpen <= line && !(Ellipsis <= line) then Target else Test))
            && (r.Success? && a.phase == Target ==>
                  r.value.phase == (if RefsOpen <= line then Refs else Target))
            && (r.Success? && a.phase == Refs ==>
                  r.value.phase == (if RefOpen <= line then Generated else if DivClose <= line then Normal else Refs))
            && (r.Success? && a.phase == Generated ==>
                  r.value.phase == (if DivClose <= line then Refs else Generated))
  {
    match a.phase
    case Generated =>
      if !(DivClose <= line) {
        PairRemovesOne(a, Paragraph(line));
      }
    case Target =>
      if RefsOpen <= line {
        assert line[1] == RefsOpen[1] != ParaOpen[1];
        assert line[1] == RefsOpen[1] != Ellipsis[1];
      }
    case _ =>
  }

  /** Step fact: a `<p>...</p>` placeholder changes nothing in the test and target
      states, nor in the normal state unless it also holds a citation. */
  lemma PlaceholderSkipped(a: Aligner, line: string)
    requires Ellipsis <= line
    requires a.phase == Test || a.phase == Target || (a.phase == Normal && !Contains(line, CitationSpan))
    ensures AlignStep(a, line) == Success(a)
  {
  }

  lemma PrefixAppend(s: string, t: string)
    ensures s <= s + t
  {
    assert (s + t)[..|s|] == s;
  }

  /** Pairing only appends to the text written so far. */
  lemma PairGrows(a: Aligner, p: string)
    requires Pair(a, p).Success?
    ensures a.output <= Pair(a, p).value.output
  {
    PairRemovesOne(a, p);
    PrefixAppend(a.output, if p in a.targets then SuccessBlock(p, a.pending + p)
                           else FailureBlock(a.targets[0], a.pending + p));
  }

  /** A step only appends to the text written so far. */
  lemma OutputGrowsStep(a: Aligner, line: string)
    requires AlignStep(a, line).Success?
    ensures a.output <= AlignStep(a, line).value.output
  {
    match a.phase
    case Normal =>
      if Contains(line, CitationSpan) {
        PrefixAppend(a.output, TestOpen + line + DivEnd);
        assert a.output + TestOpen + line + DivEnd == a.output + (TestOpen + line + DivEnd);
      } else {
        PrefixAppend(a.output, line);
      }
    case Test =>
    case Target =>
    case Refs =>
      PrefixAppend(a.output, line);
    case Generated =>
      if DivClose <= line {
        PrefixAppend(a.output, line + line);
        assert a.output + line + line == a.output + (line + line);
      } else {
        GeneratedPairs(a, line);
        PairGrows(a, Paragraph(line));
      }
  }

  /** The text written is never taken back: what a scan has written is a
      prefix of what it writes in the end. */
  lemma {:induction false} OutputGrows(a: Aligner, lines: seq<string>)
    requires AlignRun(a, lines).Success?
    ensures a.output <= AlignRun(a, lines).value.output
    decreases |lines|
  {
    if |lines| > 0 {
      var b := AlignStep(a, lines[0]).value;
      OutputGrowsStep(a, lines[0]);
      OutputGrows(b, lines[1..]);
    }
  }

  /** A paragraph line other than the placeholder. */
  predicate TargetLine(line: string) {
    ParaOpen <= line && !(Ellipsis <= line)
  }

  /** Every queued target is a paragraph line other than the placeholder. */
  predicate Queued(targets: seq<string>) {
    forall k :: 0 <= k < |targets| ==> TargetLine(targets[k])
  }

  /** Pairing a paragraph removes exactly one target: the first one equal
      to it, reported as a success, or else the oldest one, reported as a
      failure; with no target left and no match the script stops. The other
      targets keep their order. The pending reference text is emptied and
      the state stays the same. */
  lemma PairRemovesOne(a: Aligner, p: string)
    ensures var r := Pair(a, p);
            && (r.Failure? <==> p !in a.targets && |a.targets| == 0)
            && (r.Success? ==>
                  && r.value.phase == a.phase && r.value.pending == ""
                  && |r.value.targets| == |a.targets| - 1
                  && multiset(r.value.targets)
                     == multiset(a.targets) - multiset{if p in a.targets then p else a.targets[0]}
                  && r.value.output
                     == a.output + (if p in a.targets then SuccessBlock(p, a.pending + p)
                                    else FailureBlock(a.targets[0], a.pending + p)))
            && (r.Success? && p in a.targets ==>
                  exists j :: 0 <= j < |a.targets| && a.targets[j] == p && p !in a.targets[..j]
                              && r.value.targets == a.targets[..j] + a.targets[j + 1..])
            && (r.Success? && p !in a.targets ==> r.value.targets == a.targets[1..])
  {
    match FirstIndex(a.targets, p)
    case Some(j) =>
      RemoveOne(a.targets, j);
      assert a.targets[j] == p && p !in a.targets[..j];
    case None =>
      if |a.targets| > 0 {
        RemoveOne(a.targets, 0);
        assert Remove(a.targets, 0) == a.targets[1..];
      }
  }

  /** Pairing only takes targets away. */
  lemma PairQueued(a: Aligner, p: string)
    requires Queued(a.targets) && Pair(a, p).Success?
    ensures Queued(Pair(a, p).value.targets)
  {
    var b := Pair(a, p).value;
    match FirstIndex(a.targets, p)
    case Some(j) =>
      forall k | 0 <= k < |b.targets| ensures TargetLine(b.targets[k]) {
        if k < j {
          assert b.targets[k] == a.targets[k];
        } else {
          assert b.targets[k] == a.targets[k + 1];
        }
      }
    case None =>
      forall k | 0 <= k < |b.targets| ensures TargetLine(b.targets[k]) {
        assert b.targets[k] == a.targets[k + 1];
      }
  }

  /** Outside the generated state a step queues at most the line itself,
      and only when it is a target line. */
  lemma StepQueues(a: Aligner, line: string)
    requires a.phase != Generated
    ensures AlignStep(a, line).Success?
    ensures var b := AlignStep(a, line).value;
            b.targets == a.targets || (b.targets == a.targets + [line] && TargetLine(line))
  {
  }

  lemma QueuedStep(a: Aligner, line: string)
    requires Queued(a.targets) && AlignStep(a, line).Success?
    ensures Queued(AlignStep(a, line).value.targets)
  {
    if a.phase == Generated {
      if !(DivClose <= line) {
        PairQueued(a, Paragraph(line));
      }
    } else {
      StepQueues(a, line);
      var b := AlignStep(a, line).value;
      if b.targets != a.targets {
        forall k | 0 <= k < |b.targets| ensures TargetLine(b.targets[k]) {
          if k < |a.targets| {
            assert b.targets[k] == a.targets[k];
          }
        }
      }
    }
  }

  lemma {:induction false} QueuedRun(a: Aligner, lines: seq<string>)
    requires Queued(a.targets) && AlignRun(a, lines).Success?
    ensures Queued(AlignRun(a, lines).value.targets)
    decreases |lines|
  {
    if |lines| > 0 {
      QueuedStep(a, lines[0]);
      QueuedRun(AlignStep(a, lines[0]).value, lines[1..]);
    }
  }

  /** Only paragraph lines, and never the placeholder, are queued as
      targets. */
  lemma QueuedTargets(lines: seq<string>)
    requires AlignRun(Start, lines).Success?
    ensures Queued(AlignRun(Start, lines).value.targets)
  {
    QueuedRun(Start, lines);
  }

  /** The paragraphs of generated reference lines. */
  function Paragraphs(body: seq<string>): (r: seq<string>)
    ensures |r| == |body|
    decreases |body|
  {
    if |body| == 0 then [] else [Paragraph(body[0])] + Paragraphs(body[1..])
  }

  /** The success blocks of paragraphs that all found their target; the
      first carries the reference text pending before it. */
  function Successes(pending: string, ps: seq<string>): string
    decreases |ps|
  {
    if |ps| == 0 then "" else SuccessBlock(ps[0], pending + ps[0]) + Successes("", ps[1..])
  }

  /** Step fact, used by AllPaired: a generated line that is not `</div>`
      is paired. */
  lemma GeneratedPairs(a: Aligner, line: string)
    requires a.phase == Generated && !(DivClose <= line)
    ensures AlignStep(a, line) == Pair(a, Paragraph(line))
  {
  }

  /** Taking the first paragraph's target away keeps the rest a
      sub-multiset of what is left. */
  lemma SubMultisetStep(ps: seq<string>, ts: seq<string>, ts1: seq<string>)
    requires |ps| > 0 && multiset(ps) <= multiset(ts)
    requires multiset(ts1) == multiset(ts) - multiset{ps[0]}
    ensures multiset(ps[1..]) <= multiset(ts1)
    ensures multiset(ts1) - multiset(ps[1..]) == multiset(ts) - multiset(ps)
  {
    assert ps == [ps[0]] + ps[1..];
  }

  /** No line of a run is `</div>`. */
  predicate InsideRefs(body: seq<string>) {
    forall i :: 0 <= i < |body| ==> !(DivClose <= body[i])
  }

  lemma InsideRefsTail(body: seq<string>)
    requires |body| > 0 && InsideRefs(body)
    ensures !(DivClose <= body[0]) && InsideRefs(body[1..])
  {
    assert forall i :: 0 <= i < |body| - 1 ==> body[1..][i] == body[i + 1];
  }

  lemma RunHead(a: Aligner, body: seq<string>, b: Aligner)
    requires |body| > 0 && AlignStep(a, body[0]) == Success(b)
    ensures AlignRun(a, body) == AlignRun(b, body[1..])
  {
  }

  lemma SuccessesJoin(out: string, pending: string, ps: seq<string>)
    requires |ps| > 0
    ensures out + Successes(pending, ps)
         == (out + SuccessBlock(ps[0], pending + ps[0])) + Successes("", ps[1..])
  {
  }

  /** When the paragraphs of a run of generated lines are a sub-multiset of
      the queued targets, every one of them is a success and takes its own
      target away. */
  lemma {:induction false} AllPaired(a: Aligner, body: seq<string>)
    requires a.phase == Generated && InsideRefs(body)
    requires multiset(Paragraphs(body)) <= multiset(a.targets)
    ensures AlignRun(a, body).Success?
    ensures var b := AlignRun(a, body).value;
            && b.phase == Generated
            && b.output == a.output + Successes(a.pending, Paragraphs(body))
            && multiset(b.targets) == multiset(a.targets) - multiset(Paragraphs(body))
    decreases |body|
  {
    if |body| == 0 {
      assert a.output + "" == a.output;
    } else {
      var ps := Paragraphs(body);
      var p := ps[0];
      assert p in multiset(ps);
      InsideRefsTail(body);
      GeneratedPairs(a, body[0]);
      PairRemovesOne(a, p);
      var b1 := Pair(a, p).value;
      SubMultisetStep(ps, a.targets, b1.targets);
      assert ps[1..] == Paragraphs(body[1..]);
      SuccessesJoin(a.output, a.pending, ps);
      AllPaired(b1, body[1..]);
      RunHead(a, body, b1);
    }
  }

  lemma {:induction false} AlignRunConcat(a: Aligner, xs: seq<string>, ys: seq<string>)
    ensures AlignRun(a, xs + ys) == match AlignRun(a, xs) case Success(b) => AlignRun(b, ys) case Failure(e) => Failure(e)
    decreases |xs|
  {
    if |xs| == 0 {
      assert xs + ys == ys;
    } else {
      assert (xs + ys)[0] == xs[0] && (xs + ys)[1..] == xs[1..] + ys;
      match AlignStep(a, xs[0])
      case Failure(e) =>
      case Success(a1) => AlignRunConcat(a1, xs[1..], ys);
    }
  }

  /** A generated reference whose paragraphs all find their target ends at
      its `</div>` line, which is written twice: once for the generated
      entry and once for the expected one. The scan is back among the
      expected references. */
  lemma EntryClosed(a: Aligner, body: seq<string>, close: string)
    requires a.phase == Generated && InsideRefs(body) && DivClose <= close
    requires multiset(Paragraphs(body)) <= multiset(a.targets)
    ensures AlignRun(a, body + [close]).Success?
    ensures var b := AlignRun(a, body + [close]).value;
            && b.phase == Refs
            && b.output == a.output + Successes(a.pending, Paragraphs(body)) + close + close
            && multiset(b.targets) == multiset(a.targets) - multiset(Paragraphs(body))
  {
    AllPaired(a, body);
    var b := AlignRun(a, body).value;
    AlignRunConcat(a, body, [close]);
    assert AlignRun(b, [close]) == AlignStep(b, close);
  }
}

=== FILE: interpreter.dfy ===
/** The command interpreter of check.py (parse_bibitems): it turns the
    segmented BibTeX output into a mapping from identifier to text. Each body
    line gets a fixed chain of literal rewrites and is then scanned character
    by character by an automaton with a state stack (Normal / Cs / Gobble), a
    brace level and two stacks of level checkpoints. A command keeps its name
    and the braces of its argument; only `\bibinfo` drops its first brace
    group; other braces are dropped. */
module Interpreter {
  import opened Wrappers
  import opened Text
  import opened Patterns

  datatype Mode = Normal | Cs | Gobble

  /** The one exception the interpreter can raise: `exit_args[-1]` on an
      empty checkpoint stack, after a `}` has brought the level below the
      sentinel. */
  datatype ParseError = IndexError

  /** The automaton's variables while one record is built: the state stack,
      the brace level, the argument and gobble checkpoints, the pending
      token and the record's text so far. */
  datatype Machine = Machine(
    state: seq<Mode>,
    level: int,
    exitArgs: seq<int>,
    exitGobbles: seq<int>,
    buffer: string,
    text: string)

  function Top(s: seq<Mode>): Mode
    requires |s| > 0
  {
    s[|s| - 1]
  }

  function Last(xs: seq<int>): int
    requires |xs| > 0
  {
    xs[|xs| - 1]
  }

  function Pop<T>(xs: seq<T>): seq<T>
    requires |xs| > 0
  {
    xs[..|xs| - 1]
  }

  /** Everything the record has produced, including the pending token. */
  function Visible(m: Machine): string {
    m.text + m.buffer
  }

  /** The shapes the state stack and the gobble checkpoints can take: a
      command or a gobbled group is only ever entered from Normal. */
  predicate Shaped(m: Machine) {
    && (m.state == [Normal] || m.state == [Normal, Cs] || m.state == [Normal, Gobble])
    && (m.state == [Normal, Gobble] ==>
          |m.exitGobbles| == 2 && m.exitGobbles[0] == 0 && m.exitGobbles[1] < m.level)
    && (m.state != [Normal, Gobble] ==> m.exitGobbles == [0])
  }

  /** A character in Normal (check.py:202-214): a backslash flushes the
      pending token and starts a command name; a `{` only raises the level;
      a `}` lowers it and is kept exactly when it closes a command argument;
      anything else joins the pending token. */
  function NormalStep(m: Machine, c: char): (r: Result<Machine, ParseError>)
    requires Shaped(m) && m.state == [Normal]
    ensures r.Failure? <==> c == '}' && m.exitArgs == []
    ensures r.Success? ==> Shaped(r.value) && r.value.exitGobbles == m.exitGobbles
    ensures r.Success? ==> r.value.state == (if c == '\\' then [Normal, Cs] else [Normal])
    ensures r.Success? && c == '}' ==> (r.value.buffer == m.buffer + "}" <==> m.level - 1 == Last(m.exitArgs))
    ensures r.Success? && c != '}' ==> Visible(r.value) == if c == '{' then Visible(m) else Visible(m) + [c]
  {
    var m1 := if c == '\\' then m.(state := m.state + [Cs], text := m.text + m.buffer, buffer := "") else m;
    if c == '{' then Success(m1.(level := m1.level + 1))
    else if c == '}' then
      if |m1.exitArgs| == 0 then Failure(IndexError)
      else if m1.level - 1 == Last(m1.exitArgs) then
        Success(m1.(level := m1.level - 1, exitArgs := Pop(m1.exitArgs), buffer := m1.buffer + "}"))
      else Success(m1.(level := m1.level - 1))
    else Success(m1.(buffer := m1.buffer + [c]))
  }

  /** A character while a command name is read (check.py:215-241): a space
      ends the name; a `{` opens the argument, which is gobbled for
      `\bibinfo` and otherwise pushes a checkpoint and is kept; a `}` ends
      the name (dropping a bare `\relax`) and closes a level as in Normal;
      anything else extends the name. */
  function CsStep(m: Machine, c: char): (r: Result<Machine, ParseError>)
    requires Shaped(m) && m.state == [Normal, Cs]
    ensures r.Failure? <==> c == '}' && m.exitArgs == []
    ensures r.Success? ==> Shaped(r.value)
    ensures r.Success? ==> (r.value.state == [Normal, Gobble] <==> c == '{' && m.buffer == "\\bibinfo")
    ensures r.Success? ==> (r.value.state == [Normal, Cs] <==> c != ' ' && c != '{' && c != '}')
    ensures c == '{' && m.buffer != "\\bibinfo" ==>
              r.Success? && r.value.exitArgs == m.exitArgs + [m.level] && Visible(r.value) == Visible(m) + "{"
  {
    if c == ' ' then Success(m.(state := Pop(m.state), text := m.text + m.buffer, buffer := " "))
    else if c == '{' then
      if m.buffer == "\\bibinfo" then
        Success(m.(state := Pop(m.state) + [Gobble], exitGobbles := m.exitGobbles + [m.level],
                   level := m.level + 1, buffer := ""))
      else
        Success(m.(state := Pop(m.state), exitArgs := m.exitArgs + [m.level], level := m.level + 1,
                   text := m.text + m.buffer, buffer := "{"))
    else if c == '}' then
      var kept := if m.buffer == "\\relax" then "" else m.buffer;
      if |m.exitArgs| == 0 then Failure(IndexError)
      else if m.level - 1 == Last(m.exitArgs) then
        Success(m.(state := Pop(m.state), level := m.level - 1, exitArgs := Pop(m.exitArgs), buffer := kept + "}"))
      else Success(m.(state := Pop(m.state), level := m.level - 1, buffer := kept))
    else Success(m.(buffer := m.buffer + [c]))
  }

  /** A character inside a gobbled group (check.py:242-248): only the level
      moves, nothing is produced, and the group ends when the level returns
      to its checkpoint. */
  function GobbleStep(m: Machine, c: char): (r: Machine)
    requires Shaped(m) && m.state == [Normal, Gobble]
    ensures Shaped(r) && r.text == m.text && r.buffer == m.buffer && r.exitArgs == m.exitArgs
    ensures r.state == [Normal] <==> c == '}' && m.level - 1 == m.exitGobbles[1]
    ensures r.state == [Normal, Gobble] ==> r.exitGobbles == m.exitGobbles
  {
    if c == '{' then m.(level := m.level + 1)
    else if c == '}' then
      if m.level - 1 == Last(m.exitGobbles) then
        assert Pop(m.exitGobbles) == [0];
        m.(state := Pop(m.state), level := m.level - 1, exitGobbles := Pop(m.exitGobbles))
      else m.(level := m.level - 1)
    else m
  }

  /** One character of the scan (check.py:200-251), dispatched on the top
      of the state stack. The stack keeps one of its three shapes; the only
      failure is a `}` outside Gobble with no checkpoint left; in Gobble
      nothing is produced, and Gobble is left exactly when the level
      returns to its checkpoint. */
  function CharStep(m: Machine, c: char): (r: Result<Machine, ParseError>)
    requires Shaped(m)
    ensures r.Success? ==> Shaped(r.value)
    ensures r.Failure? <==> c == '}' && m.state != [Normal, Gobble] && m.exitArgs == []
    ensures m.state == [Normal, Gobble] ==> r.Success? && r.value.text == m.text && r.value.buffer == m.buffer
    ensures m.state == [Normal, Gobble] ==>
              (r.value.state == [Normal] <==> c == '}' && m.level - 1 == m.exitGobbles[1])
  {
    if m.state == [Normal] then NormalStep(m, c)
    else if m.state == [Normal, Cs] then CsStep(m, c)
    else Success(GobbleStep(m, c))
  }

  /** The scan of a whole (rewritten) line; an exception ends it. */
  function Run(m: Machine, s: string): (r: Result<Machine, ParseError>)
    requires Shaped(m)
    ensures r.Success? ==> Shaped(r.value)
    decreases |s|
  {
    if |s| == 0 then Success(m)
    else match CharStep(m, s[0])
      case Failure(e) => Failure(e)
      case Success(m') => Run(m', s[1..])
  }

  lemma {:induction false} RunConcat(m: Machine, a: string, b: string)
    requires Shaped(m)
    ensures Run(m, a + b) == match Run(m, a) case Success(m') => Run(m', b) case Failure(e) => Failure(e)
    decreases |a|
  {
    if |a| == 0 {
      assert a + b == b;
    } else {
      assert (a + b)[0] == a[0] && (a + b)[1..] == a[1..] + b;
      match CharStep(m, a[0])
      case Failure(e) =>
      case Success(m') => RunConcat(m', a[1..], b);
    }
  }

  // ---------------------------------------------------------------------
  // The record-level invariant.

  predicate Increasing(xs: seq<int>) {
    forall i, j :: 0 <= i < j < |xs| ==> xs[i] < xs[j]
  }

  predicate Below(xs: seq<int>, bound: int) {
    forall i :: 0 <= i < |xs| ==> xs[i] < bound
  }

  predicate NoBraces(s: string) {
    '{' !in s && '}' !in s
  }

  /** What holds at every step of a record: the stack shapes; a pending
      command name holds no brace; nothing is pending while gobbling; the
      argument checkpoints are increasing and below the level (and below the
      gobble checkpoint while gobbling); and the braces the record has kept
      are exactly those of the open arguments. */
  predicate Valid(m: Machine) {
    && Shaped(m)
    && (m.state == [Normal, Cs] ==> NoBraces(m.buffer))
    && (m.state == [Normal, Gobble] ==> m.buffer == "")
    && Increasing(m.exitArgs)
    && Below(m.exitArgs, m.level)
    && (m.state == [Normal, Gobble] ==> Below(m.exitArgs, m.exitGobbles[1]))
    && Count(Visible(m), '{') + 1 == Count(Visible(m), '}') + |m.exitArgs|
  }

  lemma CountAppend(a: string, b: string)
    ensures Count(a + b, '{') == Count(a, '{') + Count(b, '{')
    ensures Count(a + b, '}') == Count(a, '}') + Count(b, '}')
  {
    CountConcat(a, b, '{');
    CountConcat(a, b, '}');
  }

  lemma {:induction false} CountConcat(a: string, b: string, c: char)
    ensures Count(a + b, c) == Count(a, c) + Count(b, c)
  {
    if |a| > 0 {
      assert (a + b)[1..] == a[1..] + b;
      CountConcat(a[1..], b, c);
    } else {
      assert a + b == b;
    }
  }

  lemma {:induction false} CountAbsent(s: string, c: char)
    requires c !in s
    ensures Count(s, c) == 0
  {
    if |s| > 0 {
      CountAbsent(s[1..], c);
    }
  }

  lemma ValidNormalClose(m: Machine)
    requires Valid(m) && m.state == [Normal] && |m.exitArgs| > 0
    ensures NormalStep(m, '}').Success? && Valid(NormalStep(m, '}').value)
  {
    var r := NormalStep(m, '}').value;
    CheckpointsAfterClose(m.exitArgs, m.level);
    if m.level - 1 == Last(m.exitArgs) {
      assert Visible(r) == Visible(m) + "}";
      CountAppend(Visible(m), "}");
    } else {
      assert Visible(r) == Visible(m);
    }
  }

  lemma ValidNormalOpen(m: Machine)
    requires Valid(m) && m.state == [Normal]
    ensures NormalStep(m, '{').Success? && Valid(NormalStep(m, '{').value)
  {
    assert Visible(NormalStep(m, '{').value) == Visible(m);
  }

  lemma ValidNormalOther(m: Machine, c: char)
    requires Valid(m) && m.state == [Normal] && c != '{' && c != '}'
    ensures NormalStep(m, c).Success? && Valid(NormalStep(m, c).value)
  {
    assert Visible(NormalStep(m, c).value) == Visible(m) + [c];
    CountAppend(Visible(m), [c]);
  }

  lemma ValidNormal(m: Machine, c: char)
    requires Valid(m) && m.state == [Normal] && NormalStep(m, c).Success?
    ensures Valid(NormalStep(m, c).value)
  {
    if c == '}' {
      ValidNormalClose(m);
    } else if c == '{' {
      ValidNormalOpen(m);
    } else {
      ValidNormalOther(m, c);
    }
  }

  lemma ValidCsOpen(m: Machine)
    requires Valid(m) && m.state == [Normal, Cs]
    ensures CsStep(m, '{').Success? && Valid(CsStep(m, '{').value)
  {
    var r := CsStep(m, '{').value;
    if m.buffer == "\\bibinfo" {
      CountAppend(m.text, m.buffer);
      CountAbsent(m.buffer, '{');
      CountAbsent(m.buffer, '}');
      assert Visible(r) == m.text;
    } else {
      CountAppend(Visible(m), "{");
      assert Visible(r) == Visible(m) + "{";
    }
  }

  /** The text a `}` leaves when it ends a command name: the name, unless it
      is `\relax`, and the brace itself when it is kept. */
  lemma CsCloseVisible(m: Machine)
    requires Shaped(m) && m.state == [Normal, Cs] && |m.exitArgs| > 0 && NoBraces(m.buffer)
    ensures var kept := if m.buffer == "\\relax" then "" else m.buffer;
            var p := m.text + kept;
            && p <= Visible(m)
            && Count(p, '{') == Count(Visible(m), '{') && Count(p, '}') == Count(Visible(m), '}')
            && Visible(CsStep(m, '}').value) == (if m.level - 1 == Last(m.exitArgs) then p + "}" else p)
  {
    var kept := if m.buffer == "\\relax" then "" else m.buffer;
    CountAppend(m.text, m.buffer);
    CountAbsent(m.buffer, '{');
    CountAbsent(m.buffer, '}');
    CountAppend(m.text, kept);
  }

  /** A `}` leaves the checkpoints increasing and below the new level: the
      top one is popped when the level reaches it. */
  lemma CheckpointsAfterClose(xs: seq<int>, level: int)
    requires Increasing(xs) && Below(xs, level) && |xs| > 0
    ensures Last(xs) == level - 1 ==> Increasing(Pop(xs)) && Below(Pop(xs), level - 1)
    ensures Last(xs) != level - 1 ==> Below(xs, level - 1)
  {
  }

  lemma ValidCsClose(m: Machine)
    requires Valid(m) && m.state == [Normal, Cs] && CsStep(m, '}').Success?
    ensures Valid(CsStep(m, '}').value)
  {
    CheckpointsAfterClose(m.exitArgs, m.level);
    var kept := if m.buffer == "\\relax" then "" else m.buffer;
    CsCloseVisible(m);
    CountAppend(m.text + kept, "}");
  }

  lemma ValidCsOther(m: Machine, c: char)
    requires Valid(m) && m.state == [Normal, Cs] && c != '{' && c != '}'
    ensures CsStep(m, c).Success? && Valid(CsStep(m, c).value)
  {
    assert Visible(CsStep(m, c).value) == Visible(m) + [c];
    CountAppend(Visible(m), [c]);
  }

  lemma ValidCs(m: Machine, c: char)
    requires Valid(m) && m.state == [Normal, Cs] && CsStep(m, c).Success?
    ensures Valid(CsStep(m, c).value)
  {
    if c == '{' {
      ValidCsOpen(m);
    } else if c == '}' {
      ValidCsClose(m);
    } else {
      ValidCsOther(m, c);
    }
  }

  lemma ValidGobble(m: Machine, c: char)
    requires Valid(m) && m.state == [Normal, Gobble]
    ensures Valid(GobbleStep(m, c))
  {
  }

  /** Every step keeps the record invariant. */
  lemma ValidStep(m: Machine, c: char)
    requires Valid(m) && CharStep(m, c).Success?
    ensures Valid(CharStep(m, c).value)
  {
    if m.state == [Normal] {
      ValidNormal(m, c);
    } else if m.state == [Normal, Cs] {
      ValidCs(m, c);
    } else {
      ValidGobble(m, c);
    }
  }

  /** The number of braces in a text. */
  function Braces(s: string): nat {
    Count(s, '{') + Count(s, '}')
  }

  /** Whether a brace outside Gobble is kept: a `{` that opens the argument
      of a command other than `\bibinfo`, or a `}` that leaves the level of
      the top checkpoint. */
  predicate KeepsBrace(m: Machine, c: char)
    requires c == '}' ==> |m.exitArgs| > 0
  {
    || (c == '{' && m.state == [Normal, Cs] && m.buffer != "\\bibinfo")
    || (c == '}' && m.level - 1 == Last(m.exitArgs))
  }

  /** What a brace step does to the record: a kept brace is one more brace,
      and ends the record's text after at most a dropped `\relax`; any other
      brace adds nothing. A kept `{` pushes its level as a checkpoint, a kept
      `}` pops one, and the level follows the brace. */
  predicate BraceOutcome(m: Machine, c: char, r: Machine)
    requires c == '}' ==> |m.exitArgs| > 0
  {
    var kept := KeepsBrace(m, c);
    && Braces(Visible(r)) == Braces(Visible(m)) + (if kept then 1 else 0)
    && (kept ==> |Visible(r)| > 0 && Visible(r)[|Visible(r)| - 1] == c
                 && Visible(r)[..|Visible(r)| - 1] <= Visible(m))
    && (!kept ==> Visible(r) <= Visible(m) && r.exitArgs == m.exitArgs)
    && (kept && c == '{' ==> r.exitArgs == m.exitArgs + [m.level])
    && (kept && c == '}' ==> r.exitArgs == Pop(m.exitArgs))
    && r.level == (if c == '{' then m.level + 1 else m.level - 1)
  }

  lemma BraceFateNormal(m: Machine, c: char)
    requires Valid(m) && (c == '{' || c == '}') && m.state == [Normal]
    requires c == '}' ==> |m.exitArgs| > 0
    ensures NormalStep(m, c).Success? && BraceOutcome(m, c, NormalStep(m, c).value)
  {
    var r := NormalStep(m, c).value;
    CountAppend(Visible(m), [c]);
    if c == '}' && m.level - 1 == Last(m.exitArgs) {
      assert Visible(r) == Visible(m) + [c];
    } else {
      assert Visible(r) == Visible(m);
    }
  }

  lemma BraceFateCsOpen(m: Machine)
    requires Valid(m) && m.state == [Normal, Cs]
    ensures CsStep(m, '{').Success? && BraceOutcome(m, '{', CsStep(m, '{').value)
  {
    var r := CsStep(m, '{').value;
    CountAppend(m.text, m.buffer);
    CountAbsent(m.buffer, '{');
    CountAbsent(m.buffer, '}');
    if m.buffer == "\\bibinfo" {
      assert Visible(r) == m.text;
    } else {
      CountAppend(Visible(m), "{");
      assert Visible(r) == Visible(m) + "{";
    }
  }

  lemma BraceFateCsClose(m: Machine)
    requires Valid(m) && m.state == [Normal, Cs] && |m.exitArgs| > 0
    ensures CsStep(m, '}').Success? && BraceOutcome(m, '}', CsStep(m, '}').value)
  {
    var r := CsStep(m, '}').value;
    var kept := if m.buffer == "\\relax" then "" else m.buffer;
    var p := m.text + kept;
    CsCloseVisible(m);
    CountAppend(p, "}");
    if m.level - 1 == Last(m.exitArgs) {
      assert Visible(r)[..|Visible(r)| - 1] == p;
    }
  }

  /** The fate of a brace outside Gobble, when no exception is raised: it is
      kept exactly when KeepsBrace holds, with the outcome BraceOutcome. */
  lemma BraceFate(m: Machine, c: char)
    requires Valid(m) && (c == '{' || c == '}') && m.state != [Normal, Gobble]
    requires c == '}' ==> |m.exitArgs| > 0
    ensures CharStep(m, c).Success? && BraceOutcome(m, c, CharStep(m, c).value)
  {
    if m.state == [Normal] {
      BraceFateNormal(m, c);
    } else if c == '{' {
      BraceFateCsOpen(m);
    } else {
      BraceFateCsClose(m);
    }
  }

  // ---------------------------------------------------------------------
  // What the automaton does to the shapes of text a record holds.

  lemma RunChar(m: Machine, c: char)
    requires Shaped(m)
    ensures Run(m, [c]) == CharStep(m, c)
  {
    assert [c][1..] == [];
  }

  lemma RunThen(m: Machine, a: string, m': Machine, b: string)
    requires Shaped(m) && Shaped(m') && Run(m, a) == Success(m')
    ensures Run(m, a + b) == Run(m', b)
  {
    RunConcat(m, a, b);
  }

  /** Text without backslashes or braces. */
  predicate Plain(s: string) {
    '\\' !in s && '{' !in s && '}' !in s
  }

  // Single steps, each proved apart from any scan so that the verifier
  // does not expand the automaton inside a scan.

  lemma PlainStep(m: Machine, c: char)
    requires Shaped(m) && m.state == [Normal] && c != '\\' && c != '{' && c != '}'
    ensures CharStep(m, c) == Success(m.(buffer := m.buffer + [c]))
  {
  }

  lemma OpenStep(m: Machine)
    requires Shaped(m) && m.state == [Normal]
    ensures CharStep(m, '{') == Success(m.(level := m.level + 1))
  {
  }

  lemma CloseKeptStep(m: Machine)
    requires Shaped(m) && m.state == [Normal] && |m.exitArgs| > 0 && m.level - 1 == Last(m.exitArgs)
    ensures CharStep(m, '}') == Success(m.(level := m.level - 1, exitArgs := Pop(m.exitArgs), buffer := m.buffer + "}"))
  {
  }

  lemma CloseDroppedStep(m: Machine)
    requires Shaped(m) && m.state == [Normal] && |m.exitArgs| > 0 && m.level - 1 != Last(m.exitArgs)
    ensures CharStep(m, '}') == Success(m.(level := m.level - 1))
  {
  }

  lemma BackslashStep(m: Machine)
    requires Shaped(m) && m.state == [Normal]
    ensures CharStep(m, '\\') == Success(m.(state := [Normal, Cs], text := m.text + m.buffer, buffer := "\\"))
  {
    assert [Normal] + [Cs] == [Normal, Cs];
    assert [] + ['\\'] == "\\";
  }

  lemma NameStep(m: Machine, c: char)
    requires Shaped(m) && m.state == [Normal, Cs] && c != ' ' && c != '{' && c != '}'
    ensures CharStep(m, c) == Success(m.(buffer := m.buffer + [c]))
  {
  }

  lemma ArgumentStep(m: Machine)
    requires Shaped(m) && m.state == [Normal, Cs] && m.buffer != "\\bibinfo"
    ensures CharStep(m, '{')
         == Success(m.(state := [Normal], exitArgs := m.exitArgs + [m.level], level := m.level + 1,
                       text := m.text + m.buffer, buffer := "{"))
  {
    assert Pop(m.state) == [Normal];
  }

  lemma GobbleStartStep(m: Machine)
    requires Shaped(m) && m.state == [Normal, Cs] && m.buffer == "\\bibinfo"
    ensures CharStep(m, '{')
         == Success(m.(state := [Normal, Gobble], exitGobbles := [0, m.level], level := m.level + 1, buffer := ""))
  {
    assert Pop(m.state) + [Gobble] == [Normal, Gobble];
    assert m.exitGobbles + [m.level] == [0, m.level];
  }

  lemma GobbleInsideStep(m: Machine, c: char)
    requires Shaped(m) && m.state == [Normal, Gobble] && !(c == '}' && m.level - 1 == m.exitGobbles[1])
    ensures CharStep(m, c) == Success(m.(level := m.level + Delta(c)))
  {
  }

  lemma GobbleEndStep(m: Machine)
    requires Shaped(m) && m.state == [Normal, Gobble] && m.level - 1 == m.exitGobbles[1]
    ensures CharStep(m, '}') == Success(m.(state := [Normal], exitGobbles := [0], level := m.level - 1))
  {
    assert Pop(m.exitGobbles) == [0];
  }

  /** One step of a scan, from a step proved apart. */
  lemma RunStep(m: Machine, c: char, m': Machine)
    requires Shaped(m) && CharStep(m, c) == Success(m')
    ensures Run(m, [c]) == Success(m')
  {
    RunChar(m, c);
  }

  lemma PlainTail(t: string)
    requires Plain(t) && |t| > 0
    ensures t[0] != '\\' && t[0] != '{' && t[0] != '}' && Plain(t[1..])
  {
    assert t[0] in t;
    assert forall c :: c in t[1..] ==> c in t;
  }

  lemma SplitFirst(b: string, t: string)
    requires |t| > 0
    ensures b + [t[0]] + t[1..] == b + t
  {
  }

  /** A scan whose first step is proved apart. */
  lemma RunCons(m: Machine, t: string, m': Machine)
    requires Shaped(m) && |t| > 0 && CharStep(m, t[0]) == Success(m')
    ensures Run(m, t) == Run(m', t[1..])
  {
  }

  /** Plain text in Normal joins the pending token. */
  lemma {:induction false} PlainRun(m: Machine, t: string)
    requires Shaped(m) && m.state == [Normal] && Plain(t)
    ensures Run(m, t) == Success(m.(buffer := m.buffer + t))
    decreases |t|
  {
    if |t| == 0 {
      assert m.buffer + t == m.buffer;
    } else {
      var m1 := m.(buffer := m.buffer + [t[0]]);
      PlainTail(t);
      PlainStep(m, t[0]);
      RunCons(m, t, m1);
      PlainRun(m1, t[1..]);
      SplitFirst(m.buffer, t);
    }
  }

  /** A command name (no space or brace) joins the pending token. */
  lemma {:induction false} NameRun(m: Machine, name: string)
    requires Shaped(m) && m.state == [Normal, Cs]
    requires ' ' !in name && '{' !in name && '}' !in name
    ensures Run(m, name) == Success(m.(buffer := m.buffer + name))
    decreases |name|
  {
    if |name| == 0 {
      assert m.buffer + name == m.buffer;
    } else {
      var m1 := m.(buffer := m.buffer + [name[0]]);
      TailLacks(name, ' ');
      TailLacks(name, '{');
      TailLacks(name, '}');
      NameStep(m, name[0]);
      RunCons(m, name, m1);
      NameRun(m1, name[1..]);
      SplitFirst(m.buffer, name);
    }
  }

  /** A backslash in Normal flushes the pending token and starts a command. */
  lemma Backslash(m: Machine)
    requires Shaped(m) && m.state == [Normal]
    ensures Run(m, "\\") == Success(m.(state := [Normal, Cs], text := m.text + m.buffer, buffer := "\\"))
  {
    BackslashStep(m);
    RunStep(m, '\\', m.(state := [Normal, Cs], text := m.text + m.buffer, buffer := "\\"));
    assert "\\" == ['\\'];
  }

  /** A brace group. */
  function Group(t: string): string {
    "{" + t + "}"
  }

  /** A command applied to one argument. */
  function Command(name: string, t: string): string {
    "\\" + name + "{" + t + "}"
  }

  /** A command with a plain argument survives intact: its backslash, name and
      both braces reach the record, and the automaton returns to where it was. */
  lemma CommandKept(m: Machine, name: string, t: string)
    requires Shaped(m) && m.state == [Normal]
    requires ' ' !in name && '{' !in name && '}' !in name && name != "bibinfo"
    requires Plain(t)
    ensures Run(m, Command(name, t))
         == Success(m.(text := m.text + m.buffer + "\\" + name, buffer := "{" + t + "}"))
  {
    CommandName(m, name);
    var m2 := m.(state := [Normal, Cs], text := m.text + m.buffer, buffer := "\\" + name);
    var m3 := m2.(state := [Normal], exitArgs := m.exitArgs + [m.level], level := m.level + 1,
                  text := m.text + m.buffer + "\\" + name, buffer := "{");
    assert m2.buffer != "\\bibinfo" by { assert m2.buffer[1..] == name; }
    ArgumentStep(m2);
    assert m2.text + m2.buffer == m.text + m.buffer + "\\" + name;
    RunStep(m2, '{', m3);
    RunThen(m, "\\" + name, m2, "{");
    PlainRun(m3, t);
    var m4 := m3.(buffer := "{" + t);
    RunThen(m, "\\" + name + "{", m3, t);
    var m5 := m.(text := m.text + m.buffer + "\\" + name, buffer := "{" + t + "}");
    assert Pop(m4.exitArgs) == m.exitArgs;
    CloseKeptStep(m4);
    RunStep(m4, '}', m5);
    RunThen(m, "\\" + name + "{" + t, m4, "}");
  }

  /** A command whose argument is itself a command keeps both closing
      braces: each argument pushes its own checkpoint, so the inner `}`
      pops only its own and the outer `}` still finds the outer one. */
  lemma NestedCommandKept(m: Machine, a: string, b: string, x: string)
    requires Shaped(m) && m.state == [Normal]
    requires ' ' !in a && '{' !in a && '}' !in a && a != "bibinfo"
    requires ' ' !in b && '{' !in b && '}' !in b && b != "bibinfo"
    requires Plain(x)
    ensures Run(m, Command(a, Command(b, x)))
         == Success(m.(text := m.text + m.buffer + "\\" + a + "{" + "\\" + b, buffer := "{" + x + "}}"))
  {
    CommandName(m, a);
    var m2 := m.(state := [Normal, Cs], text := m.text + m.buffer, buffer := "\\" + a);
    var m3 := m2.(state := [Normal], exitArgs := m.exitArgs + [m.level], level := m.level + 1,
                  text := m.text + m.buffer + "\\" + a, buffer := "{");
    assert m2.buffer != "\\bibinfo" by { assert m2.buffer[1..] == a; }
    ArgumentStep(m2);
    assert m2.text + m2.buffer == m.text + m.buffer + "\\" + a;
    RunStep(m2, '{', m3);
    RunThen(m, "\\" + a, m2, "{");
    var inner := Command(b, x);
    CommandKept(m3, b, x);
    var m4 := m3.(text := m3.text + m3.buffer + "\\" + b, buffer := "{" + x + "}");
    RunThen(m, "\\" + a + "{", m3, inner);
    assert Pop(m4.exitArgs) == m.exitArgs;
    var m5 := m4.(level := m.level, exitArgs := m.exitArgs, buffer := m4.buffer + "}");
    CloseKeptStep(m4);
    RunStep(m4, '}', m5);
    RunThen(m, "\\" + a + "{" + inner, m4, "}");
    assert Command(a, inner) == "\\" + a + "{" + inner + "}";
    assert m5.buffer == "{" + x + "}}";
  }

  /** A brace group that is not an argument loses its braces and keeps its text. */
  lemma PlainGroupUnwrapped(m: Machine, t: string)
    requires Shaped(m) && m.state == [Normal] && Plain(t)
    requires |m.exitArgs| > 0 && Last(m.exitArgs) < m.level
    ensures Run(m, Group(t)) == Success(m.(buffer := m.buffer + t))
  {
    var m1 := m.(level := m.level + 1);
    var m2 := m1.(buffer := m.buffer + t);
    OpenStep(m);
    RunStep(m, '{', m1);
    PlainRun(m1, t);
    CloseDroppedStep(m2);
    RunStep(m2, '}', m.(buffer := m.buffer + t));
    RunThen(m, "{", m1, t);
    RunThen(m, "{" + t, m2, "}");
  }

  /** The change of nesting depth a character makes. */
  function Delta(c: char): int {
    if c == '{' then 1 else if c == '}' then -1 else 0
  }

  /** Starting at depth d, the nesting never goes below zero. */
  predicate Nested(g: string, d: int)
    decreases |g|
  {
    d >= 0 && (|g| == 0 || Nested(g[1..], d + Delta(g[0])))
  }

  /** The depth a text ends at, relative to where it starts. */
  function Net(g: string): int
    decreases |g|
  {
    if |g| == 0 then 0 else Delta(g[0]) + Net(g[1..])
  }

  /** A brace-balanced text. */
  predicate Balanced(g: string) {
    Nested(g, 0) && Net(g) == 0
  }

  /** While gobbling, a text whose nesting stays at or above the current depth
      produces nothing and leaves the automaton gobbling. */
  lemma {:induction false} GobbleRun(m: Machine, g: string, d: int)
    requires Shaped(m) && m.state == [Normal, Gobble]
    requires m.level == m.exitGobbles[1] + 1 + d && Nested(g, d)
    ensures Run(m, g) == Success(m.(level := m.level + Net(g)))
    decreases |g|
  {
    if |g| > 0 {
      var m' := m.(level := m.level + Delta(g[0]));
      GobbleInsideStep(m, g[0]);
      GobbleRun(m', g[1..], d + Delta(g[0]));
    }
  }

  /** `\bibinfo` drops its first brace group whatever its nesting: the pending
      token is flushed and the automaton returns to where it was. */
  lemma BibinfoDropsField(m: Machine, field: string)
    requires Shaped(m) && m.state == [Normal] && Balanced(field)
    ensures Run(m, Command("bibinfo", field)) == Success(m.(text := m.text + m.buffer, buffer := ""))
  {
    GobbledArgument(m, "bibinfo", field);
  }

  /** A backslash and a command name: the pending token is flushed and the
      name is read. */
  lemma CommandName(m: Machine, name: string)
    requires Shaped(m) && m.state == [Normal]
    requires ' ' !in name && '{' !in name && '}' !in name
    ensures Run(m, "\\" + name) == Success(m.(state := [Normal, Cs], text := m.text + m.buffer, buffer := "\\" + name))
  {
    var m1 := m.(state := [Normal, Cs], text := m.text + m.buffer, buffer := "\\");
    Backslash(m);
    NameRun(m1, name);
    RunThen(m, "\\", m1, name);
  }

  /** The opening brace of `\bibinfo` enters Gobble with the level as its
      checkpoint; the command name is kept symbolic so that the verifier does
      not unroll the scan over its letters. */
  lemma GobbleOpen(m: Machine, name: string)
    requires Shaped(m) && m.state == [Normal] && name == "bibinfo"
    ensures Run(m, "\\" + name + "{")
         == Success(m.(state := [Normal, Gobble], exitGobbles := [0, m.level], level := m.level + 1,
                       text := m.text + m.buffer, buffer := ""))
  {
    CommandName(m, name);
    var m2 := m.(state := [Normal, Cs], text := m.text + m.buffer, buffer := "\\" + name);
    var m3 := m2.(state := [Normal, Gobble], exitGobbles := [0, m.level], level := m.level + 1, buffer := "");
    GobbleStartStep(m2);
    RunStep(m2, '{', m3);
    RunThen(m, "\\" + name, m2, "{");
  }

  /** A balanced group body and its closing brace, gobbled: nothing is
      produced and Gobble is left at the level it was entered from. */
  lemma GobbleClose(m: Machine, field: string)
    requires Shaped(m) && m.state == [Normal, Gobble] && m.level == m.exitGobbles[1] + 1
    requires Balanced(field)
    ensures Run(m, field + "}") == Success(m.(state := [Normal], exitGobbles := [0], level := m.level - 1))
  {
    GobbleRun(m, field, 0);
    var m5 := m.(state := [Normal], exitGobbles := [0], level := m.level - 1);
    GobbleEndStep(m);
    RunStep(m, '}', m5);
    RunThen(m, field, m, "}");
  }

  /** The scan of `\bibinfo{field}`, with the command name kept symbolic. */
  lemma GobbledArgument(m: Machine, name: string, field: string)
    requires Shaped(m) && m.state == [Normal] && Balanced(field) && name == "bibinfo"
    ensures Run(m, Command(name, field)) == Success(m.(text := m.text + m.buffer, buffer := ""))
  {
    GobbleOpen(m, name);
    var m3 := m.(state := [Normal, Gobble], exitGobbles := [0, m.level], level := m.level + 1,
                 text := m.text + m.buffer, buffer := "");
    GobbleClose(m3, field);
    assert Command(name, field) == ("\\" + name + "{") + (field + "}");
    RunThen(m, "\\" + name + "{", m3, field + "}");
  }

  /** `\bibinfo{field}{value}`: the field name is dropped and the text of the
      value group is kept, without its braces. */
  lemma BibinfoKeepsValue(m: Machine, field: string, value: string)
    requires Shaped(m) && m.state == [Normal] && Balanced(field) && Plain(value)
    requires |m.exitArgs| > 0 && Last(m.exitArgs) < m.level
    ensures Run(m, Command("bibinfo", field) + Group(value))
         == Success(m.(text := m.text + m.buffer, buffer := value))
  {
    BibinfoDropsField(m, field);
    var m1 := m.(text := m.text + m.buffer, buffer := "");
    PlainGroupUnwrapped(m1, value);
    RunThen(m, Command("bibinfo", field), m1, Group(value));
    assert m1.buffer + value == value;
  }

  // ---------------------------------------------------------------------
  // The line loop.

  /** The interpreter's variables between two lines (the pending token is
      always empty there). */
  datatype Parser = Parser(
    outputs: map<string, string>,
    current: Option<string>,
    state: seq<Mode>,
    level: int,
    exitArgs: seq<int>,
    exitGobbles: seq<int>)

  predicate Ready(p: Parser) {
    && (p.current.Some? ==> p.current.value in p.outputs)
    && Shaped(Machine(p.state, p.level, p.exitArgs, p.exitGobbles, "", ""))
  }

  const Start := Parser(map[], None, [Normal], 1, [0], [0])

  /** The literal rewrites applied to a body line (check.py:185-194). */
  function Boilerplate(line: string): string {
    var l1 := Replace(line, "\\@", "");
    var l2 := Replace(l1, "\\newblock ", "");
    var l3 := Replace(l2, "\\urlprefix", "Available from: ");
    var l4 := Replace(l3, "\\urldateprefix{}", "Accessed ");
    var l5 := Replace(l4, "\\#", "#");
    var l6 := Replace(l5, "\\pounds ", "\U{a3}");
    var l7 := Replace(l6, "~", " ");
    Replace(l7, "\\noop{h}", "")
  }

  /** The literal rewrites, then the natexlab unwrap (check.py:185-195). */
  function Prepare(line: string): string {
    UnwrapNatexlab(Boilerplate(line))
  }

  /** One line of the loop (check.py:168-254). */
  function LineStep(p: Parser, line: string): (r: Result<Parser, ParseError>)
    requires Ready(p)
    ensures r.Success? ==> Ready(r.value)
  {
    match p.current
    case None =>
      (match BibitemId(line)
       case Some(id) => Success(p.(current := Some(id), outputs := p.outputs[id := ""]))
       case None => Success(p))
    case Some(id) =>
      if line == "" then
        Success(Parser(p.outputs[id := CollapseYearSuffix(p.outputs[id])], None, [Normal], 1, [0], [0]))
      else
        var m := Machine(p.state, p.level, p.exitArgs, p.exitGobbles, "", Separated(p.outputs[id]));
        match Run(m, Prepare(line))
        case Failure(e) => Failure(e)
        case Success(m') =>
          Success(Parser(p.outputs[id := m'.text + m'.buffer], p.current, m'.state, m'.level, m'.exitArgs, m'.exitGobbles))
  }

  function Lines(p: Parser, lines: seq<string>): (r: Result<Parser, ParseError>)
    requires Ready(p)
    ensures r.Success? ==> Ready(r.value)
    decreases |lines|
  {
    if |lines| == 0 then Success(p)
    else match LineStep(p, lines[0])
      case Failure(e) => Failure(e)
      case Success(p') => Lines(p', lines[1..])
  }

  /** What parse_bibitems returns, or the exception it raises. */
  function Parsed(lines: seq<string>): Result<map<string, string>, ParseError> {
    match Lines(Start, lines)
    case Success(p) => Success(p.outputs)
    case Failure(e) => Failure(e)
  }

  /** A character in Normal (check.py:202-214), on the loop's variables. */
  method NormalChar(m: Machine, ch: char) returns (r: Result<Machine, ParseError>)
    requires Shaped(m) && m.state == [Normal]
    ensures r == NormalStep(m, ch)
  {
    var state, level, exitArgs, buffer, text := m.state, m.level, m.exitArgs, m.buffer, m.text;
    if ch == '\\' {
      state := state + [Cs];
      text := text + buffer;
      buffer := "";
    }
    if ch == '{' {
      level := level + 1;
      return Success(m.(state := state, level := level, buffer := buffer, text := text));
    } else if ch == '}' {
      level := level - 1;
      if exitArgs == [] {
        // exit_args[-1] raises IndexError
        return Failure(IndexError);
      }
      if level == exitArgs[|exitArgs| - 1] {
        exitArgs := exitArgs[..|exitArgs| - 1];
      } else {
        return Success(m.(level := level));
      }
    }
    buffer := buffer + [ch];
    r := Success(m.(state := state, level := level, exitArgs := exitArgs, buffer := buffer, text := text));
  }

  /** A character while a command name is read (check.py:215-241). */
  method CsChar(m: Machine, ch: char) returns (r: Result<Machine, ParseError>)
    requires Shaped(m) && m.state == [Normal, Cs]
    ensures r == CsStep(m, ch)
  {
    var state, level, exitArgs, exitGobbles := m.state, m.level, m.exitArgs, m.exitGobbles;
    var buffer, text := m.buffer, m.text;
    if ch == ' ' {
      state := state[..|state| - 1];
      text := text + buffer;
      return Success(Machine(state, level, exitArgs, exitGobbles, [ch], text));
    } else if ch == '{' {
      state := state[..|state| - 1];
      if buffer == "\\bibinfo" {
        state := state + [Gobble];
        exitGobbles := exitGobbles + [level];
        level := level + 1;
        return Success(Machine(state, level, exitArgs, exitGobbles, "", text));
      }
      exitArgs := exitArgs + [level];
      level := level + 1;
      text := text + buffer;
      return Success(Machine(state, level, exitArgs, exitGobbles, [ch], text));
    } else if ch == '}' {
      if buffer == "\\relax" {
        buffer := "";
      }
      state := state[..|state| - 1];
      level := level - 1;
      if exitArgs == [] {
        // exit_args[-1] raises IndexError
        return Failure(IndexError);
      }
      if level == exitArgs[|exitArgs| - 1] {
        exitArgs := exitArgs[..|exitArgs| - 1];
        return Success(Machine(state, level, exitArgs, exitGobbles, buffer + [ch], text));
      }
      return Success(Machine(state, level, exitArgs, exitGobbles, buffer, text));
    }
    r := Success(m.(buffer := buffer + [ch]));
  }

  /** A character inside a gobbled group (check.py:242-248). */
  method GobbleChar(m: Machine, ch: char) returns (r: Machine)
    requires Shaped(m) && m.state == [Normal, Gobble]
    ensures r == GobbleStep(m, ch)
  {
    var state, level, exitGobbles := m.state, m.level, m.exitGobbles;
    if ch == '{' {
      level := level + 1;
    } else if ch == '}' {
      level := level - 1;
      if level == exitGobbles[|exitGobbles| - 1] {
        exitGobbles := exitGobbles[..|exitGobbles| - 1];
        state := state[..|state| - 1];
      }
    }
    r := m.(state := state, level := level, exitGobbles := exitGobbles);
  }

  /** The character loop of parse_bibitems (check.py:200-251) over one
      rewritten line, dispatched on the top of the state stack. */
  method ScanLine(start: Machine, line: string) returns (r: Result<Machine, ParseError>)
    requires Shaped(start)
    ensures r == Run(start, line)
  {
    var m := start;
    for j := 0 to |line|
      invariant Shaped(m)
      invariant Run(m, line[j..]) == Run(start, line)
    {
      assert line[j..][0] == line[j] && line[j..][1..] == line[j + 1..];
      var next: Result<Machine, ParseError>;
      if m.state[|m.state| - 1] == Normal {
        next := NormalChar(m, line[j]);
      } else if m.state[|m.state| - 1] == Cs {
        next := CsChar(m, line[j]);
      } else {
        var g := GobbleChar(m, line[j]);
        next := Success(g);
      }
      assert next == CharStep(m, line[j]);
      if next.Failure? {
        return next;
      }
      m := next.value;
    }
    assert line[|line|..] == "";
    r := Success(m);
  }

  lemma {:induction false} LinesConcat(p: Parser, a: seq<string>, b: seq<string>)
    requires Ready(p)
    ensures Lines(p, a + b) == match Lines(p, a) case Success(q) => Lines(q, b) case Failure(e) => Failure(e)
    decreases |a|
  {
    if |a| == 0 {
      assert a + b == b;
    } else {
      assert (a + b)[0] == a[0] && (a + b)[1..] == a[1..] + b;
      match LineStep(p, a[0])
      case Failure(e) =>
      case Success(q) => LinesConcat(q, a[1..], b);
    }
  }
  lemma LinesThen(p: Parser, a: seq<string>, q: Parser, b: seq<string>)
    requires Ready(p) && Ready(q) && Lines(p, a) == Success(q)
    ensures Lines(p, a + b) == Lines(q, b)
  {
    LinesConcat(p, a, b);
  }


  /** The interpreter between two lines: outside a record the automaton is
      reset; inside one, the record's text with an empty pending token
      satisfies the record invariant Valid. */
  predicate Between(p: Parser) {
    && Ready(p)
    && (p.current.None? ==> p.state == [Normal] && p.level == 1 && p.exitArgs == [0] && p.exitGobbles == [0])
    && (p.current.Some? ==>
          Valid(Machine(p.state, p.level, p.exitArgs, p.exitGobbles, "", p.outputs[p.current.value])))
  }

  /** A scan that raises no exception keeps the record invariant. */
  lemma {:induction false} RunKeepsValid(m: Machine, s: string)
    requires Valid(m) && Run(m, s).Success?
    ensures Valid(Run(m, s).value)
    decreases |s|
  {
    if |s| > 0 {
      ValidStep(m, s[0]);
      RunKeepsValid(CharStep(m, s[0]).value, s[1..]);
    }
  }

  // Step facts for the three branches of LineStep that do not scan; the
  // fold-level lemmas (SkipsUntilHeader, VerbatimBodyThenBlank and the
  // record lemmas) are built from them.

  lemma HeaderLine(p: Parser, line: string, id: string)
    requires Ready(p) && p.current.None? && BibitemId(line) == Some(id)
    ensures LineStep(p, line) == Success(p.(current := Some(id), outputs := p.outputs[id := ""]))
  {
  }

  lemma OtherLineOutside(p: Parser, line: string)
    requires Ready(p) && p.current.None? && BibitemId(line).None?
    ensures LineStep(p, line) == Success(p)
  {
  }

  lemma BlankLine(p: Parser)
    requires Ready(p) && p.current.Some?
    ensures LineStep(p, "")
         == Success(Parser(p.outputs[p.current.value := CollapseYearSuffix(p.outputs[p.current.value])],
                           None, [Normal], 1, [0], [0]))
  {
  }

  /** LineStep on a body line of the current record, unfolded once. */
  lemma BodyLine(p: Parser, line: string)
    requires Ready(p) && p.current.Some? && line != ""
    ensures var m := Machine(p.state, p.level, p.exitArgs, p.exitGobbles, "", Separated(p.outputs[p.current.value]));
      LineStep(p, line) == match Run(m, Prepare(line))
        case Failure(e) => Failure(e)
        case Success(m') =>
          Success(Parser(p.outputs[p.current.value := m'.text + m'.buffer], p.current,
                         m'.state, m'.level, m'.exitArgs, m'.exitGobbles))
  {
  }

  /** A character only ever appends to the text already flushed. */
  lemma TextGrowsStep(m: Machine, c: char)
    requires Shaped(m) && CharStep(m, c).Success?
    ensures m.text <= CharStep(m, c).value.text
  {
    assert m.text <= m.text + m.buffer;
  }

  /** Scanning a line only ever appends to the text already flushed. */
  lemma {:induction false} TextGrows(m: Machine, s: string)
    requires Shaped(m) && Run(m, s).Success?
    ensures m.text <= Run(m, s).value.text
    decreases |s|
  {
    if |s| > 0 {
      var m1 := CharStep(m, s[0]).value;
      TextGrowsStep(m, s[0]);
      RunCons(m, s, m1);
      TextGrows(m1, s[1..]);
    }
  }

  /** A body line never takes back what its record holds: the record stays
      current and its text, with the separating space when it was not empty,
      stays a prefix of the new text. */
  lemma BodyLineExtends(p: Parser, line: string)
    requires Ready(p) && p.current.Some? && line != ""
    ensures var r := LineStep(p, line);
            r.Success? ==>
              && r.value.current == p.current
              && r.value.outputs.Keys == p.outputs.Keys
              && Separated(p.outputs[p.current.value]) <= r.value.outputs[p.current.value]
  {
    var m := Machine(p.state, p.level, p.exitArgs, p.exitGobbles, "", Separated(p.outputs[p.current.value]));
    BodyLine(p, line);
    if Run(m, Prepare(line)).Success? {
      TextGrows(m, Prepare(line));
      var m' := Run(m, Prepare(line)).value;
      assert m'.text <= m'.text + m'.buffer;
    }
  }

  /** Over a run of body lines the record's text only grows. */
  lemma {:induction false} BodyLinesExtend(p: Parser, body: seq<string>)
    requires Ready(p) && p.current.Some? && NonBlank(body)
    ensures var r := Lines(p, body);
            r.Success? ==>
              && r.value.current == p.current
              && r.value.outputs.Keys == p.outputs.Keys
              && p.outputs[p.current.value] <= r.value.outputs[p.current.value]
    decreases |body|
  {
    if |body| > 0 && LineStep(p, body[0]).Success? {
      var id := p.current.value;
      var p1 := LineStep(p, body[0]).value;
      BodyLineExtends(p, body[0]);
      NonBlankTail(body);
      LinesStep(p, body, p1);
      BodyLinesExtend(p1, body[1..]);
      assert p.outputs[id] <= Separated(p.outputs[id]);
    }
  }

  /** A separating space keeps the record invariant. */
  lemma ValidSeparated(m: Machine)
    requires Valid(m) && m.buffer == ""
    ensures Valid(m.(text := Separated(m.text)))
  {
    CountAppend(m.text, " ");
    assert Visible(m) == m.text;
    assert Visible(m.(text := Separated(m.text))) == Separated(m.text);
  }

  /** Flushing the pending token into the text keeps the record invariant. */
  lemma ValidFlushed(m: Machine)
    requires Valid(m)
    ensures Valid(Machine(m.state, m.level, m.exitArgs, m.exitGobbles, "", m.text + m.buffer))
  {
    assert Visible(Machine(m.state, m.level, m.exitArgs, m.exitGobbles, "", m.text + m.buffer)) == Visible(m);
  }

  lemma BodyKeepsBetween(p: Parser, line: string)
    requires Between(p) && p.current.Some? && line != "" && LineStep(p, line).Success?
    ensures Between(LineStep(p, line).value)
  {
    var id := p.current.value;
    var m0 := Machine(p.state, p.level, p.exitArgs, p.exitGobbles, "", p.outputs[id]);
    ValidSeparated(m0);
    var m := m0.(text := Separated(p.outputs[id]));
    BodyLine(p, line);
    RunKeepsValid(m, Prepare(line));
    ValidFlushed(Run(m, Prepare(line)).value);
  }

  lemma LineKeepsBetween(p: Parser, line: string)
    requires Between(p) && LineStep(p, line).Success?
    ensures Between(LineStep(p, line).value)
  {
    if p.current.None? {
      match BibitemId(line)
      case Some(id) =>
        HeaderLine(p, line, id);
        assert Count("", '{') == 0 && Count("", '}') == 0;
      case None =>
        OtherLineOutside(p, line);
    } else if line == "" {
      BlankLine(p);
    } else {
      BodyKeepsBetween(p, line);
    }
  }

  /** Across any lines that raise no exception, the automaton is reset
      between records and every open record satisfies the invariant that
      the braces it has kept are those of its open command arguments. */
  lemma {:induction false} LinesKeepBetween(p: Parser, lines: seq<string>)
    requires Between(p) && Lines(p, lines).Success?
    ensures Between(Lines(p, lines).value)
    decreases |lines|
  {
    if |lines| > 0 {
      LineKeepsBetween(p, lines[0]);
      LinesKeepBetween(LineStep(p, lines[0]).value, lines[1..]);
    }
  }

  /** Lines before the first bibitem header are ignored. */
  lemma {:induction false} SkipsUntilHeader(p: Parser, pre: seq<string>)
    requires Ready(p) && p.current.None?
    requires forall k :: 0 <= k < |pre| ==> BibitemId(pre[k]).None?
    ensures Lines(p, pre) == Success(p)
    decreases |pre|
  {
    if |pre| > 0 {
      SkipsUntilHeader(p, pre[1..]);
    }
  }

  /** A body line with no backslash, brace or tilde: none of the rewrites
      and nothing in the automaton alters it. */
  predicate Verbatim(s: string) {
    Plain(s) && '~' !in s
  }

  /** Body lines that are all non-blank and verbatim. */
  predicate VerbatimBody(body: seq<string>) {
    forall k :: 0 <= k < |body| ==> body[k] != "" && Verbatim(body[k])
  }

  lemma PrepareKeepsVerbatim(s: string)
    requires Verbatim(s)
    ensures Prepare(s) == s
  {
    ReplaceAbsent(s, "\\@", "");
    ReplaceAbsent(s, "\\newblock ", "");
    ReplaceAbsent(s, "\\urlprefix", "Available from: ");
    ReplaceAbsent(s, "\\urldateprefix{}", "Accessed ");
    ReplaceAbsent(s, "\\#", "#");
    ReplaceAbsent(s, "\\pounds ", "\U{a3}");
    ReplaceAbsent(s, "~", " ");
    ReplaceAbsent(s, "\\noop{h}", "");
    forall i | 0 <= i < |s|
      ensures Natexlab(s[i..]).None?
    {
      assert s[i..][0] == s[i];
    }
    ReSubUnmatched(s, Natexlab);
  }

  /** A verbatim body line is appended to the record after a separating space. */
  lemma VerbatimLine(p: Parser, line: string)
    requires Ready(p) && p.current.Some? && p.state == [Normal]
    requires line != "" && Verbatim(line)
    ensures LineStep(p, line)
         == Success(p.(outputs := p.outputs[p.current.value := Separated(p.outputs[p.current.value]) + line]))
  {
    var id := p.current.value;
    PrepareKeepsVerbatim(line);
    var m := Machine(p.state, p.level, p.exitArgs, p.exitGobbles, "", Separated(p.outputs[id]));
    PlainRun(m, line);
    assert m.buffer + line == line;
    BodyLine(p, line);
  }

  lemma VerbatimStep(p: Parser, done: seq<string>, x: string)
    requires Ready(p) && p.current.Some? && p.state == [Normal]
    requires NonBlank(done)
    requires x != "" && Verbatim(x)
    requires p.outputs[p.current.value] == Join(done, " ")
    ensures LineStep(p, x) == Success(p.(outputs := p.outputs[p.current.value := Join(done + [x], " ")]))
  {
    VerbatimLine(p, x);
    SeparatedJoin(done, x);
  }

  /** No part is empty. */
  predicate NonBlank(parts: seq<string>) {
    forall k :: 0 <= k < |parts| ==> parts[k] != ""
  }

  lemma NonBlankSnoc(done: seq<string>, x: string)
    requires NonBlank(done) && x != ""
    ensures NonBlank(done + [x])
  {
    var out := done + [x];
    forall k | 0 <= k < |out| ensures out[k] != "" {
      if k < |done| {
        assert out[k] == done[k];
      }
    }
  }

  lemma NonBlankTail(parts: seq<string>)
    requires |parts| > 0 && NonBlank(parts)
    ensures parts[0] != "" && NonBlank(parts[1..])
  {
    assert forall k :: 0 <= k < |parts[1..]| ==> parts[1..][k] == parts[k + 1];
  }

  lemma VerbatimBodyTail(body: seq<string>)
    requires |body| > 0 && VerbatimBody(body)
    ensures body[0] != "" && Verbatim(body[0]) && VerbatimBody(body[1..])
  {
    assert forall k :: 0 <= k < |body[1..]| ==> body[1..][k] == body[k + 1];
  }

  /** A successful first line hands the rest to the next parser. */
  lemma LinesStep(p: Parser, t: seq<string>, q: Parser)
    requires Ready(p) && |t| > 0 && LineStep(p, t[0]) == Success(q)
    ensures Lines(p, t) == Lines(q, t[1..])
  {
  }

  /** Verbatim body lines extend a record that holds the join of earlier
      lines to the join of all of them, with single spaces. */
  lemma {:induction false} VerbatimLines(p: Parser, done: seq<string>, body: seq<string>)
    requires Ready(p) && p.current.Some? && p.state == [Normal]
    requires NonBlank(done) && VerbatimBody(body)
    requires p.outputs[p.current.value] == Join(done, " ")
    ensures Lines(p, body) == Success(p.(outputs := p.outputs[p.current.value := Join(done + body, " ")]))
    decreases |body|
  {
    var id := p.current.value;
    if |body| == 0 {
      assert done + body == done;
      assert p.outputs[id := Join(done, " ")] == p.outputs;
    } else {
      VerbatimBodyTail(body);
      VerbatimStep(p, done, body[0]);
      var q := p.(outputs := p.outputs[id := Join(done + [body[0]], " ")]);
      LinesStep(p, body, q);
      NonBlankSnoc(done, body[0]);
      VerbatimLines(q, done + [body[0]], body[1..]);
      JoinRegroup(done, body, " ");
      assert q.outputs[id := Join(done + body, " ")] == p.outputs[id := Join(done + body, " ")];
    }
  }

  lemma LinesCons(p: Parser, x: string, rest: seq<string>)
    requires Ready(p)
    requires LineStep(p, x).Success?
    ensures Lines(p, [x] + rest) == Lines(LineStep(p, x).value, rest)
  {
    assert ([x] + rest)[0] == x && ([x] + rest)[1..] == rest;
  }

  lemma CloseRecord(q: Parser)
    requires Ready(q) && q.current.Some?
    ensures Lines(q, [""])
         == Success(Parser(q.outputs[q.current.value := CollapseYearSuffix(q.outputs[q.current.value])],
                           None, [Normal], 1, [0], [0]))
  {
    BlankLine(q);
  }

  lemma HeaderThen(p: Parser, header: string, id: string, rest: seq<string>)
    requires Ready(p) && p.current.None? && BibitemId(header) == Some(id)
    ensures Lines(p, [header] + rest) == Lines(p.(current := Some(id), outputs := p.outputs[id := ""]), rest)
  {
    HeaderLine(p, header, id);
    LinesCons(p, header, rest);
  }

  /** The lines of one record: its header, its body, and the blank line. */
  function RecordLines(header: string, body: seq<string>): seq<string> {
    [header] + (body + [""])
  }

  /** Verbatim body lines after a header: the record holds their join. */
  lemma VerbatimBodyJoined(q: Parser, id: string, body: seq<string>)
    requires Ready(q) && q.current == Some(id) && q.state == [Normal] && q.outputs[id] == ""
    requires VerbatimBody(body)
    ensures Lines(q, body) == Success(q.(outputs := q.outputs[id := Join(body, " ")]))
  {
    VerbatimLines(q, [], body);
    JoinEmptyPrefix(body, " ");
  }

  lemma VerbatimBodyThenBlank(q: Parser, id: string, body: seq<string>)
    requires Ready(q) && q.current == Some(id) && q.state == [Normal] && q.outputs[id] == ""
    requires VerbatimBody(body)
    ensures Lines(q, body + [""])
         == Success(Parser(q.outputs[id := CollapseYearSuffix(Join(body, " "))], None, [Normal], 1, [0], [0]))
  {
    var q2 := q.(outputs := q.outputs[id := Join(body, " ")]);
    VerbatimBodyJoined(q, id, body);
    LinesThen(q, body, q2, [""]);
    CloseRecord(q2);
    assert q2.outputs[id := CollapseYearSuffix(q2.outputs[id])] == q.outputs[id := CollapseYearSuffix(Join(body, " "))];
  }

  /** A body line of the current record (check.py:184-254): the literal
      rewrites, a separating space, the character loop, and the flush of the
      pending token. */
  method ScanBodyLine(p: Parser, line: string) returns (r: Result<Parser, ParseError>)
    requires Ready(p) && p.current.Some? && line != ""
    ensures r == LineStep(p, line)
  {
    var outputs := p.outputs;
    var id := p.current.value;
    ghost var m0 := Machine(p.state, p.level, p.exitArgs, p.exitGobbles, "", Separated(p.outputs[id]));
    var rewritten := Prepare(line);
    if outputs[id] != "" {
      outputs := outputs[id := outputs[id] + " "];
    }
    var scanned := ScanLine(Machine(p.state, p.level, p.exitArgs, p.exitGobbles, "", outputs[id]), rewritten);
    assert scanned == Run(m0, rewritten);
    if scanned.Failure? {
      return Failure(scanned.error);
    }
    var m := scanned.value;
    outputs := outputs[id := m.text + m.buffer];
    assert outputs == p.outputs[id := m.text + m.buffer];
    r := Success(Parser(outputs, p.current, m.state, m.level, m.exitArgs, m.exitGobbles));
  }

  /** parse_bibitems (check.py:152-256). */
  method ParseBibitems(lines: seq<string>) returns (r: Result<map<string, string>, ParseError>)
    ensures r == Parsed(lines)
  {
    var outputs: map<string, string> := map[];
    var state: seq<Mode> := [Normal];
    var level := 1;
    var exitArgs: seq<int> := [0];
    var exitGobbles: seq<int> := [0];
    var currentId: Option<string> := None;
    for i := 0 to |lines|
      invariant Ready(Parser(outputs, currentId, state, level, exitArgs, exitGobbles))
      invariant Lines(Parser(outputs, currentId, state, level, exitArgs, exitGobbles), lines[i..]) == Lines(Start, lines)
    {
      ghost var p0 := Parser(outputs, currentId, state, level, exitArgs, exitGobbles);
      assert lines[i..][0] == lines[i] && lines[i..][1..] == lines[i + 1..];
      var line := lines[i];
      if currentId.None? {
        var found := BibitemId(line);
        if found.Some? {
          currentId := found;
          outputs := outputs[found.value := ""];
        }
        continue;
      } else if line == "" {
        var id := currentId.value;
        outputs := outputs[id := CollapseYearSuffix(outputs[id])];
        currentId := None;
        state := [Normal];
        level := 1;
        exitArgs := [0];
        exitGobbles := [0];
        continue;
      }
      var next := ScanBodyLine(Parser(outputs, currentId, state, level, exitArgs, exitGobbles), line);
      if next.Failure? {
        return Failure(next.error);
      }
      outputs, state, level := next.value.outputs, next.value.state, next.value.level;
      exitArgs, exitGobbles := next.value.exitArgs, next.value.exitGobbles;
    }
    r := Success(outputs);
  }
}

=== FILE: legacy_interpreter.dfy ===
/** The older interpreter of bst/check-output.py (lines 64-165): the same
    character automaton as check.py's parse_bibitems, but it keeps a single
    argument checkpoint and a single gobble checkpoint instead of stacks,
    lets a `}` extend a command name, merges two adjacent `\emph{..}`
    groups when a record ends, and finally reports, in the order of the
    targets, every identifier whose output is missing or differs. */
module LegacyInterpreter {
  import opened Wrappers
  import opened Text
  import opened Patterns
  import I = Interpreter
  import T = Targets
  import S = Segmenter

  /** The automaton's variables while one record is built. */
  datatype Machine = Machine(
    state: seq<I.Mode>,
    level: int,
    exitArg: int,
    exitGobble: int,
    buffer: string,
    text: string)

  /** A command or a gobbled group is only ever entered from Normal. */
  predicate Shaped(m: Machine) {
    m.state == [I.Normal] || m.state == [I.Normal, I.Cs] || m.state == [I.Normal, I.Gobble]
  }

  /** Everything the record has produced, including the pending token. */
  function Visible(m: Machine): string {
    m.text + m.buffer
  }

  /** A character in Normal (bst/check-output.py:110-123): a backslash
      flushes the pending token and starts a command name; a `{` only raises
      the level; a `}` lowers it and is kept exactly when the level reaches
      the one checkpoint, which is then cleared. */
  function NormalStep(m: Machine, c: char): (r: Machine)
    requires m.state == [I.Normal]
    ensures r.state == (if c == '\\' then [I.Normal, I.Cs] else [I.Normal])
    ensures c == '}' ==> r.level == m.level - 1 && (Visible(r) == Visible(m) + "}" <==> m.level - 1 == m.exitArg)
    ensures c == '}' && m.level - 1 != m.exitArg ==> Visible(r) == Visible(m) && r.exitArg == m.exitArg
    ensures c == '}' && m.level - 1 == m.exitArg ==> r.exitArg == 0
    ensures c != '}' ==> Visible(r) == if c == '{' then Visible(m) else Visible(m) + [c]
  {
    var m1 := if c == '\\' then m.(state := m.state + [I.Cs], text := m.text + m.buffer, buffer := "") else m;
    if c == '{' then m1.(level := m1.level + 1)
    else if c == '}' then
      if m1.level - 1 == m1.exitArg then m1.(level := m1.level - 1, exitArg := 0, buffer := m1.buffer + "}")
      else m1.(level := m1.level - 1)
    else m1.(buffer := m1.buffer + [c])
  }

  /** A character while a command name is read (bst/check-output.py:124-140):
      a space ends the name; a `{` opens the argument, which is gobbled for
      `\bibinfo` and otherwise overwrites the checkpoint and is kept;
      anything else, a `}` included, extends the name. */
  function CsStep(m: Machine, c: char): (r: Machine)
    requires m.state == [I.Normal, I.Cs]
    ensures r.state == [I.Normal, I.Gobble] <==> c == '{' && m.buffer == "\\bibinfo"
    ensures r.state == [I.Normal, I.Cs] <==> c != ' ' && c != '{'
    ensures r.state == [I.Normal, I.Cs] ==> r == m.(buffer := m.buffer + [c])
    ensures c == '{' && m.buffer != "\\bibinfo" ==>
              r.exitArg == m.level && r.level == m.level + 1 && Visible(r) == Visible(m) + "{"
  {
    if c == ' ' then m.(state := I.Pop(m.state), text := m.text + m.buffer, buffer := " ")
    else if c == '{' then
      if m.buffer == "\\bibinfo" then
        m.(state := I.Pop(m.state) + [I.Gobble], exitGobble := m.level, level := m.level + 1, buffer := "")
      else
        m.(state := I.Pop(m.state), exitArg := m.level, level := m.level + 1, text := m.text + m.buffer, buffer := "{")
    else m.(buffer := m.buffer + [c])
  }

  /** A character inside a gobbled group (bst/check-output.py:141-149): only
      the level moves, nothing is produced, and the group ends when the level
      returns to its checkpoint. */
  function GobbleStep(m: Machine, c: char): (r: Machine)
    requires m.state == [I.Normal, I.Gobble]
    ensures r.text == m.text && r.buffer == m.buffer && r.exitArg == m.exitArg
    ensures r.state == (if c == '}' && m.level - 1 == m.exitGobble then [I.Normal] else [I.Normal, I.Gobble])
  {
    if c == '{' then m.(level := m.level + 1)
    else if c == '}' then
      if m.level - 1 == m.exitGobble then m.(state := I.Pop(m.state), level := m.level - 1, exitGobble := 0)
      else m.(level := m.level - 1)
    else m
  }

  /** One character (bst/check-output.py:109-151), dispatched on the top of
      the state stack; unlike check.py's automaton it can never fail. */
  function CharStep(m: Machine, c: char): (r: Machine)
    requires Shaped(m)
    ensures Shaped(r)
    ensures m.state == [I.Normal, I.Gobble] ==> Visible(r) == Visible(m)
  {
    if m.state == [I.Normal] then NormalStep(m, c)
    else if m.state == [I.Normal, I.Cs] then CsStep(m, c)
    else GobbleStep(m, c)
  }

  /** The scan of a whole (rewritten) line. */
  function Run(m: Machine, s: string): (r: Machine)
    requires Shaped(m)
    ensures Shaped(r)
    decreases |s|
  {
    if |s| == 0 then m else Run(CharStep(m, s[0]), s[1..])
  }

  lemma {:induction false} RunConcat(m: Machine, a: string, b: string)
    requires Shaped(m)
    ensures Run(m, a + b) == Run(Run(m, a), b)
    decreases |a|
  {
    if |a| > 0 {
      assert (a + b)[0] == a[0] && (a + b)[1..] == a[1..] + b;
      RunConcat(CharStep(m, a[0]), a[1..], b);
    } else {
      assert a + b == b;
    }
  }

  lemma RunThen(m: Machine, a: string, m': Machine, b: string)
    requires Shaped(m) && Run(m, a) == m'
    ensures Run(m, a + b) == Run(m', b)
  {
    RunConcat(m, a, b);
  }

  lemma RunChar(m: Machine, c: char)
    requires Shaped(m)
    ensures Run(m, [c]) == CharStep(m, c)
  {
    assert [c][1..] == [];
  }

  // Single steps, each proved apart from any scan so that the verifier
  // does not expand the automaton inside a scan.

  lemma PlainStep(m: Machine, c: char)
    requires m.state == [I.Normal] && c != '\\' && c != '{' && c != '}'
    ensures CharStep(m, c) == m.(buffer := m.buffer + [c])
  {
  }

  lemma OpenStep(m: Machine)
    requires m.state == [I.Normal]
    ensures CharStep(m, '{') == m.(level := m.level + 1)
  {
  }

  lemma CloseKeptStep(m: Machine)
    requires m.state == [I.Normal] && m.level - 1 == m.exitArg
    ensures CharStep(m, '}') == m.(level := m.level - 1, exitArg := 0, buffer := m.buffer + "}")
  {
  }

  lemma CloseDroppedStep(m: Machine)
    requires m.state == [I.Normal] && m.level - 1 != m.exitArg
    ensures CharStep(m, '}') == m.(level := m.level - 1)
  {
  }

  lemma BackslashStep(m: Machine)
    requires m.state == [I.Normal]
    ensures CharStep(m, '\\') == m.(state := [I.Normal, I.Cs], text := m.text + m.buffer, buffer := "\\")
  {
    assert [I.Normal] + [I.Cs] == [I.Normal, I.Cs];
    assert [] + ['\\'] == "\\";
  }

  lemma NameStep(m: Machine, c: char)
    requires m.state == [I.Normal, I.Cs] && c != ' ' && c != '{'
    ensures CharStep(m, c) == m.(buffer := m.buffer + [c])
  {
  }

  lemma ArgumentStep(m: Machine)
    requires m.state == [I.Normal, I.Cs] && m.buffer != "\\bibinfo"
    ensures CharStep(m, '{')
         == m.(state := [I.Normal], exitArg := m.level, level := m.level + 1, text := m.text + m.buffer, buffer := "{")
  {
    assert I.Pop(m.state) == [I.Normal];
  }

  lemma GobbleStartStep(m: Machine)
    requires m.state == [I.Normal, I.Cs] && m.buffer == "\\bibinfo"
    ensures CharStep(m, '{') == m.(state := [I.Normal, I.Gobble], exitGobble := m.level, level := m.level + 1, buffer := "")
  {
    assert I.Pop(m.state) + [I.Gobble] == [I.Normal, I.Gobble];
  }

  lemma GobbleInsideStep(m: Machine, c: char)
    requires m.state == [I.Normal, I.Gobble] && !(c == '}' && m.level - 1 == m.exitGobble)
    ensures CharStep(m, c) == m.(level := m.level + I.Delta(c))
  {
  }

  lemma GobbleEndStep(m: Machine)
    requires m.state == [I.Normal, I.Gobble] && m.level - 1 == m.exitGobble
    ensures CharStep(m, '}') == m.(state := [I.Normal], exitGobble := 0, level := m.level - 1)
  {
    assert I.Pop(m.state) == [I.Normal];
  }

  /** One step of a scan, from a step proved apart. */
  lemma RunStep(m: Machine, c: char, m': Machine)
    requires Shaped(m) && CharStep(m, c) == m'
    ensures Run(m, [c]) == m'
  {
    RunChar(m, c);
  }

  /** A scan whose first step is proved apart. */
  lemma RunCons(m: Machine, t: string, m': Machine)
    requires Shaped(m) && |t| > 0 && CharStep(m, t[0]) == m'
    ensures Run(m, t) == Run(m', t[1..])
  {
  }

  /** Plain text in Normal joins the pending token. */
  lemma {:induction false} PlainRun(m: Machine, t: string)
    requires m.state == [I.Normal] && I.Plain(t)
    ensures Run(m, t) == m.(buffer := m.buffer + t)
    decreases |t|
  {
    if |t| == 0 {
      assert m.buffer + t == m.buffer;
    } else {
      var m1 := m.(buffer := m.buffer + [t[0]]);
      I.PlainTail(t);
      PlainStep(m, t[0]);
      RunCons(m, t, m1);
      PlainRun(m1, t[1..]);
      I.SplitFirst(m.buffer, t);
    }
  }

  /** A command name (no space or brace) joins the pending token. */
  lemma {:induction false} NameRun(m: Machine, name: string)
    requires m.state == [I.Normal, I.Cs] && ' ' !in name && '{' !in name
    ensures Run(m, name) == m.(buffer := m.buffer + name)
    decreases |name|
  {
    if |name| == 0 {
      assert m.buffer + name == m.buffer;
    } else {
      var m1 := m.(buffer := m.buffer + [name[0]]);
      TailLacks(name, ' ');
      TailLacks(name, '{');
      NameStep(m, name[0]);
      RunCons(m, name, m1);
      NameRun(m1, name[1..]);
      I.SplitFirst(m.buffer, name);
    }
  }

  /** A backslash and a command name: the pending token is flushed and the
      name is read. A `}` may be part of the name here. */
  lemma CommandName(m: Machine, name: string)
    requires m.state == [I.Normal] && ' ' !in name && '{' !in name
    ensures Run(m, "\\" + name) == m.(state := [I.Normal, I.Cs], text := m.text + m.buffer, buffer := "\\" + name)
  {
    var m1 := m.(state := [I.Normal, I.Cs], text := m.text + m.buffer, buffer := "\\");
    BackslashStep(m);
    RunStep(m, '\\', m1);
    assert "\\" == ['\\'];
    NameRun(m1, name);
    RunThen(m, "\\", m1, name);
  }

  /** The `{` that ends a command name other than `\bibinfo`. */
  lemma OpenBrace(m: Machine)
    requires m.state == [I.Normal, I.Cs] && m.buffer != "\\bibinfo"
    ensures Run(m, "{") == m.(state := [I.Normal], exitArg := m.level, level := m.level + 1, text := m.text + m.buffer, buffer := "{")
  {
    ArgumentStep(m);
    RunStep(m, '{', m.(state := [I.Normal], exitArg := m.level, level := m.level + 1, text := m.text + m.buffer, buffer := "{"));
  }

  /** A `}` in Normal that reaches the checkpoint is kept and clears it. */
  lemma ClosingBraceKept(m: Machine)
    requires m.state == [I.Normal] && m.level - 1 == m.exitArg
    ensures Run(m, "}") == m.(level := m.level - 1, exitArg := 0, buffer := m.buffer + "}")
  {
    CloseKeptStep(m);
    RunStep(m, '}', m.(level := m.level - 1, exitArg := 0, buffer := m.buffer + "}"));
  }

  /** A `}` in Normal that misses the checkpoint is dropped. */
  lemma ClosingBraceDropped(m: Machine)
    requires m.state == [I.Normal] && m.level - 1 != m.exitArg
    ensures Run(m, "}") == m.(level := m.level - 1)
  {
    CloseDroppedStep(m);
    RunStep(m, '}', m.(level := m.level - 1));
  }

  /** The opening brace of an argument that is not gobbled: the command is
      flushed, the level is recorded in the one checkpoint and the brace is
      kept. */
  lemma ArgumentOpen(m: Machine, name: string)
    requires m.state == [I.Normal] && ' ' !in name && '{' !in name && name != "bibinfo"
    ensures Run(m, "\\" + name + "{")
         == m.(exitArg := m.level, level := m.level + 1, text := m.text + m.buffer + "\\" + name, buffer := "{")
  {
    var m2 := m.(state := [I.Normal, I.Cs], text := m.text + m.buffer, buffer := "\\" + name);
    assert m2.text + m2.buffer == m.text + m.buffer + "\\" + name;
    assert m2.buffer != "\\bibinfo" by { assert m2.buffer[1..] == name; }
    CommandName(m, name);
    OpenBrace(m2);
    RunThen(m, "\\" + name, m2, "{");
  }

  /** A command with a plain argument survives intact, and the checkpoint is
      cleared by its closing brace. */
  lemma CommandKept(m: Machine, name: string, t: string)
    requires m.state == [I.Normal] && ' ' !in name && '{' !in name && '}' !in name && name != "bibinfo"
    requires I.Plain(t)
    ensures Run(m, I.Command(name, t))
         == m.(exitArg := 0, text := m.text + m.buffer + "\\" + name, buffer := "{" + t + "}")
  {
    ArgumentOpen(m, name);
    var m3 := m.(exitArg := m.level, level := m.level + 1, text := m.text + m.buffer + "\\" + name, buffer := "{");
    PlainRun(m3, t);
    var m4 := m3.(buffer := "{" + t);
    RunThen(m, "\\" + name + "{", m3, t);
    ClosingBraceKept(m4);
    RunThen(m, "\\" + name + "{" + t, m4, "}");
  }

  /** A command whose argument is another command with a plain argument: the
      inner argument's `{` overwrites the one checkpoint, so the outer
      argument's closing brace no longer matches it and is dropped, and the
      record receives `\a{\b{x}` with one brace too few. */
  lemma NestedArgumentLosesBrace(m: Machine, a: string, b: string, x: string)
    requires m.state == [I.Normal] && m.level != 0
    requires ' ' !in a && '{' !in a && '}' !in a && a != "bibinfo"
    requires ' ' !in b && '{' !in b && '}' !in b && b != "bibinfo"
    requires I.Plain(x)
    ensures Run(m, I.Command(a, I.Command(b, x)))
         == m.(exitArg := 0, text := m.text + m.buffer + "\\" + a + "{" + "\\" + b, buffer := "{" + x + "}")
  {
    var open, inner := "\\" + a + "{", I.Command(b, x);
    var m1 := m.(exitArg := m.level, level := m.level + 1, text := m.text + m.buffer + "\\" + a, buffer := "{");
    var m2 := m1.(exitArg := 0, text := m1.text + m1.buffer + "\\" + b, buffer := "{" + x + "}");
    ArgumentOpen(m, a);
    CommandKept(m1, b, x);
    NestedRun(m, open, m1, inner, m2);
    assert I.Command(a, inner) == open + inner + "}";
    var t := m.text + m.buffer + "\\" + a + "{" + "\\" + b;
    assert m1.text + m1.buffer + "\\" + b == t;
  }

  /** What the record shows after such a nested command. */
  lemma NestedArgumentShown(m: Machine, a: string, b: string, x: string)
    requires m.state == [I.Normal] && m.level != 0
    requires ' ' !in a && '{' !in a && '}' !in a && a != "bibinfo"
    requires ' ' !in b && '{' !in b && '}' !in b && b != "bibinfo"
    requires I.Plain(x)
    ensures Visible(Run(m, I.Command(a, I.Command(b, x)))) == Visible(m) + "\\" + a + "{\\" + b + "{" + x + "}"
  {
    NestedArgumentLosesBrace(m, a, b, x);
    NestedText(Visible(m), a, b, x);
  }

  /** The text of NestedArgumentShown regrouped as the record shows it. */
  lemma NestedText(v: string, a: string, b: string, x: string)
    ensures (v + "\\" + a + "{" + "\\" + b) + ("{" + x + "}") == v + "\\" + a + "{\\" + b + "{" + x + "}"
  {
    assert "{" + "\\" == "{\\";
  }

  /** The three stages of a nested command: the outer name and brace, the
      inner command, and the outer closing brace, which misses the
      checkpoint the inner argument cleared. */
  lemma NestedRun(m: Machine, open: string, m1: Machine, inner: string, m2: Machine)
    requires m.state == [I.Normal] && m.level != 0
    requires Run(m, open) == m1 && Run(m1, inner) == m2
    requires m2.state == [I.Normal] && m2.level == m.level + 1 && m2.exitArg == 0
    ensures Run(m, open + inner + "}") == m2.(level := m.level)
  {
    RunThen(m, open, m1, inner);
    ClosingBraceDropped(m2);
    RunThen(m, open + inner, m2, "}");
  }

  /** While gobbling, a text whose nesting stays at or above the current
      depth produces nothing and leaves the automaton gobbling. */
  lemma {:induction false} GobbleRun(m: Machine, g: string, d: int)
    requires m.state == [I.Normal, I.Gobble] && m.level == m.exitGobble + 1 + d && I.Nested(g, d)
    ensures Run(m, g) == m.(level := m.level + I.Net(g))
    decreases |g|
  {
    if |g| > 0 {
      var m' := m.(level := m.level + I.Delta(g[0]));
      GobbleInsideStep(m, g[0]);
      GobbleRun(m', g[1..], d + I.Delta(g[0]));
    }
  }

  /** `\bibinfo` drops its first brace group whatever its nesting: the
      pending token is flushed and the automaton returns to Normal at the
      level it started from. */
  lemma BibinfoDropsField(m: Machine, name: string, field: string)
    requires m.state == [I.Normal] && name == "bibinfo" && I.Balanced(field)
    ensures Run(m, I.Command(name, field)) == m.(exitGobble := 0, text := m.text + m.buffer, buffer := "")
  {
    CommandName(m, name);
    var m2 := m.(state := [I.Normal, I.Cs], text := m.text + m.buffer, buffer := "\\" + name);
    var m3 := m2.(state := [I.Normal, I.Gobble], exitGobble := m.level, level := m.level + 1, buffer := "");
    GobbleStartStep(m2);
    RunStep(m2, '{', m3);
    RunThen(m, "\\" + name, m2, "{");
    GobbleRun(m3, field, 0);
    RunThen(m, "\\" + name + "{", m3, field);
    assert m3.(level := m3.level + I.Net(field)) == m3;
    GobbleEndStep(m3);
    RunStep(m3, '}', m.(exitGobble := 0, text := m.text + m.buffer, buffer := ""));
    RunThen(m, "\\" + name + "{" + field, m3, "}");
  }

  // ---------------------------------------------------------------------
  // The line loop.

  /** The interpreter's variables between two lines (the pending token is
      always empty there). */
  datatype Parser = Parser(
    outputs: map<string, string>,
    current: Option<string>,
    state: seq<I.Mode>,
    level: int,
    exitArg: int,
    exitGobble: int)

  predicate Ready(p: Parser) {
    && (p.current.Some? ==> p.current.value in p.outputs)
    && Shaped(Machine(p.state, p.level, p.exitArg, p.exitGobble, "", ""))
  }

  const Start := Parser(map[], None, [I.Normal], 1, 0, 0)

  /** The literal rewrites and the natexlab unwrap of a body line
      (bst/check-output.py:97-104). */
  function Prepare(line: string): string {
    var l1 := Replace(line, "\\@", "");
    var l2 := Replace(l1, "\\newblock ", "");
    var l3 := Replace(l2, "\\urlprefix", "Available from: ");
    var l4 := Replace(l3, "\\urldateprefix{}", "Accessed ");
    UnwrapNatexlab(l4)
  }

  /** The merge of two adjacent emphasised groups when a record ends
      (bst/check-output.py:86-89): the first `\emph{..} \emph{..}` pair, if
      its braces balance, becomes one group wherever it occurs. */
  function MergeEmph(out: string): (r: string)
    ensures |r| <= |out|
    ensures r != out ==> EmphPair(out).Some? && Count(EmphPair(out).value, '{') == Count(EmphPair(out).value, '}')
  {
    match EmphPair(out)
    case Some(g) =>
      if Count(g, '{') == Count(g, '}') then
        var joined := Replace(g, EmphJoint, " ");
        ReplaceShrinks(g, EmphJoint, " ");
        ReplaceShrinks(out, g, joined);
        Replace(out, g, joined)
      else out
    case None => out
  }

  /** One line of the loop (bst/check-output.py:75-154), on the stripped
      line: outside a record only a header matters; a bare `\newblock` is
      skipped; a blank line ends the record, merging its emphasised pair and
      resetting the automaton; any other line is rewritten and scanned
      after a separating space. */
  function LineStep(p: Parser, raw: string): (r: Parser)
    requires Ready(p)
    ensures Ready(r)
    ensures p.outputs.Keys <= r.outputs.Keys
    ensures p.current.None? ==> r.current == LegacyBibitemId(Strip(raw))
    ensures p.current.Some? && Strip(raw) == "\\newblock" ==> r == p
    ensures p.current.Some? && Strip(raw) == "" ==>
              r == Start.(outputs := p.outputs[p.current.value := MergeEmph(p.outputs[p.current.value])])
    ensures p.current.Some? && Strip(raw) != "" ==> r.current == p.current
  {
    var line := Strip(raw);
    match p.current
    case None =>
      (match LegacyBibitemId(line)
       case Some(id) => p.(current := Some(id), outputs := p.outputs[id := ""])
       case None => p)
    case Some(id) =>
      if line == "\\newblock" then p
      else if line == "" then Parser(p.outputs[id := MergeEmph(p.outputs[id])], None, [I.Normal], 1, 0, 0)
      else
        var m := Run(Machine(p.state, p.level, p.exitArg, p.exitGobble, "", Separated(p.outputs[id])), Prepare(line));
        Parser(p.outputs[id := Visible(m)], p.current, m.state, m.level, m.exitArg, m.exitGobble)
  }

  function Lines(p: Parser, lines: seq<string>): (r: Parser)
    requires Ready(p)
    ensures Ready(r)
    ensures p.outputs.Keys <= r.outputs.Keys
    decreases |lines|
  {
    if |lines| == 0 then p else Lines(LineStep(p, lines[0]), lines[1..])
  }

  /** The outputs of the whole loop. */
  function Parsed(lines: seq<string>): map<string, string> {
    Lines(Start, lines).outputs
  }

  /** A body line with no backslash, brace or tilde is untouched by the
      rewrites. */
  lemma PrepareKeepsVerbatim(s: string)
    requires I.Verbatim(s)
    ensures Prepare(s) == s
  {
    ReplaceAbsent(s, "\\@", "");
    ReplaceAbsent(s, "\\newblock ", "");
    ReplaceAbsent(s, "\\urlprefix", "Available from: ");
    ReplaceAbsent(s, "\\urldateprefix{}", "Accessed ");
    forall i | 0 <= i < |s|
      ensures Natexlab(s[i..]).None?
    {
      assert s[i..][0] == s[i];
    }
    ReSubUnmatched(s, Natexlab);
  }

  /** A stripped verbatim body line is appended to the record after a
      separating space. */
  lemma VerbatimLine(p: Parser, line: string)
    requires Ready(p) && p.current.Some? && p.state == [I.Normal]
    requires line != "" && Strip(line) == line && I.Verbatim(line)
    ensures LineStep(p, line)
         == p.(outputs := p.outputs[p.current.value := Separated(p.outputs[p.current.value]) + line])
  {
    var id := p.current.value;
    assert line != "\\newblock" by { assert line[0] != '\\'; }
    PrepareKeepsVerbatim(line);
    var m := Machine(p.state, p.level, p.exitArg, p.exitGobble, "", Separated(p.outputs[id]));
    PlainRun(m, line);
    assert m.buffer + line == line;
    assert Visible(m.(buffer := line)) == Separated(p.outputs[id]) + line;
  }

  /** A header line opens its record with an empty output. */
  lemma HeaderOpens(p: Parser, tag: string, id: string, rest: string)
    requires Ready(p) && p.current.None?
    requires ']' !in tag && '}' !in id
    requires Strip(ItemOpen + tag + "]{" + id + "}" + rest) == ItemOpen + tag + "]{" + id + "}" + rest
    ensures LineStep(p, ItemOpen + tag + "]{" + id + "}" + rest)
         == p.(current := Some(id), outputs := p.outputs[id := ""])
  {
    LegacyBibitemIdOfHeader(tag, id, rest);
  }

  // ---------------------------------------------------------------------
  // The emphasis merge.

  /** The pair `\emph{a} \emph{b}`. */
  function Pair(a: string, b: string): string {
    EmphOpen + a + EmphJoint + b + "}"
  }

  /** The same pair merged into `\emph{a b}`. */
  function Merged(a: string, b: string): string {
    EmphOpen + a + " " + b + "}"
  }

  lemma PieceCounts()
    ensures Count(EmphOpen, '{') == 1 && Count(EmphOpen, '}') == 0
    ensures Count(EmphJoint, '{') == 1 && Count(EmphJoint, '}') == 1
    ensures Count("}", '{') == 0 && Count("}", '}') == 1
  {
  }

  /** The braces of a pair with brace-free a and b balance. */
  lemma PairBalanced(a: string, b: string)
    requires I.Plain(a) && I.Plain(b)
    ensures Count(Pair(a, b), '{') == 2 && Count(Pair(a, b), '}') == 2
  {
    PieceCounts();
    I.CountAbsent(a, '{');
    I.CountAbsent(a, '}');
    I.CountAbsent(b, '{');
    I.CountAbsent(b, '}');
    var s1 := EmphOpen + a;
    var s2 := s1 + EmphJoint;
    var s3 := s2 + b;
    I.CountAppend(EmphOpen, a);
    I.CountAppend(s1, EmphJoint);
    I.CountAppend(s2, b);
    I.CountAppend(s3, "}");
    assert Pair(a, b) == s3 + "}";
  }

  lemma JointThenTail(b: string)
    requires '}' !in b
    ensures Replace(EmphJoint + (b + "}"), EmphJoint, " ") == " " + (b + "}")
  {
    var tail := b + "}";
    assert (EmphJoint + tail)[|EmphJoint|..] == tail;
    assert Replace(EmphJoint + tail, EmphJoint, " ") == " " + Replace(tail, EmphJoint, " ");
    ReplaceSkips(b, "}", EmphJoint, " ");
    assert Replace("}", EmphJoint, " ") == "}";
  }

  /** The pair's joint, `} \emph{`, becomes a space. */
  lemma JointReplaced(a: string, b: string)
    requires I.Plain(a) && I.Plain(b)
    ensures Replace(Pair(a, b), EmphJoint, " ") == Merged(a, b)
  {
    var tail := b + "}";
    assert Pair(a, b) == (EmphOpen + a) + (EmphJoint + tail);
    ReplaceSkips(EmphOpen + a, EmphJoint + tail, EmphJoint, " ");
    JointThenTail(b);
    assert (EmphOpen + a) + (" " + tail) == Merged(a, b);
  }

  lemma {:induction false} BraceCloseFinds(t: string, from: nat, m: nat)
    requires from <= m < |t| && t[m] == '}'
    requires forall i :: from <= i < m ==> t[i] != '}' && t[i] != '\n'
    ensures BraceClose(t, from) == Some(m)
    decreases m - from
  {
    if from < m {
      BraceCloseFinds(t, from + 1, m);
    }
  }

  lemma {:induction false} EmphPairFromFinds(t: string, from: nat, k: nat, m: nat)
    requires from <= k && k + |EmphJoint| <= |t| && t[k..k + |EmphJoint|] == EmphJoint
    requires BraceClose(t, k + |EmphJoint|) == Some(m)
    requires forall i :: from <= i < k ==> t[i] != '}' && t[i] != '\n'
    ensures EmphPairFrom(t, from) == Some(m)
    decreases k - from
  {
    if from < k {
      assert !(EmphJoint <= t[from..]) by { assert t[from..][0] == t[from]; }
      EmphPairFromFinds(t, from + 1, k, m);
    } else {
      assert t[from..][..|EmphJoint|] == t[k..k + |EmphJoint|];
    }
  }

  /** A slice that copies a text free of `}` and line breaks holds neither. */
  lemma SliceFree(t: string, lo: nat, x: string)
    requires lo + |x| <= |t| && t[lo..lo + |x|] == x && '}' !in x && '\n' !in x
    ensures forall i :: lo <= i < lo + |x| ==> t[i] != '}' && t[i] != '\n'
  {
    forall i | lo <= i < lo + |x| ensures t[i] != '}' && t[i] != '\n' {
      assert t[i] == x[i - lo];
      assert x[i - lo] in x;
    }
  }

  /** Where the parts of a pair sit in a text that begins with it. */
  lemma PairParts(a: string, b: string, rest: string)
    ensures var t := Pair(a, b) + rest;
            var k := |EmphOpen| + |a|;
            var m := k + |EmphJoint| + |b|;
            && m < |t| && EmphOpen <= t && t[|EmphOpen|..k] == a && t[k..k + |EmphJoint|] == EmphJoint
            && t[k + |EmphJoint|..m] == b && t[m] == '}' && t[..m + 1] == Pair(a, b)
  {
    var t := Pair(a, b) + rest;
    assert t == EmphOpen + a + EmphJoint + b + "}" + rest;
  }

  /** The pair pattern matches a text laid out as `\emph{a} \emph{b}...`. */
  lemma PairMatch(t: string, a: string, b: string, k: nat, m: nat)
    requires I.Plain(a) && I.Plain(b) && '\n' !in a && '\n' !in b
    requires k == |EmphOpen| + |a| && m == k + |EmphJoint| + |b| && m < |t|
    requires EmphOpen <= t && t[|EmphOpen|..k] == a && t[k..k + |EmphJoint|] == EmphJoint
    requires t[k + |EmphJoint|..m] == b && t[m] == '}'
    ensures EmphPairAt(t) == Some(Hit(m + 1, t[..m + 1]))
  {
    SliceFree(t, k + |EmphJoint|, b);
    BraceCloseFinds(t, k + |EmphJoint|, m);
    SliceFree(t, |EmphOpen|, a);
    EmphPairFromFinds(t, |EmphOpen|, k, m);
  }

  /** The pair matches at the start of a text that begins with it. */
  lemma PairAt(a: string, b: string, rest: string)
    requires I.Plain(a) && I.Plain(b) && '\n' !in a && '\n' !in b
    ensures EmphPairAt(Pair(a, b) + rest) == Some(Hit(|Pair(a, b)|, Pair(a, b)))
  {
    var k := |EmphOpen| + |a|;
    PairParts(a, b, rest);
    PairMatch(Pair(a, b) + rest, a, b, k, k + |EmphJoint| + |b|);
  }

  /** re.search finds a match that follows text where the pattern never
      starts. */
  lemma {:induction false} SearchAfter(pre: string, t: string, at: Matcher, h: Hit)
    requires forall i :: 0 <= i < |pre| ==> at((pre + t)[i..]).None?
    requires |t| > 0 && at(t) == Some(h)
    ensures Search(pre + t, at) == Some(Found(|pre|, h))
    decreases |pre|
  {
    if |pre| > 0 {
      assert (pre + t)[0..] == pre + t;
      assert (pre + t)[1..] == pre[1..] + t;
      forall i | 0 <= i < |pre[1..]|
        ensures at((pre[1..] + t)[i..]).None?
      {
        assert (pre[1..] + t)[i..] == (pre + t)[i + 1..];
      }
      SearchAfter(pre[1..], t, at, h);
    } else {
      assert pre + t == t;
    }
  }

  /** The pair is what the search finds first. */
  lemma PairFound(pre: string, a: string, b: string, rest: string)
    requires '\\' !in pre && I.Plain(a) && I.Plain(b) && '\n' !in a && '\n' !in b
    ensures EmphPair(pre + (Pair(a, b) + rest)) == Some(Pair(a, b))
  {
    var s := pre + (Pair(a, b) + rest);
    PairAt(a, b, rest);
    forall i | 0 <= i < |pre|
      ensures EmphPairAt(s[i..]).None?
    {
      assert s[i..][0] == pre[i];
    }
    SearchAfter(pre, Pair(a, b) + rest, EmphPairAt, Hit(|Pair(a, b)|, Pair(a, b)));
  }

  /** A balanced pair found by the search is replaced by its merge. */
  lemma MergeEmphFound(out: string, g: string)
    requires EmphPair(out) == Some(g) && Count(g, '{') == Count(g, '}')
    ensures MergeEmph(out) == Replace(out, g, Replace(g, EmphJoint, " "))
  {
  }

  /** Replacing a text that occurs once, after a prefix that cannot start it. */
  lemma ReplaceInside(pre: string, g: string, rest: string, m: string)
    requires 0 < |g| && g[0] !in pre && !Contains(rest, g)
    ensures Replace(pre + g + rest, g, m) == pre + m + rest
  {
    assert pre + g + rest == pre + (g + rest);
    ReplaceSkips(pre, g + rest, g, m);
    ReplaceOnce(g, rest, m);
    assert pre + (m + rest) == pre + m + rest;
  }

  /** The end of a record whose text holds `\emph{a} \emph{b}` (after text
      without a backslash, and before text where the pair does not recur)
      merges the pair into `\emph{a b}`. */
  lemma EmphPairMerged(pre: string, a: string, b: string, rest: string)
    requires '\\' !in pre && I.Plain(a) && I.Plain(b) && '\n' !in a && '\n' !in b
    requires !Contains(rest, Pair(a, b))
    ensures MergeEmph(pre + Pair(a, b) + rest) == pre + Merged(a, b) + rest
  {
    var g := Pair(a, b);
    assert pre + g + rest == pre + (g + rest);
    PairFound(pre, a, b, rest);
    PairBalanced(a, b);
    JointReplaced(a, b);
    assert g[0] == '\\';
    MergeEmphFound(pre + g + rest, g);
    ReplaceInside(pre, g, rest, Merged(a, b));
  }

  // ---------------------------------------------------------------------
  // The report.

  /** What the script prints for one identifier. */
  datatype Report = Missing(id: string) | Mismatch(id: string, target: string, output: string)

  /** The report (bst/check-output.py:156-165): the targets in their order,
      each either missing from the outputs, or differing from its output, or
      silently accepted. */
  function Compare(order: seq<string>, targets: map<string, string>, outputs: map<string, string>): (r: seq<Report>)
    requires forall k :: k in order ==> k in targets
    ensures forall e :: e in r ==> e.id in order
    ensures |r| <= |order|
    decreases |order|
  {
    if |order| == 0 then [] else Verdict(order[0], targets, outputs) + Compare(order[1..], targets, outputs)
  }

  /** What is printed for one target. */
  function Verdict(id: string, targets: map<string, string>, outputs: map<string, string>): seq<Report>
    requires id in targets
  {
    if id !in outputs then [Missing(id)]
    else if outputs[id] == targets[id] then []
    else [Mismatch(id, targets[id], outputs[id])]
  }

  /** A target is reported missing exactly when it has no output, and as a
      mismatch, with both texts, exactly when its output differs; an
      output with no target is never reported. */
  lemma {:induction false} CompareReports(order: seq<string>, targets: map<string, string>, outputs: map<string, string>, id: string)
    requires forall k :: k in order ==> k in targets
    ensures Missing(id) in Compare(order, targets, outputs) <==> id in order && id !in outputs
    ensures id in outputs && id in targets ==>
              (Mismatch(id, targets[id], outputs[id]) in Compare(order, targets, outputs) <==>
                 id in order && outputs[id] != targets[id])
    decreases |order|
  {
    if |order| > 0 {
      CompareReports(order[1..], targets, outputs, id);
      assert order == [order[0]] + order[1..];
    }
  }

  /** Nothing is printed exactly when every target has an identical output. */
  lemma {:induction false} CompareSilent(order: seq<string>, targets: map<string, string>, outputs: map<string, string>)
    requires forall k :: k in order ==> k in targets
    ensures Compare(order, targets, outputs) == []
        <==> forall k :: k in order ==> k in outputs && outputs[k] == targets[k]
    decreases |order|
  {
    if |order| > 0 {
      CompareSilent(order[1..], targets, outputs);
      assert forall k :: k in order ==> k == order[0] || k in order[1..];
    }
  }

  /** The report from position `i` on: the verdict on `order[i]`, then the rest. */
  lemma CompareAt(order: seq<string>, i: nat, targets: map<string, string>, outputs: map<string, string>)
    requires forall k :: k in order ==> k in targets
    requires i < |order|
    ensures forall k :: k in order[i..] ==> k in targets
    ensures forall k :: k in order[i + 1..] ==> k in targets
    ensures Compare(order[i..], targets, outputs)
         == Verdict(order[i], targets, outputs) + Compare(order[i + 1..], targets, outputs)
  {
    assert order[i..][0] == order[i] && order[i..][1..] == order[i + 1..];
  }

  lemma AppendThen<X>(a: seq<X>, b: seq<X>, c: seq<X>)
    ensures a + b + c == a + (b + c)
  {
  }

  // ---------------------------------------------------------------------
  // The loops.

  /** A character in Normal (bst/check-output.py:110-123, 151), on the
      loop's variables. */
  method NormalChar(m: Machine, ch: char) returns (r: Machine)
    requires m.state == [I.Normal]
    ensures r == NormalStep(m, ch)
  {
    var state, level, exitArg, buffer, text := m.state, m.level, m.exitArg, m.buffer, m.text;
    if ch == '\\' {
      state := state + [I.Cs];
      text := text + buffer;
      buffer := "";
    }
    if ch == '{' {
      level := level + 1;
      return m.(state := state, level := level, buffer := buffer, text := text);
    } else if ch == '}' {
      level := level - 1;
      if level == exitArg {
        exitArg := 0;
      } else {
        return m.(level := level);
      }
    }
    buffer := buffer + [ch];
    r := m.(state := state, level := level, exitArg := exitArg, buffer := buffer, text := text);
  }

  /** A character while a command name is read (bst/check-output.py:124-140, 151). */
  method CsChar(m: Machine, ch: char) returns (r: Machine)
    requires m.state == [I.Normal, I.Cs]
    ensures r == CsStep(m, ch)
  {
    var state, level, exitArg, exitGobble := m.state, m.level, m.exitArg, m.exitGobble;
    var buffer, text := m.buffer, m.text;
    if ch == ' ' {
      state := state[..|state| - 1];
      text := text + buffer;
      buffer := "";
    } else if ch == '{' {
      state := state[..|state| - 1];
      if buffer == "\\bibinfo" {
        state := state + [I.Gobble];
        exitGobble := level;
        level := level + 1;
        buffer := "";
        return Machine(state, level, exitArg, exitGobble, buffer, text);
      }
      exitArg := level;
      level := level + 1;
      text := text + buffer;
      buffer := "";
    }
    buffer := buffer + [ch];
    r := Machine(state, level, exitArg, exitGobble, buffer, text);
  }

  /** A character inside a gobbled group (bst/check-output.py:141-149). */
  method GobbleChar(m: Machine, ch: char) returns (r: Machine)
    requires m.state == [I.Normal, I.Gobble]
    ensures r == GobbleStep(m, ch)
  {
    var state, level, exitGobble := m.state, m.level, m.exitGobble;
    if ch == '{' {
      level := level + 1;
    } else if ch == '}' {
      level := level - 1;
      if level == exitGobble {
        exitGobble := 0;
        state := state[..|state| - 1];
      }
    }
    r := m.(state := state, level := level, exitGobble := exitGobble);
  }

  /** The character loop (bst/check-output.py:109-151) over one rewritten
      line, dispatched on the top of the state stack. */
  method ScanLine(start: Machine, line: string) returns (r: Machine)
    requires Shaped(start)
    ensures r == Run(start, line)
  {
    r := start;
    for j := 0 to |line|
      invariant Shaped(r)
      invariant Run(r, line[j..]) == Run(start, line)
    {
      assert line[j..][0] == line[j] && line[j..][1..] == line[j + 1..];
      if r.state[|r.state| - 1] == I.Normal {
        r := NormalChar(r, line[j]);
      } else if r.state[|r.state| - 1] == I.Cs {
        r := CsChar(r, line[j]);
      } else {
        r := GobbleChar(r, line[j]);
      }
    }
    assert line[|line|..] == "";
  }

  /** LineStep on a body line of the current record, unfolded once. */
  lemma BodyLineStep(p: Parser, raw: string)
    requires Ready(p) && p.current.Some? && Strip(raw) != "" && Strip(raw) != "\\newblock"
    ensures var id := p.current.value;
            var m := Run(Machine(p.state, p.level, p.exitArg, p.exitGobble, "", Separated(p.outputs[id])), Prepare(Strip(raw)));
            LineStep(p, raw) == Parser(p.outputs[id := Visible(m)], p.current, m.state, m.level, m.exitArg, m.exitGobble)
  {
  }

  /** A character only ever appends to the text already flushed. */
  lemma TextGrowsStep(m: Machine, c: char)
    requires Shaped(m)
    ensures m.text <= CharStep(m, c).text
  {
    assert m.text <= m.text + m.buffer;
  }

  /** Scanning a line only ever appends to the text already flushed. */
  lemma {:induction false} TextGrows(m: Machine, s: string)
    requires Shaped(m)
    ensures m.text <= Run(m, s).text
    decreases |s|
  {
    if |s| > 0 {
      TextGrowsStep(m, s[0]);
      TextGrows(CharStep(m, s[0]), s[1..]);
    }
  }

  /** A body line never takes back what its record holds: the record stays
      current and its text, with the separating space when it was not empty,
      stays a prefix of the new text. */
  lemma BodyLineExtends(p: Parser, raw: string)
    requires Ready(p) && p.current.Some? && Strip(raw) != "" && Strip(raw) != "\\newblock"
    ensures var r := LineStep(p, raw);
            && r.current == p.current
            && r.outputs.Keys == p.outputs.Keys
            && Separated(p.outputs[p.current.value]) <= r.outputs[p.current.value]
  {
    var m0 := Machine(p.state, p.level, p.exitArg, p.exitGobble, "", Separated(p.outputs[p.current.value]));
    BodyLineStep(p, raw);
    TextGrows(m0, Prepare(Strip(raw)));
    var m := Run(m0, Prepare(Strip(raw)));
    assert m.text <= Visible(m);
  }

  /** Over lines none of which is blank (bare `\newblock` lines included)
      the record's text only grows. */
  lemma {:induction false} BodyLinesExtend(p: Parser, body: seq<string>)
    requires Ready(p) && p.current.Some?
    requires forall k :: 0 <= k < |body| ==> Strip(body[k]) != ""
    ensures var r := Lines(p, body);
            && r.current == p.current
            && r.outputs.Keys == p.outputs.Keys
            && p.outputs[p.current.value] <= r.outputs[p.current.value]
    decreases |body|
  {
    if |body| > 0 {
      var id := p.current.value;
      var p1 := LineStep(p, body[0]);
      if Strip(body[0]) != "\\newblock" {
        BodyLineExtends(p, body[0]);
        assert p.outputs[id] <= Separated(p.outputs[id]);
      }
      assert forall k :: 0 <= k < |body[1..]| ==> body[1..][k] == body[k + 1];
      BodyLinesExtend(p1, body[1..]);
    }
  }

  /** A body line of the current record (bst/check-output.py:97-154): the
      rewrites, a separating space, the character loop and the flush of the
      pending token. */
  method ScanBodyLine(p: Parser, raw: string) returns (r: Parser)
    requires Ready(p) && p.current.Some? && Strip(raw) != "" && Strip(raw) != "\\newblock"
    ensures r == LineStep(p, raw)
  {
    var line := Strip(raw);
    var id := p.current.value;
    var output := p.outputs[id];
    if output != "" {
      output := output + " ";
    }
    var rewritten := Prepare(line);
    var m := ScanLine(Machine(p.state, p.level, p.exitArg, p.exitGobble, "", output), rewritten);
    BodyLineStep(p, raw);
    r := Parser(p.outputs[id := m.text + m.buffer], p.current, m.state, m.level, m.exitArg, m.exitGobble);
  }

  /** The line loop (bst/check-output.py:64-154). */
  method ParseLines(lines: seq<string>) returns (outputs: map<string, string>)
    ensures outputs == Parsed(lines)
  {
    outputs := map[];
    var state: seq<I.Mode> := [I.Normal];
    var level, exitArg, exitGobble := 1, 0, 0;
    var currentId: Option<string> := None;
    for i := 0 to |lines|
      invariant Ready(Parser(outputs, currentId, state, level, exitArg, exitGobble))
      invariant Lines(Parser(outputs, currentId, state, level, exitArg, exitGobble), lines[i..]) == Lines(Start, lines)
    {
      ghost var p0 := Parser(outputs, currentId, state, level, exitArg, exitGobble);
      assert lines[i..][0] == lines[i] && lines[i..][1..] == lines[i + 1..];
      var line := Strip(lines[i]);
      if currentId.None? {
        var found := LegacyBibitemId(line);
        if found.Some? {
          currentId := found;
          outputs := outputs[found.value := ""];
        }
        continue;
      } else if line == "\\newblock" {
        continue;
      } else if line == "" {
        var id := currentId.value;
        outputs := outputs[id := MergeEmph(outputs[id])];
        currentId := None;
        state, level, exitArg, exitGobble := [I.Normal], 1, 0, 0;
        continue;
      }
      var next := ScanBodyLine(Parser(outputs, currentId, state, level, exitArg, exitGobble), lines[i]);
      outputs, state, level := next.outputs, next.state, next.level;
      exitArg, exitGobble := next.exitArg, next.exitGobble;
    }
  }

  /** The report loop (bst/check-output.py:156-165). */
  method ReportDifferences(order: seq<string>, targets: map<string, string>, outputs: map<string, string>)
    returns (report: seq<Report>)
    requires forall k :: k in order ==> k in targets
    ensures report == Compare(order, targets, outputs)
  {
    report := [];
    for i := 0 to |order|
      invariant report + Compare(order[i..], targets, outputs) == Compare(order, targets, outputs)
    {
      var id := order[i];
      var verdict: seq<Report> := [];
      if id !in outputs {
        verdict := [Missing(id)];
      } else if outputs[id] != targets[id] {
        verdict := [Mismatch(id, targets[id], outputs[id])];
      }
      CompareAt(order, i, targets, outputs);
      AppendThen(report, verdict, Compare(order[i + 1..], targets, outputs));
      report := report + verdict;
    }
    assert order[|order|..] == [];
  }

  /** The whole script over the lines of the documented style file and of
      the bibliography: the targets, the joined records, their outputs and
      the report. */
  method CheckOutput(dtx: seq<string>, bbl: seq<string>) returns (report: seq<Report>)
    ensures var scan := T.DtxRun(T.DtxStart, dtx, T.LegacyClean);
            && (forall k :: k in scan.order ==> k in scan.targets)
            && report == Compare(scan.order, scan.targets, Parsed(S.LegacyJoined(bbl)))
  {
    var targets, order := T.ExtractDtxTargets(dtx, T.LegacyClean);
    T.DtxRunInOrder(T.DtxStart, dtx, T.LegacyClean);
    var lines := S.JoinLegacyLines(bbl);
    var outputs := ParseLines(lines);
    report := ReportDifferences(order, targets, outputs);
  }
}

=== FILE: patterns.dfy ===
/** The fixed regular expressions of the check scripts, each written as a
    matcher tried at the start of a string (see Text.ReSub, Text.Search and
    Text.FindAll for how re.sub, re.search and re.finditer drive them).
    `.` never crosses a newline, as in Python; `\d` is an ASCII digit. */
module Patterns {
  import opened Wrappers
  import opened Text

  predicate IsDigit(c: char) {
    '0' <= c <= '9'
  }

  // ---------------------------------------------------------------------
  // The date-suffix collapse (check.py:40, 75, 174-177, 274)

  predicate YearSuffixAt(t: string) {
    && |t| >= 9 && t[0] == ',' && t[1] == ' '
    && IsDigit(t[2]) && IsDigit(t[3]) && IsDigit(t[4]) && IsDigit(t[5])
    && (t[6] == 'a' || t[6] == 'b') && t[7] == '.' && t[8] == ' '
  }

  function YearSuffix(t: string): Option<Hit> {
    if YearSuffixAt(t) then Some(Hit(9, t[..6] + ". ")) else None
  }

  /** The date-suffix collapse: every `, dddd` followed by `a` or `b`, a
      full stop and a space loses the letter (left to right, without
      overlaps). */
  function CollapseYearSuffix(s: string): string {
    ReSub(s, YearSuffix)
  }

  /** No position of `s` starts a date suffix. */
  predicate NoYearSuffix(s: string) {
    forall i :: 0 <= i < |s| ==> !YearSuffixAt(s[i..])
  }

  /** The collapse keeps the first character: a match starts with the comma it keeps. */
  lemma CollapseKeepsHead(s: string)
    requires |s| > 0
    ensures |CollapseYearSuffix(s)| > 0 && CollapseYearSuffix(s)[0] == s[0]
  {
  }

  /** A comma-free prefix of the collapsed text was copied unchanged from the input. */
  lemma {:induction false} CollapseCopiesCommaFree(s: string, k: nat)
    requires k <= |CollapseYearSuffix(s)|
    requires forall j :: 0 <= j < k ==> CollapseYearSuffix(s)[j] != ','
    ensures k <= |s| && s[..k] == CollapseYearSuffix(s)[..k]
  {
    if k > 0 {
      CollapseKeepsHead(s);
      assert !YearSuffixAt(s);
      assert CollapseYearSuffix(s) == [s[0]] + CollapseYearSuffix(s[1..]);
      assert forall j :: 0 <= j < k - 1 ==> CollapseYearSuffix(s[1..])[j] == CollapseYearSuffix(s)[j + 1];
      CollapseCopiesCommaFree(s[1..], k - 1);
      assert s[..k] == [s[0]] + s[1..][..k - 1];
      assert CollapseYearSuffix(s)[..k] == [s[0]] + CollapseYearSuffix(s[1..])[..k - 1];
    }
  }

  /** A comma-free text placed before one without date suffixes creates none. */
  lemma {:induction false} CommaFreePrefix(p: string, t: string)
    requires forall j :: 0 <= j < |p| ==> p[j] != ','
    requires NoYearSuffix(t)
    ensures NoYearSuffix(p + t)
  {
    if |p| == 0 {
      assert p + t == t;
    } else {
      CommaFreePrefix(p[1..], t);
      assert (p + t)[1..] == p[1..] + t;
      forall i | 0 <= i < |p + t| ensures !YearSuffixAt((p + t)[i..]) {
        if i > 0 {
          assert (p + t)[i..] == (p[1..] + t)[i - 1..];
        }
      }
    }
  }

  /** A character put before a text without date suffixes creates none
      unless the result starts with one. */
  lemma ConsNoSuffix(c: char, x: string)
    requires NoYearSuffix(x) && !YearSuffixAt([c] + x)
    ensures NoYearSuffix([c] + x)
  {
    forall i | 0 < i < |[c] + x| ensures !YearSuffixAt(([c] + x)[i..]) {
      assert ([c] + x)[i..] == x[i - 1..];
    }
  }

  /** Where the input does not start with a date suffix, its collapse does not either. */
  lemma CopiedHeadNotSuffix(s: string)
    requires |s| > 0 && !YearSuffixAt(s)
    ensures !YearSuffixAt([s[0]] + CollapseYearSuffix(s[1..]))
  {
    var tail := CollapseYearSuffix(s[1..]);
    var out := [s[0]] + tail;
    if YearSuffixAt(out) {
      assert forall j :: 0 <= j < 8 ==> tail[j] == out[j + 1];
      CollapseCopiesCommaFree(s[1..], 8);
      assert false;
    }
  }

  /** The collapsed text holds no date suffix any more. */
  lemma {:induction false} CollapseLeavesNoSuffix(s: string)
    ensures NoYearSuffix(CollapseYearSuffix(s))
    decreases |s|
  {
    if |s| == 0 {
    } else if YearSuffixAt(s) {
      var tail := CollapseYearSuffix(s[9..]);
      CollapseLeavesNoSuffix(s[9..]);
      var rep := s[..6] + ". ";
      assert CollapseYearSuffix(s) == rep + tail;
      CommaFreePrefix(rep[1..], tail);
      assert rep + tail == [','] + (rep[1..] + tail);
      assert (rep + tail)[6] == '.';
      ConsNoSuffix(',', rep[1..] + tail);
    } else {
      CollapseLeavesNoSuffix(s[1..]);
      CopiedHeadNotSuffix(s);
      ConsNoSuffix(s[0], CollapseYearSuffix(s[1..]));
    }
  }

  /** The date-suffix collapse is idempotent. */
  lemma CollapseIdempotent(s: string)
    ensures CollapseYearSuffix(CollapseYearSuffix(s)) == CollapseYearSuffix(s)
  {
    var c := CollapseYearSuffix(s);
    CollapseLeavesNoSuffix(s);
    forall i | 0 <= i < |c| ensures YearSuffix(c[i..]).None? {
    }
    ReSubUnmatched(c, YearSuffix);
  }

  // ---------------------------------------------------------------------
  // The tolerance of contrast_refs (check.py:431)

  predicate YearLetterAt(t: string) {
    && |t| >= 7 && t[0] == ' '
    && IsDigit(t[1]) && IsDigit(t[2]) && IsDigit(t[3]) && IsDigit(t[4])
    && 'a' <= t[5] <= 'c' && t[6] == '.'
  }

  function YearLetter(t: string): Option<Hit> {
    if YearLetterAt(t) then Some(Hit(7, t[..5] + ".")) else None
  }

  /** The de-duplication of contrast_refs: every space, four digits and a
      letter from `a` to `c` before a full stop loses the letter. */
  function DropYearLetter(s: string): string {
    ReSub(s, YearLetter)
  }

  // ---------------------------------------------------------------------
  // The disambiguation-label unwrap (check.py:195, bst/check-output.py:104)

  const NatexlabOpen := "{\\natexlab{"

  function Natexlab(t: string): Option<Hit> {
    if NatexlabOpen <= t then
      match IndexOf(t, '}', |NatexlabOpen|)
      case Some(k) => if k + 1 < |t| && t[k + 1] == '}' then Some(Hit(k + 2, t[|NatexlabOpen|..k])) else None
      case None => None
    else None
  }

  function UnwrapNatexlab(s: string): string {
    ReSub(s, Natexlab)
  }

  /** A disambiguation tag wrapper is replaced by the bare tag. */
  lemma UnwrapNatexlabLabel(x: string)
    requires '}' !in x
    ensures UnwrapNatexlab(NatexlabOpen + x + "}}") == x
  {
    var t := NatexlabOpen + x + "}}";
    assert NatexlabOpen <= t;
    assert forall k :: |NatexlabOpen| <= k < |NatexlabOpen| + |x| ==> t[k] == x[k - |NatexlabOpen|];
    IndexOfFinds(t, '}', |NatexlabOpen|, |NatexlabOpen| + |x|);
    assert t[|NatexlabOpen|..|NatexlabOpen| + |x|] == x;
    assert Natexlab(t) == Some(Hit(|t|, x));
    assert t[|t|..] == "";
    assert UnwrapNatexlab(t) == x + ReSub(t[|t|..], Natexlab);
  }

  // ---------------------------------------------------------------------
  // The example-box opening (check.py:28, bst/check-output.py:15)

  const BoxBegin := "\\begin{bibexbox}"

  function BibexboxAt(t: string): Option<Hit> {
    if BoxBegin <= t then
      match IndexOf(t, '}', |BoxBegin|)
      case Some(k) =>
        (match LastIndexOf(t, '{', |BoxBegin|, k)
         case Some(j) => Some(Hit(k + 1, t[j + 1..k]))
         case None => None)
      case None => None
    else None
  }

  /** The identifier of the first example box a line opens. */
  function BibexboxId(line: string): Option<string> {
    match Search(line, BibexboxAt)
    case Some(f) => Some(f.hit.text)
    case None => None
  }

  /** Where the parts of a box opening sit in a line that begins with it. */
  lemma OpeningParts(opts: string, id: string, rest: string)
    ensures var t := BoxBegin + opts + "{" + id + "}" + rest;
            var j := |BoxBegin| + |opts|;
            var k := j + 1 + |id|;
            && k < |t| && BoxBegin <= t && t[|BoxBegin|..j] == opts && t[j] == '{'
            && t[j + 1..k] == id && t[k] == '}'
  {
    var t := BoxBegin + opts + "{" + id + "}" + rest;
    assert t == BoxBegin + opts + "{" + id + "}" + rest;
  }

  /** The box pattern matches a text laid out as a box opening. */
  lemma OpeningMatch(t: string, opts: string, id: string, j: nat, k: nat)
    requires '}' !in opts && '{' !in opts && '}' !in id && '{' !in id
    requires j == |BoxBegin| + |opts| && k == j + 1 + |id| && k < |t|
    requires BoxBegin <= t && t[|BoxBegin|..j] == opts && t[j] == '{' && t[j + 1..k] == id && t[k] == '}'
    ensures BibexboxAt(t) == Some(Hit(k + 1, id))
  {
    SliceLacks(t, |BoxBegin|, opts, '}');
    SliceLacks(t, j + 1, id, '}');
    IndexOfFinds(t, '}', |BoxBegin|, k);
    SliceLacks(t, j + 1, id, '{');
    assert LastIndexOf(t, '{', |BoxBegin|, k) == Some(j) by {
      LastIndexOfFinds(t, '{', |BoxBegin|, k, j);
    }
  }

  /** The pattern matches a box opening at its start, and its group is the
      identifier. */
  lemma BibexboxAtOpening(opts: string, id: string, rest: string)
    requires '}' !in opts && '{' !in opts && '}' !in id && '{' !in id
    ensures BibexboxAt(BoxBegin + opts + "{" + id + "}" + rest) == Some(Hit(|BoxBegin| + |opts| + |id| + 2, id))
  {
    OpeningParts(opts, id, rest);
    OpeningMatch(BoxBegin + opts + "{" + id + "}" + rest, opts, id, |BoxBegin| + |opts|, |BoxBegin| + |opts| + 1 + |id|);
  }

  /** A box opened with options and an identifier yields that identifier. */
  lemma BibexboxIdOfOpening(opts: string, id: string, rest: string)
    requires '}' !in opts && '{' !in opts && '}' !in id && '{' !in id
    ensures BibexboxId(BoxBegin + opts + "{" + id + "}" + rest) == Some(id)
  {
    var t := BoxBegin + opts + "{" + id + "}" + rest;
    BibexboxAtOpening(opts, id, rest);
    assert t[0..] == t;
  }

  // ---------------------------------------------------------------------
  // The complete bibitem header of parse_bibitems (check.py:170)

  const ItemOpen := "\\bibitem["

  /** The `]{` that ends the greedy tag: the largest j < hi with
      u[j] = ']' and u[j+1] = '{' followed by no '}' before the last character. */
  function LabelClose(u: string, lo: nat, hi: nat): (r: Option<nat>)
    requires hi <= |u|
    ensures r.Some? ==> lo <= r.value < hi && r.value + 3 <= |u|
    decreases hi
  {
    if hi <= lo then None
    else
      var j := hi - 1;
      if j + 3 <= |u| && u[j] == ']' && u[j + 1] == '{' && '}' !in u[j + 2..|u| - 1] then Some(j)
      else LabelClose(u, lo, hi - 1)
  }

  function BibitemAt(t: string): Option<Hit> {
    var u := if |t| > 0 && t[|t| - 1] == '\n' then t[..|t| - 1] else t;
    if ItemOpen <= u && u[|u| - 1] == '}' then
      match LabelClose(u, |ItemOpen|, LineEnd(u))
      case Some(j) => Some(Hit(|u|, u[j + 2..|u| - 1]))
      case None => None
    else None
  }

  /** The identifier of a complete `\bibitem[tag]{id}` line. */
  function BibitemId(line: string): Option<string> {
    match Search(line, BibitemAt)
    case Some(f) => Some(f.hit.text)
    case None => None
  }

  lemma {:induction false} LabelCloseFinds(u: string, lo: nat, hi: nat, j: nat)
    requires lo <= j < hi <= |u| && j + 3 <= |u|
    requires u[j] == ']' && u[j + 1] == '{' && '}' !in u[j + 2..|u| - 1]
    requires forall i :: j + 2 <= i < |u| ==> u[i] != '{'
    ensures LabelClose(u, lo, hi) == Some(j)
    decreases hi
  {
    if hi - 1 != j {
      LabelCloseFinds(u, lo, hi - 1, j);
    }
  }

  /** Where the parts of a `\bibitem[tag]{id}` header sit in it. */
  lemma HeaderParts(tag: string, id: string, rest: string)
    ensures var t := ItemOpen + tag + "]{" + id + "}" + rest;
            var k := |ItemOpen| + |tag|;
            var m := k + 2 + |id|;
            && m < |t| && ItemOpen <= t && t[|ItemOpen|..k] == tag && t[k] == ']' && t[k + 1] == '{'
            && t[k + 2..m] == id && t[m] == '}'
  {
    var t := ItemOpen + tag + "]{" + id + "}" + rest;
    assert t == ItemOpen + tag + "]{" + id + "}" + rest;
  }

  /** The end of the search for `]{` in a header line: its first line break, or its end. */
  function LineEnd(u: string): nat {
    match IndexOf(u, '\n', |ItemOpen|) case Some(n) => n case None => |u|
  }

  /** The `]{` that ends a header's tag is the one the greedy match settles on. */
  lemma HeaderLabel(t: string, tag: string, id: string, k: nat)
    requires '\n' !in tag && '{' !in id && '}' !in id
    requires k == |ItemOpen| + |tag| && k + 2 + |id| + 1 == |t|
    requires ItemOpen <= t && t[|ItemOpen|..k] == tag && t[k] == ']' && t[k + 1] == '{'
    requires t[k + 2..|t| - 1] == id && t[|t| - 1] == '}'
    ensures k < LineEnd(t) <= |t| && LabelClose(t, |ItemOpen|, LineEnd(t)) == Some(k)
  {
    SliceLacks(t, k + 2, id, '{');
    SliceLacks(t, |ItemOpen|, tag, '\n');
    var found := IndexOf(t, '\n', |ItemOpen|);
    assert k < LineEnd(t) by {
      if found.Some? {
        assert t[found.value] == '\n';
      }
    }
    LabelCloseFinds(t, |ItemOpen|, LineEnd(t), k);
  }

  /** The header pattern matches a text laid out as a complete header. */
  lemma HeaderMatch(t: string, tag: string, id: string, k: nat)
    requires '\n' !in tag && '{' !in id && '}' !in id
    requires k == |ItemOpen| + |tag| && k + 2 + |id| + 1 == |t|
    requires ItemOpen <= t && t[|ItemOpen|..k] == tag && t[k] == ']' && t[k + 1] == '{'
    requires t[k + 2..|t| - 1] == id && t[|t| - 1] == '}'
    ensures BibitemAt(t) == Some(Hit(|t|, id))
  {
    HeaderLabel(t, tag, id, k);
  }

  /** The header line that the segmenter emits yields its identifier back. */
  lemma BibitemIdOfHeader(tag: string, id: string)
    requires '\n' !in tag && '{' !in id && '}' !in id
    ensures BibitemId(ItemOpen + tag + "]{" + id + "}") == Some(id)
  {
    var t := ItemOpen + tag + "]{" + id + "}";
    HeaderParts(tag, id, "");
    assert t + "" == t;
    HeaderMatch(t, tag, id, |ItemOpen| + |tag|);
    assert t[0..] == t;
  }

  // ---------------------------------------------------------------------
  // The bibitem header of the older script (bst/check-output.py:79)

  function LegacyBibitemAt(t: string): Option<Hit> {
    if ItemOpen <= t then
      match IndexOf(t, ']', |ItemOpen|)
      case Some(k) =>
        if k + 1 < |t| && t[k + 1] == '{' then
          match IndexOf(t, '}', k + 2)
          case Some(m) => Some(Hit(m + 1, t[k + 2..m]))
          case None => None
        else None
      case None => None
    else None
  }

  function LegacyBibitemId(line: string): Option<string> {
    match Search(line, LegacyBibitemAt)
    case Some(f) => Some(f.hit.text)
    case None => None
  }

  /** The older header pattern matches a text that begins with a header. */
  lemma LegacyHeaderMatch(t: string, tag: string, id: string, k: nat, m: nat)
    requires ']' !in tag && '}' !in id
    requires k == |ItemOpen| + |tag| && m == k + 2 + |id| && m < |t|
    requires ItemOpen <= t && t[|ItemOpen|..k] == tag && t[k] == ']' && t[k + 1] == '{'
    requires t[k + 2..m] == id && t[m] == '}'
    ensures LegacyBibitemAt(t) == Some(Hit(m + 1, id))
  {
    SliceLacks(t, |ItemOpen|, tag, ']');
    IndexOfFinds(t, ']', |ItemOpen|, k);
    SliceLacks(t, k + 2, id, '}');
    IndexOfFinds(t, '}', k + 2, m);
  }

  lemma LegacyBibitemIdOfHeader(tag: string, id: string, rest: string)
    requires ']' !in tag && '}' !in id
    ensures LegacyBibitemId(ItemOpen + tag + "]{" + id + "}" + rest) == Some(id)
  {
    var t := ItemOpen + tag + "]{" + id + "}" + rest;
    var k := |ItemOpen| + |tag|;
    HeaderParts(tag, id, rest);
    LegacyHeaderMatch(t, tag, id, k, k + 2 + |id|);
    assert t[0..] == t;
  }

  // ---------------------------------------------------------------------
  // The bibitem header of parse_simple_bibitems (check.py:268)

  const SimpleItemOpen := "\\bibitem{"

  function SimpleBibitemAt(t: string): Option<Hit> {
    if SimpleItemOpen <= t then
      match IndexOf(t, '}', |SimpleItemOpen|)
      case Some(m) => Some(Hit(m + 1, t[|SimpleItemOpen|..m]))
      case None => None
    else None
  }

  function SimpleBibitemId(line: string): Option<string> {
    match Search(line, SimpleBibitemAt)
    case Some(f) => Some(f.hit.text)
    case None => None
  }

  // ---------------------------------------------------------------------
  // The citations of extract_csl_targets (check.py:67-69)

  const CiteOpen := "\\cite{"

  function CiteAt(t: string): Option<Hit> {
    if CiteOpen <= t then
      match IndexOf(t, '}', |CiteOpen|)
      case Some(m) => Some(Hit(m + 1, t[|CiteOpen|..m]))
      case None => None
    else None
  }

  /** The identifiers of every citation in a line, left to right. */
  function CiteIds(line: string): seq<string> {
    FindAll(line, CiteAt)
  }

  /** A leading citation contributes its identifier ahead of the rest. */
  lemma CiteIdsCons(id: string, rest: string)
    requires '}' !in id
    ensures CiteIds(CiteOpen + id + "}" + rest) == [id] + CiteIds(rest)
  {
    var t := CiteOpen + id + "}" + rest;
    var m := |CiteOpen| + |id|;
    assert CiteOpen <= t;
    assert forall i :: |CiteOpen| <= i < m ==> t[i] == id[i - |CiteOpen|];
    IndexOfFinds(t, '}', |CiteOpen|, m);
    assert t[|CiteOpen|..m] == id;
    assert t[m + 1..] == rest;
  }

  // ---------------------------------------------------------------------
  // Curly single quotes to `\enquote` (check.py:273)

  const OpenQuote := '\U{2018}'
  const CloseQuote := '\U{2019}'

  /** The first closing quote at or after k, if no newline comes first. */
  function QuoteEnd(t: string, k: nat): (r: Option<nat>)
    ensures r.Some? ==> k <= r.value < |t| && t[r.value] == CloseQuote
    decreases |t| - k
  {
    if k >= |t| || t[k] == '\n' then None
    else if t[k] == CloseQuote then Some(k)
    else QuoteEnd(t, k + 1)
  }

  function EnquoteAt(t: string): Option<Hit> {
    if |t| > 0 && t[0] == OpenQuote then
      match QuoteEnd(t, 1)
      case Some(k) => Some(Hit(k + 1, "\\enquote{" + t[1..k] + "}"))
      case None => None
    else None
  }

  /** Every span between a left and the next right single curly quote on
      the same line becomes an `\enquote` command around the same text. */
  function Enquote(s: string): string {
    ReSub(s, EnquoteAt)
  }

  lemma {:induction false} QuoteEndSkips(t: string, k: nat, n: nat)
    requires k <= n < |t| && t[n] == CloseQuote
    requires forall i :: k <= i < n ==> t[i] != CloseQuote && t[i] != '\n'
    ensures QuoteEnd(t, k) == Some(n)
    decreases n - k
  {
    if k < n {
      QuoteEndSkips(t, k + 1, n);
    }
  }

  /** A curly-quoted span becomes an \enquote command around the same text. */
  lemma EnquoteSpan(x: string)
    requires CloseQuote !in x && '\n' !in x
    ensures Enquote([OpenQuote] + x + [CloseQuote]) == "\\enquote{" + x + "}"
  {
    var t := [OpenQuote] + x + [CloseQuote];
    assert forall i :: 1 <= i < |t| - 1 ==> t[i] == x[i - 1];
    QuoteEndSkips(t, 1, |t| - 1);
    assert t[1..|t| - 1] == x;
    assert EnquoteAt(t) == Some(Hit(|t|, "\\enquote{" + x + "}"));
    assert t[|t|..] == "";
    assert Enquote(t) == "\\enquote{" + x + "}" + ReSub(t[|t|..], EnquoteAt);
    assert t[|t|..] == "";
  }

  // ---------------------------------------------------------------------
  // The year split of ignore_unfixable (check.py:385-387)

  const EmphOpen := "\\emph{"

  predicate YearCloseAt(t: string, k: nat) {
    k + 6 <= |t| && t[k] == ' ' && IsDigit(t[k + 1]) && IsDigit(t[k + 2]) && IsDigit(t[k + 3]) && IsDigit(t[k + 4]) && t[k + 5] == '}'
  }

  /** The shortest group ending where ` dddd}` follows, without crossing a newline. */
  function YearClose(t: string, k: nat): (r: Option<nat>)
    ensures r.Some? ==> k <= r.value && YearCloseAt(t, r.value)
    decreases |t| - k
  {
    if YearCloseAt(t, k) then Some(k)
    else if k >= |t| || t[k] == '\n' then None
    else YearClose(t, k + 1)
  }

  function EmphYearAt(t: string): Option<Hit> {
    if EmphOpen <= t then
      match YearClose(t, |EmphOpen|)
      case Some(k) => Some(Hit(k + 6, EmphOpen + t[|EmphOpen|..k] + "} " + EmphOpen + t[k + 1..k + 5] + "}"))
      case None => None
    else None
  }

  /** An emphasised group that ends in a space and four digits is split
      into two emphasised groups, the second holding the year. */
  function SplitEmphYear(s: string): string {
    ReSub(s, EmphYearAt)
  }

  /** The lazy group stops at the first place where ` dddd}` follows. */
  lemma {:induction false} YearCloseFinds(t: string, k: nat, e: nat)
    requires k <= e && YearCloseAt(t, e)
    requires forall i :: k <= i < e ==> !YearCloseAt(t, i) && t[i] != '\n'
    ensures YearClose(t, k) == Some(e)
    decreases e - k
  {
    if k < e {
      YearCloseFinds(t, k + 1, e);
    }
  }

  predicate FourDigits(year: string) {
    |year| == 4 && IsDigit(year[0]) && IsDigit(year[1]) && IsDigit(year[2]) && IsDigit(year[3])
  }

  /** `\emph{title dddd}` laid out: where each part sits. */
  lemma EmphYearParts(title: string, year: string)
    requires |year| == 4
    ensures var t := EmphOpen + title + " " + year + "}";
            var e := |EmphOpen| + |title|;
            && |t| == e + 6 && t[..|EmphOpen|] == EmphOpen && t[|EmphOpen|..e] == title
            && t[e] == ' ' && t[e + 1..e + 5] == year && t[e + 5] == '}'
  {
    var t := EmphOpen + title + " " + year + "}";
    var e := |EmphOpen| + |title|;
    assert t == (EmphOpen + title) + (" " + year + "}");
    assert t[e..] == " " + year + "}";
  }

  /** The split of a string laid out as `\emph{title dddd}`. */
  lemma EmphYearMatch(t: string, title: string, year: string, e: nat)
    requires '}' !in title && '\n' !in title && FourDigits(year)
    requires e == |EmphOpen| + |title| && |t| == e + 6
    requires t[..|EmphOpen|] == EmphOpen && t[|EmphOpen|..e] == title
    requires t[e] == ' ' && t[e + 1..e + 5] == year && t[e + 5] == '}'
    ensures EmphYearAt(t) == Some(Hit(|t|, EmphOpen + title + "} " + EmphOpen + year + "}"))
  {
    assert t[e + 1] == year[0] && t[e + 2] == year[1] && t[e + 3] == year[2] && t[e + 4] == year[3];
    assert YearCloseAt(t, e);
    forall i | |EmphOpen| <= i < e ensures !YearCloseAt(t, i) && t[i] != '\n' {
      assert t[i] == title[i - |EmphOpen|];
      if i + 5 < e {
        assert t[i + 5] == title[i + 5 - |EmphOpen|];
      }
    }
    YearCloseFinds(t, |EmphOpen|, e);
    assert EmphOpen <= t;
  }

  /** A title of one line without a closing brace, followed by a four-digit
      year, is split into two emphasised groups. */
  lemma SplitEmphYearTitle(title: string, year: string)
    requires '}' !in title && '\n' !in title && FourDigits(year)
    ensures SplitEmphYear(EmphOpen + title + " " + year + "}")
         == EmphOpen + title + "} " + EmphOpen + year + "}"
  {
    var t := EmphOpen + title + " " + year + "}";
    EmphYearParts(title, year);
    EmphYearMatch(t, title, year, |EmphOpen| + |title|);
    var r := EmphOpen + title + "} " + EmphOpen + year + "}";
    assert SplitEmphYear(t) == r + ReSub(t[|t|..], EmphYearAt);
    assert t[|t|..] == "";
    assert r + "" == r;
  }

  // ---------------------------------------------------------------------
  // The emphasised pair of the older script (bst/check-output.py:86)

  const EmphJoint := "} \\emph{"

  /** The first '}' at or after k, if no newline comes first. */
  function BraceClose(t: string, k: nat): (r: Option<nat>)
    ensures r.Some? ==> k <= r.value < |t| && t[r.value] == '}'
    decreases |t| - k
  {
    if k >= |t| || t[k] == '\n' then None
    else if t[k] == '}' then Some(k)
    else BraceClose(t, k + 1)
  }

  /** The lazy first group ends at k; on failure it grows by one character. */
  function EmphPairFrom(t: string, k: nat): (r: Option<nat>)
    requires k <= |t|
    ensures r.Some? ==> k + |EmphJoint| <= r.value < |t|
    decreases |t| - k
  {
    var second := if EmphJoint <= t[k..] then BraceClose(t, k + |EmphJoint|) else None;
    if second.Some? then second
    else if k >= |t| || t[k] == '\n' then None
    else EmphPairFrom(t, k + 1)
  }

  function EmphPairAt(t: string): Option<Hit> {
    if EmphOpen <= t then
      match EmphPairFrom(t, |EmphOpen|)
      case Some(m) => Some(Hit(m + 1, t[..m + 1]))
      case None => None
    else None
  }

  /** The text of the first `\emph{..} \emph{..}` pair in a string. */
  function EmphPair(s: string): Option<string> {
    match Search(s, EmphPairAt)
    case Some(f) => Some(f.hit.text)
    case None => None
  }

  // ---------------------------------------------------------------------
  // The rewrites of csl/check-output.py.

  const LeftDoubleQuote := '\U{201c}'
  const RightDoubleQuote := '\U{201d}'
  const SpanOpen := "<span>"
  const SpanClose := "</span>"

  function QuoteSpanEnd(t: string, k: nat): (r: Option<nat>)
    ensures r.Some? ==> k <= r.value && r.value + 1 + |SpanClose| <= |t|
    decreases |t| - k
  {
    if k < |t| && (t[k] == CloseQuote || t[k] == RightDoubleQuote) && SpanClose <= t[k + 1..] then Some(k)
    else if k >= |t| || t[k] == '\n' then None
    else QuoteSpanEnd(t, k + 1)
  }

  function QuoteSpanAt(t: string): Option<Hit> {
    if SpanOpen <= t && |t| > |SpanOpen| && (t[|SpanOpen|] == LeftDoubleQuote || t[|SpanOpen|] == OpenQuote) then
      match QuoteSpanEnd(t, |SpanOpen| + 1)
      case Some(k) => Some(Hit(k + 1 + |SpanClose|, t[|SpanOpen|..k + 1]))
      case None => None
    else None
  }

  /** A plain `<span>` around a quotation (opening with a left curly quote
      and ending at the first right one before `</span>`) is unwrapped. */
  function UnwrapQuoteSpans(s: string): string {
    ReSub(s, QuoteSpanAt)
  }

  const NocaseOpen := "<span class=\"nocase\">"

  function NocaseAt(t: string): Option<Hit> {
    if NocaseOpen <= t then
      match IndexOf(t, '<', |NocaseOpen|)
      case Some(m) => if SpanClose <= t[m..] then Some(Hit(m + |SpanClose|, t[|NocaseOpen|..m])) else None
      case None => None
    else None
  }

  /** A `nocase` span around text without tags is unwrapped. */
  function UnwrapNocase(s: string): string {
    ReSub(s, NocaseAt)
  }

  const AnchorOpen := "<a href=\""

  function HrefEnd(t: string, k: nat): (r: Option<nat>)
    ensures r.Some? ==> k <= r.value && r.value + 2 <= |t|
    decreases |t| - k
  {
    if k <= |t| && "\">" <= t[k..] then Some(k)
    else if k >= |t| || t[k] == '\n' then None
    else HrefEnd(t, k + 1)
  }

  function AnchorAt(t: string): Option<Hit> {
    if AnchorOpen <= t then
      match HrefEnd(t, |AnchorOpen|)
      case Some(k) => Some(Hit(k + 2, AnchorOpen + t[|AnchorOpen|..k] + "\" class=\"uri\">"))
      case None => None
    else None
  }

  /** Every anchor opening gets the `uri` class after its address. */
  function MarkUriAnchors(s: string): string {
    ReSub(s, AnchorAt)
  }
}

=== FILE: reconciler.dfy ===
/** The comparison stage of check.py: the per-entry patches applied to
    BibTeX output (ignore_unfixable), the first-difference marker
    (format_diff), the contrast of a primary id-to-text mapping with the
    others (contrast_refs) and the extra missing-id bookkeeping of the
    `sync` command. */
module Reconciler {
  import opened Wrappers
  import opened Text
  import opened Patterns

  // ---------------------------------------------------------------------
  // ignore_unfixable (check.py:352-388)

  const OnlineKeys := ["devlin.etal2021ipp", "steward.etal2020eys", "liontou.etal2019dra",
                       "cogley2020ccs", "clark2004euk", "gb.hc2024rpc"]
  const EmphYearKeys := ["gb.wa1735", "gb.pa2014", "gb.hmr2012"]

  const ActivationKeys := ["crawford1965oim"]
  const HopeKeys := ["deneulin.dinerstein2010hms"]
  const TigerKeys := ["tkmmm2020ts"]

  const OnlineTag := " \\textup{[Online]}}"
  const OnlineFix := "} [Online]"

  /** The patch a listed entry receives; an unlisted entry is left alone. */
  function Patch(key: string, text: string): string {
    if key == "crawford1965oim" then
      Replace(text, "Activation analysis: Proceedings", "Activation analysis: proceedings")
    else if key == "deneulin.dinerstein2010hms" then
      Replace(text, "Hope movements: Social", "Hope movements: social")
    else if key == "tkmmm2020ts" then
      Replace(text, "Tiger king: Murder", "Tiger king: murder")
    else if key in OnlineKeys then
      Replace(text, OnlineTag, OnlineFix)
    else if key in EmphYearKeys then
      SplitEmphYear(text)
    else text
  }

  /** The entries ignore_unfixable knows about. */
  predicate Listed(key: string) {
    key in ActivationKeys || key in HopeKeys || key in TigerKeys || key in OnlineKeys || key in EmphYearKeys
  }

  predicate Distinct(keys: seq<string>) {
    forall i, j :: 0 <= i < j < |keys| ==> keys[i] != keys[j]
  }

  /** One of the loops of ignore_unfixable: every listed key present in the
      mapping has its text patched once. */
  method PatchEach(outputs: map<string, string>, keys: seq<string>) returns (r: map<string, string>)
    requires Distinct(keys)
    ensures r.Keys == outputs.Keys
    ensures forall k :: k in r ==> r[k] == if k in keys then Patch(k, outputs[k]) else outputs[k]
  {
    r := outputs;
    for i := 0 to |keys|
      invariant r.Keys == outputs.Keys
      invariant forall k :: k in r ==> r[k] == if k in keys[..i] then Patch(k, outputs[k]) else outputs[k]
    {
      var key := keys[i];
      assert forall k :: k in keys[..i + 1] <==> k in keys[..i] || k == key;
      assert key !in keys[..i];
      if key in r {
        r := r[key := Patch(key, r[key])];
      }
    }
    assert keys[..|keys|] == keys;
  }

  /** No key is in two of the lists, and none is listed twice. */
  lemma ListsDisjoint(k: string)
    ensures k in ActivationKeys ==> k !in HopeKeys && k !in TigerKeys && k !in OnlineKeys && k !in EmphYearKeys
    ensures k in HopeKeys ==> k !in TigerKeys && k !in OnlineKeys && k !in EmphYearKeys
    ensures k in TigerKeys ==> k !in OnlineKeys && k !in EmphYearKeys
    ensures k in OnlineKeys ==> k !in EmphYearKeys
    ensures Distinct(OnlineKeys) && Distinct(EmphYearKeys)
  {
  }

  /** ignore_unfixable: the mapping keeps its keys, and each text receives
      the patch its key is listed for; unlisted entries are unchanged. */
  method IgnoreUnfixable(outputs: map<string, string>) returns (r: map<string, string>)
    ensures r.Keys == outputs.Keys
    ensures forall k :: k in r ==> r[k] == Patch(k, outputs[k])
    ensures forall k :: k in r && !Listed(k) ==> r[k] == outputs[k]
  {
    ListsDisjoint("");
    var r1 := PatchEach(outputs, ActivationKeys);
    var r2 := PatchEach(r1, HopeKeys);
    var r3 := PatchEach(r2, TigerKeys);
    var r4 := PatchEach(r3, OnlineKeys);
    r := PatchEach(r4, EmphYearKeys);
    forall k | k in r ensures r[k] == Patch(k, outputs[k]) {
      ListsDisjoint(k);
      UnlistedUnpatched(k, outputs[k]);
    }
  }

  /** Step fact, used by IgnoreUnfixable: an entry in none of the lists keeps its
      text. */
  lemma UnlistedUnpatched(key: string, text: string)
    ensures !Listed(key) ==> Patch(key, text) == text
  {
  }

  lemma PatchOnline(key: string, text: string)
    requires key in OnlineKeys
    ensures Patch(key, text) == Replace(text, OnlineTag, OnlineFix)
  {
    ListsDisjoint(key);
  }

  lemma PatchEmphYear(key: string, text: string)
    requires key in EmphYearKeys
    ensures Patch(key, text) == SplitEmphYear(text)
  {
    ListsDisjoint(key);
  }

  /** The tag cannot begin inside a text free of backslashes, since its
      second character is one. */
  lemma OnlineNotBefore(x: string, v: string)
    requires '\\' !in x && |v| > 0 && v[0] == ' '
    ensures forall i :: 0 <= i < |x| ==> !(OnlineTag <= (x + v)[i..])
  {
    forall i | 0 <= i < |x| ensures !(OnlineTag <= (x + v)[i..]) {
      var t := (x + v)[i..];
      if |t| >= 2 {
        if i + 1 < |x| {
          assert t[1] == x[i + 1];
        } else {
          assert t[1] == v[0];
        }
      }
    }
  }

  /** The one tag after a title free of backslashes is what str.replace
      rewrites. */
  lemma OnlineReplaced(x: string, y: string)
    requires '\\' !in x && !Contains(y, OnlineTag)
    ensures Replace(x + OnlineTag + y, OnlineTag, OnlineFix) == x + OnlineFix + y
  {
    var v := OnlineTag + y;
    assert x + OnlineTag + y == x + v;
    OnlineNotBefore(x, v);
    ReplaceSkipsUnmatched(x, v, OnlineTag, OnlineFix);
    ReplaceOnce(OnlineTag, y, OnlineFix);
    assert x + (OnlineFix + y) == x + OnlineFix + y;
  }

  /** Listed entries whose tag follows a title free of backslashes lose the
      upright `[Online]` tag inside the title group. */
  lemma OnlinePatched(key: string, x: string, y: string)
    requires key in OnlineKeys
    requires '\\' !in x && !Contains(y, OnlineTag)
    ensures Patch(key, x + OnlineTag + y) == x + OnlineFix + y
  {
    PatchOnline(key, x + OnlineTag + y);
    OnlineReplaced(x, y);
  }

  /** Listed entries whose emphasised title ends in a year get the year as
      its own emphasised group. */
  lemma EmphYearPatched(key: string, title: string, year: string)
    requires key in EmphYearKeys
    requires '}' !in title && '\n' !in title && FourDigits(year)
    ensures Patch(key, EmphOpen + title + " " + year + "}") == EmphOpen + title + "} " + EmphOpen + year + "}"
  {
    PatchEmphYear(key, EmphOpen + title + " " + year + "}");
    SplitEmphYearTitle(title, year);
  }

  // ---------------------------------------------------------------------
  // format_diff (check.py:391-400)

  /** The length of the longest common prefix: the first index at which the
      two strings differ or one of them runs out. */
  function Agree(p: string, s: string): (n: nat)
    ensures n <= |p| && n <= |s| && p[..n] == s[..n]
    ensures n < |p| && n < |s| ==> p[n] != s[n]
    decreases |p|
  {
    if |p| == 0 || |s| == 0 || p[0] != s[0] then 0
    else
      var m := Agree(p[1..], s[1..]);
      assert p[..m + 1] == [p[0]] + p[1..][..m];
      assert s[..m + 1] == [s[0]] + s[1..][..m];
      m + 1
  }

  /** Any index up to which both strings agree and after which they differ
      (or one ends) is the common prefix length. */
  lemma AgreeAt(p: string, s: string, i: nat)
    requires i <= |p| && i <= |s| && p[..i] == s[..i]
    requires i == |p| || i == |s| || p[i] != s[i]
    ensures Agree(p, s) == i
  {
    var n := Agree(p, s);
    assert forall j :: 0 <= j < i ==> p[j] == p[..i][j] && s[j] == s[..i][j];
    assert forall j :: 0 <= j < n ==> p[j] == p[..n][j] && s[j] == s[..n][j];
  }

  /** The primary string is a prefix of the secondary exactly when they
      agree along all of it. */
  lemma AgreePrefix(p: string, s: string)
    ensures Agree(p, s) == |p| <==> p <= s
  {
    assert p[..|p|] == p;
    if p <= s {
      assert s[..|p|] == p;
      AgreeAt(p, s, |p|);
    }
  }

  function Repeat(c: char, n: nat): (r: string)
    ensures |r| == n && forall i :: 0 <= i < n ==> r[i] == c
  {
    seq(n, _ => c)
  }

  /** Python's s[lo:hi] for 0 <= lo <= hi: clipped at the end of s. */
  function Slice(s: string, lo: nat, hi: nat): (r: string)
    requires lo <= hi
    ensures lo < |s| && hi == lo + 1 ==> r == [s[lo]]
    ensures lo >= |s| ==> r == ""
  {
    if lo >= |s| then "" else if hi >= |s| then s[lo..] else s[lo..hi]
  }

  /** The marker format_diff prints under a differing line: the label's
      width plus two in spaces, a dash per agreeing character, and a caret
      unless the whole primary string agrees. */
  function DiffMarker(name: string, primary: string, secondary: string): string {
    var n := Agree(primary, secondary);
    Repeat(' ', |name| + 2) + Repeat('-', n) + (if n < |primary| then "^" else "")
  }

  /** format_diff (check.py:391-400). */
  method FormatDiff(name: string, primary: string, secondary: string) returns (diff: string)
    ensures diff == DiffMarker(name, primary, secondary)
  {
    diff := Repeat(' ', |name| + 2);
    var i := 0;
    while i < |primary|
      invariant i <= |primary| && i <= |secondary| && primary[..i] == secondary[..i]
      invariant diff == Repeat(' ', |name| + 2) + Repeat('-', i)
    {
      if [primary[i]] != Slice(secondary, i, i + 1) {
        AgreeAt(primary, secondary, i);
        diff := diff + "^";
        return;
      }
      assert primary[..i + 1] == primary[..i] + [primary[i]];
      assert secondary[..i + 1] == secondary[..i] + [secondary[i]];
      assert Repeat('-', i) + "-" == Repeat('-', i + 1);
      diff := diff + "-";
      i := i + 1;
    }
    AgreeAt(primary, secondary, i);
  }

  /** The marker has a caret exactly when the primary string is not a prefix
      of the secondary one; the caret is its last character and sits under
      the first position where the two differ, or where the secondary one
      ends. */
  lemma DiffMarkerCaret(name: string, primary: string, secondary: string)
    ensures var r := DiffMarker(name, primary, secondary);
            ('^' in r <==> !(primary <= secondary))
    ensures var r := DiffMarker(name, primary, secondary);
            var n := |r| - |name| - 3;
            !(primary <= secondary) ==>
              && r[|r| - 1] == '^' && 0 <= n < |primary| && primary[..n] == secondary[..n]
              && (n == |secondary| || (n < |secondary| && primary[n] != secondary[n]))
  {
    AgreePrefix(primary, secondary);
    var n := Agree(primary, secondary);
    var r := DiffMarker(name, primary, secondary);
    var body := Repeat(' ', |name| + 2) + Repeat('-', n);
    assert '^' !in body by {
      forall i | 0 <= i < |body| ensures body[i] != '^' {
        if i < |name| + 2 {
          assert body[i] == ' ';
        } else {
          assert body[i] == Repeat('-', n)[i - |name| - 2];
        }
      }
    }
  }

  // ---------------------------------------------------------------------
  // contrast_refs (check.py:403-449)

  /** One keyword argument of contrast_refs: its label and its mapping. */
  datatype Source = Source(name: string, refs: map<string, string>)

  /** The key, the primary text and the error lines that contrast_refs
      prints for a key with discrepancies. The "Not present in ..." line it
      prints after them names the labels popped from `missing` for that key,
      which are Lacking(key, others) at that point (KeyStep drops the key
      from `missing` in the same step); that line is not kept here. */
  datatype Report = Report(key: string, target: string, errors: seq<string>)

  /** The returned id-to-missing-labels mapping and the reports printed. */
  datatype Contrast = Contrast(missing: map<string, set<string>>, reports: seq<Report>)

  /** The dictionary keys listed once each, in iteration order. */
  ghost predicate ListsKeys(order: seq<string>, m: map<string, string>) {
    (forall k :: k in order <==> k in m) && Distinct(order)
  }

  /** A defaultdict(set) lookup. */
  function Get(m: map<string, set<string>>, k: string): set<string> {
    if k in m then m[k] else {}
  }

  /** `missing[key].add(..)` for each label in `labels`. */
  function Marked(m: map<string, set<string>>, key: string, labels: set<string>): map<string, set<string>> {
    if labels == {} then m else m[key := Get(m, key) + labels]
  }

  /** The labels of the sources that lack the key. */
  function Lacking(key: string, others: seq<Source>): set<string>
    decreases |others|
  {
    if |others| == 0 then {}
    else
      var o := others[|others| - 1];
      Lacking(key, others[..|others| - 1]) + (if key !in o.refs then {o.name} else {})
  }

  /** The error lines one source contributes: its text differs from the
      target even after the date-suffix letter is dropped. */
  function SourceErrors(key: string, target: string, o: Source): seq<string> {
    if key in o.refs && o.refs[key] != target && DropYearLetter(o.refs[key]) != target then
      var dededupl := DropYearLetter(o.refs[key]);
      [o.name + ": " + dededupl, DiffMarker(o.name, target, dededupl)]
    else []
  }

  function ErrorLines(key: string, target: string, others: seq<Source>): seq<string>
    decreases |others|
  {
    if |others| == 0 then []
    else ErrorLines(key, target, others[..|others| - 1]) + SourceErrors(key, target, others[|others| - 1])
  }

  /** One key of the primary mapping (check.py:419-442). */
  function KeyStep(c: Contrast, key: string, target: string, others: seq<Source>): Contrast {
    var m := Marked(c.missing, key, Lacking(key, others));
    var errors := ErrorLines(key, target, others);
    if errors == [] then Contrast(m, c.reports)
    else Contrast(m - {key}, c.reports + [Report(key, target, errors)])
  }

  function ContrastRun(c: Contrast, primary: map<string, string>, keys: seq<string>, others: seq<Source>): Contrast
    requires forall k :: k in keys ==> k in primary
    decreases |keys|
  {
    if |keys| == 0 then c
    else ContrastRun(KeyStep(c, keys[0], primary[keys[0]], others), primary, keys[1..], others)
  }

  /** What contrast_refs returns and prints, or the exception it raises. */
  function Contrasted(sources: seq<Source>, order: seq<string>): Result<Contrast, string>
    requires |sources| > 0 ==> forall k :: k in order ==> k in sources[0].refs
  {
    if |sources| == 0 then Failure("No contrast to make.")
    else Success(ContrastRun(Contrast(map[], []), sources[0].refs, order, sources[1..]))
  }

  lemma LackingSnoc(key: string, others: seq<Source>, j: nat)
    requires j < |others|
    ensures Lacking(key, others[..j + 1])
         == Lacking(key, others[..j]) + (if key !in others[j].refs then {others[j].name} else {})
  {
    assert others[..j + 1][..j] == others[..j];
  }

  lemma ErrorLinesSnoc(key: string, target: string, others: seq<Source>, j: nat)
    requires j < |others|
    ensures ErrorLines(key, target, others[..j + 1])
         == ErrorLines(key, target, others[..j]) + SourceErrors(key, target, others[j])
  {
    assert others[..j + 1][..j] == others[..j];
  }

  lemma MarkedAdd(m: map<string, set<string>>, key: string, labels: set<string>, name: string)
    ensures var n := Marked(m, key, labels);
            n[key := Get(n, key) + {name}] == Marked(m, key, labels + {name})
  {
    var n := Marked(m, key, labels);
    assert Get(n, key) == Get(m, key) + labels;
    assert Get(m, key) + labels + {name} == Get(m, key) + (labels + {name});
  }

  /** The inner loop of contrast_refs (check.py:421-430): the labels lacking
      the key are added to `missing`, and the error lines are collected. */
  method CompareKey(key: string, target: string, others: seq<Source>, missing: map<string, set<string>>)
    returns (marked: map<string, set<string>>, errors: seq<string>)
    ensures marked == Marked(missing, key, Lacking(key, others))
    ensures errors == ErrorLines(key, target, others)
  {
    marked := missing;
    errors := [];
    for j := 0 to |others|
      invariant errors == ErrorLines(key, target, others[..j])
      invariant marked == Marked(missing, key, Lacking(key, others[..j]))
    {
      var o := others[j];
      LackingSnoc(key, others, j);
      ErrorLinesSnoc(key, target, others, j);
      var lacking := Lacking(key, others[..j]);
      if key !in o.refs {
        MarkedAdd(missing, key, lacking, o.name);
        marked := marked[key := Get(marked, key) + {o.name}];
        assert errors + SourceErrors(key, target, o) == errors;
      } else {
        assert lacking + {} == lacking;
        if o.refs[key] != target {
          var dededupl := DropYearLetter(o.refs[key]);
          if dededupl != target {
            var marker := FormatDiff(o.name, target, dededupl);
            errors := errors + [o.name + ": " + dededupl, marker];
          } else {
            assert errors + SourceErrors(key, target, o) == errors;
          }
        } else {
          assert errors + SourceErrors(key, target, o) == errors;
        }
      }
    }
    assert others[..|others|] == others;
  }

  lemma ContrastRunCons(c: Contrast, primary: map<string, string>, keys: seq<string>, i: nat, others: seq<Source>)
    requires i < |keys| && forall k :: k in keys ==> k in primary
    ensures ContrastRun(c, primary, keys[i..], others)
         == ContrastRun(KeyStep(c, keys[i], primary[keys[i]], others), primary, keys[i + 1..], others)
  {
    assert keys[i..][0] == keys[i] && keys[i..][1..] == keys[i + 1..];
  }

  /** contrast_refs over its keyword arguments, in order; `order` is the
      iteration order of the first mapping. */
  method ContrastRefs(sources: seq<Source>, order: seq<string>) returns (r: Result<Contrast, string>)
    requires |sources| > 0 ==> ListsKeys(order, sources[0].refs)
    ensures r == Contrasted(sources, order)
  {
    if |sources| == 0 {
      return Failure("No contrast to make.");
    }
    var primary := sources[0].refs;
    var others := sources[1..];
    var missing: map<string, set<string>> := map[];
    var reports: seq<Report> := [];
    for i := 0 to |order|
      invariant ContrastRun(Contrast(missing, reports), primary, order[i..], others)
             == ContrastRun(Contrast(map[], []), primary, order, others)
    {
      var key := order[i];
      var target := primary[key];
      ContrastRunCons(Contrast(missing, reports), primary, order, i, others);
      var errors;
      missing, errors := CompareKey(key, target, others, missing);
      if errors != [] {
        reports := reports + [Report(key, target, errors)];
        missing := missing - {key};
      }
    }
    assert order[|order|..] == [];
    r := Success(Contrast(missing, reports));
  }

  // ---------------------------------------------------------------------
  // What contrast_refs promises.

  /** A label is lacking exactly when a source with that label does not
      have the key. */
  lemma {:induction false} LackingIff(key: string, others: seq<Source>, name: string)
    ensures name in Lacking(key, others)
        <==> exists j :: 0 <= j < |others| && others[j].name == name && key !in others[j].refs
    decreases |others|
  {
    if |others| > 0 {
      var n := |others| - 1;
      var init := others[..n];
      LackingIff(key, init, name);
      assert forall j :: 0 <= j < n ==> init[j] == others[j];
    }
  }

  /** A source's text is tolerated when it is absent, equal to the target,
      or equal to it once the date-suffix letter is dropped. */
  predicate Tolerated(key: string, target: string, o: Source) {
    key !in o.refs || o.refs[key] == target || DropYearLetter(o.refs[key]) == target
  }

  /** A key has error lines exactly when some source's text is not
      tolerated. */
  lemma {:induction false} ErrorLinesEmpty(key: string, target: string, others: seq<Source>)
    ensures ErrorLines(key, target, others) == []
        <==> forall j :: 0 <= j < |others| ==> Tolerated(key, target, others[j])
    decreases |others|
  {
    if |others| > 0 {
      var n := |others| - 1;
      var init := others[..n];
      ErrorLinesEmpty(key, target, init);
      assert forall j :: 0 <= j < n ==> init[j] == others[j];
      assert SourceErrors(key, target, others[n]) == [] <==> Tolerated(key, target, others[n]);
    }
  }

  lemma DistinctTail(keys: seq<string>)
    requires |keys| > 0 && Distinct(keys)
    ensures Distinct(keys[1..]) && keys[0] !in keys[1..]
  {
    forall i, j | 0 <= i < j < |keys[1..]| ensures keys[1..][i] != keys[1..][j] {
      assert keys[1..][i] == keys[i + 1] && keys[1..][j] == keys[j + 1];
    }
    forall i | 0 <= i < |keys[1..]| ensures keys[1..][i] != keys[0] {
      assert keys[1..][i] == keys[i + 1];
    }
  }

  /** The missing-labels entry a key of the primary mapping ends with. */
  lemma KeyStepMissing(c: Contrast, key: string, target: string, others: seq<Source>, k: string)
    requires key !in c.missing
    ensures var m := KeyStep(c, key, target, others).missing;
            && (k == key ==> (k in m <==> Lacking(k, others) != {} && ErrorLines(k, target, others) == []))
            && (k == key && k in m ==> m[k] == Lacking(k, others))
            && (k != key ==> (k in m <==> k in c.missing) && (k in m ==> m[k] == c.missing[k]))
  {
  }

  lemma {:induction false} RunMissing(c: Contrast, primary: map<string, string>, keys: seq<string>,
                                      others: seq<Source>, k: string)
    requires forall x :: x in keys ==> x in primary && x !in c.missing
    requires Distinct(keys)
    ensures var m := ContrastRun(c, primary, keys, others).missing;
            && (k in keys ==> (k in m <==> Lacking(k, others) != {} && ErrorLines(k, primary[k], others) == []))
            && (k in keys && k in m ==> m[k] == Lacking(k, others))
            && (k !in keys ==> (k in m <==> k in c.missing) && (k in m ==> m[k] == c.missing[k]))
    decreases |keys|
  {
    if |keys| > 0 {
      var c1 := KeyStep(c, keys[0], primary[keys[0]], others);
      DistinctTail(keys);
      forall x | x in keys[1..] ensures x in primary && x !in c1.missing {
        KeyStepMissing(c, keys[0], primary[keys[0]], others, x);
      }
      RunMissing(c1, primary, keys[1..], others, k);
      KeyStepMissing(c, keys[0], primary[keys[0]], others, k);
      assert k in keys <==> k == keys[0] || k in keys[1..];
    }
  }

  /** contrast_refs returns a key exactly when it belongs to the primary
      mapping, some source lacks it and no source disagrees with its text;
      its entry is then the set of labels that lack it. */
  lemma ContrastMissing(sources: seq<Source>, order: seq<string>, k: string)
    requires |sources| > 0 && ListsKeys(order, sources[0].refs)
    ensures var c := Contrasted(sources, order).value;
            var others := sources[1..];
            && (k in c.missing
                <==> k in sources[0].refs && Lacking(k, others) != {}
                     && ErrorLines(k, sources[0].refs[k], others) == [])
            && (k in c.missing ==> c.missing[k] == Lacking(k, others))
  {
    RunMissing(Contrast(map[], []), sources[0].refs, order, sources[1..], k);
  }

  /** A report describes a key of the primary mapping, its text and its
      (non-empty) error lines. */
  predicate Describes(rep: Report, primary: map<string, string>, others: seq<Source>) {
    && rep.key in primary && rep.target == primary[rep.key]
    && rep.errors == ErrorLines(rep.key, rep.target, others) && rep.errors != []
  }

  predicate Reported(reports: seq<Report>, k: string) {
    exists j :: 0 <= j < |reports| && reports[j].key == k
  }

  lemma KeyStepReports(c: Contrast, key: string, target: string, others: seq<Source>)
    ensures var errors := ErrorLines(key, target, others);
            KeyStep(c, key, target, others).reports
              == c.reports + (if errors == [] then [] else [Report(key, target, errors)])
  {
  }

  lemma PrefixTrans(a: seq<Report>, b: seq<Report>, r: seq<Report>)
    requires a <= b && b <= r
    ensures a <= r
  {
    assert r[..|a|] == r[..|b|][..|a|];
  }

  lemma {:induction false} RunReports(c: Contrast, primary: map<string, string>, keys: seq<string>, others: seq<Source>)
    requires forall x :: x in keys ==> x in primary
    ensures var r := ContrastRun(c, primary, keys, others).reports;
            && c.reports <= r
            && (forall j :: |c.reports| <= j < |r| ==> Describes(r[j], primary, others))
            && (forall k :: k in keys && ErrorLines(k, primary[k], others) != [] ==> Reported(r, k))
    decreases |keys|
  {
    if |keys| > 0 {
      var key := keys[0];
      var errors := ErrorLines(key, primary[key], others);
      var c1 := KeyStep(c, key, primary[key], others);
      KeyStepReports(c, key, primary[key], others);
      RunReports(c1, primary, keys[1..], others);
      var r := ContrastRun(c1, primary, keys[1..], others).reports;
      assert ContrastRun(c, primary, keys, others).reports == r;
      assert c.reports <= c1.reports;
      PrefixTrans(c.reports, c1.reports, r);
      if errors != [] {
        assert r[|c.reports|] == c1.reports[|c.reports|];
        assert Reported(r, key);
      }
      forall k | k in keys && ErrorLines(k, primary[k], others) != [] ensures Reported(r, k) {
        if k != key {
          assert k in keys[1..];
        }
      }
    }
  }

  /** contrast_refs reports exactly the keys of the primary mapping that
      have error lines, each with its text and those lines. */
  lemma ContrastReports(sources: seq<Source>, order: seq<string>)
    requires |sources| > 0 && ListsKeys(order, sources[0].refs)
    ensures var c := Contrasted(sources, order).value;
            && (forall j :: 0 <= j < |c.reports| ==> Describes(c.reports[j], sources[0].refs, sources[1..]))
            && (forall k :: k in sources[0].refs && ErrorLines(k, sources[0].refs[k], sources[1..]) != []
                  ==> Reported(c.reports, k))
  {
    RunReports(Contrast(map[], []), sources[0].refs, order, sources[1..]);
  }

  lemma {:induction false} RunQuiet(c: Contrast, primary: map<string, string>, keys: seq<string>, others: seq<Source>)
    requires forall x :: x in keys ==> x in primary
    requires forall x :: x in keys ==> Lacking(x, others) == {} && ErrorLines(x, primary[x], others) == []
    ensures ContrastRun(c, primary, keys, others) == c
    decreases |keys|
  {
    if |keys| > 0 {
      assert KeyStep(c, keys[0], primary[keys[0]], others) == c;
      RunQuiet(c, primary, keys[1..], others);
    }
  }

  /** A mapping contrasted with copies of itself has no discrepancy and
      nothing missing. */
  lemma SelfContrast(sources: seq<Source>, order: seq<string>)
    requires |sources| > 0 && ListsKeys(order, sources[0].refs)
    requires forall j :: 0 <= j < |sources| ==> sources[j].refs == sources[0].refs
    ensures Contrasted(sources, order) == Success(Contrast(map[], []))
  {
    var primary := sources[0].refs;
    var others := sources[1..];
    forall x | x in order ensures Lacking(x, others) == {} && ErrorLines(x, primary[x], others) == [] {
      forall j | 0 <= j < |others| ensures Tolerated(x, primary[x], others[j]) && x in others[j].refs {
        assert others[j] == sources[j + 1];
      }
      ErrorLinesEmpty(x, primary[x], others);
      if name :| name in Lacking(x, others) {
        LackingIff(x, others, name);
      }
    }
    RunQuiet(Contrast(map[], []), primary, order, others);
  }

  // ---------------------------------------------------------------------
  // The missing-id loops of `sync` (check.py:550-559)

  /** One key of a loop: the labels of the two other mappings that lack it
      are added. */
  function MarkKey(m: map<string, set<string>>, key: string,
                   a: map<string, string>, aName: string, b: map<string, string>, bName: string): map<string, set<string>>
  {
    var m1 := if key !in a then Marked(m, key, {aName}) else m;
    if key !in b then Marked(m1, key, {bName}) else m1
  }

  function MarkAbsent(m: map<string, set<string>>, keys: seq<string>,
                      a: map<string, string>, aName: string, b: map<string, string>, bName: string): map<string, set<string>>
    decreases |keys|
  {
    if |keys| == 0 then m else MarkAbsent(MarkKey(m, keys[0], a, aName, b, bName), keys[1..], a, aName, b, bName)
  }

  /** The three target mappings `sync` contrasts, Biblatex first. */
  function SyncSources(biblatex: map<string, string>, bibtex: map<string, string>, csl: map<string, string>): seq<Source> {
    [Source("Biblatex", biblatex), Source("BibTeX", bibtex), Source("CSL", csl)]
  }

  /** The missing-id mapping `sync` prints. */
  function Synced(biblatex: map<string, string>, biblatexOrder: seq<string>,
                  bibtex: map<string, string>, bibtexOrder: seq<string>,
                  csl: map<string, string>, cslOrder: seq<string>): map<string, set<string>>
    requires forall k :: k in biblatexOrder ==> k in biblatex
  {
    var contrast := Contrasted(SyncSources(biblatex, bibtex, csl), biblatexOrder).value;
    var m := MarkAbsent(contrast.missing, bibtexOrder, biblatex, "Biblatex", csl, "CSL");
    MarkAbsent(m, cslOrder, biblatex, "Biblatex", bibtex, "BibTeX")
  }

  lemma MarkAbsentCons(m: map<string, set<string>>, keys: seq<string>, i: nat,
                       a: map<string, string>, aName: string, b: map<string, string>, bName: string)
    requires i < |keys|
    ensures MarkAbsent(m, keys[i..], a, aName, b, bName)
         == MarkAbsent(MarkKey(m, keys[i], a, aName, b, bName), keys[i + 1..], a, aName, b, bName)
  {
    assert keys[i..][0] == keys[i] && keys[i..][1..] == keys[i + 1..];
  }

  /** The set logic of `sync` (check.py:543-559): contrast the three
      mappings, then record the labels lacking each key of the second and
      third. */
  method Sync(biblatex: map<string, string>, biblatexOrder: seq<string>,
              bibtex: map<string, string>, bibtexOrder: seq<string>,
              csl: map<string, string>, cslOrder: seq<string>) returns (missing: map<string, set<string>>)
    requires ListsKeys(biblatexOrder, biblatex)
    ensures missing == Synced(biblatex, biblatexOrder, bibtex, bibtexOrder, csl, cslOrder)
  {
    var r := ContrastRefs(SyncSources(biblatex, bibtex, csl), biblatexOrder);
    missing := r.value.missing;
    ghost var m0 := missing;
    for i := 0 to |bibtexOrder|
      invariant MarkAbsent(missing, bibtexOrder[i..], biblatex, "Biblatex", csl, "CSL")
             == MarkAbsent(m0, bibtexOrder, biblatex, "Biblatex", csl, "CSL")
    {
      var key := bibtexOrder[i];
      MarkAbsentCons(missing, bibtexOrder, i, biblatex, "Biblatex", csl, "CSL");
      if key !in biblatex {
        missing := missing[key := Get(missing, key) + {"Biblatex"}];
      }
      if key !in csl {
        missing := missing[key := Get(missing, key) + {"CSL"}];
      }
    }
    assert bibtexOrder[|bibtexOrder|..] == [];
    ghost var m1 := missing;
    for i := 0 to |cslOrder|
      invariant MarkAbsent(missing, cslOrder[i..], biblatex, "Biblatex", bibtex, "BibTeX")
             == MarkAbsent(m1, cslOrder, biblatex, "Biblatex", bibtex, "BibTeX")
    {
      var key := cslOrder[i];
      MarkAbsentCons(missing, cslOrder, i, biblatex, "Biblatex", bibtex, "BibTeX");
      if key !in biblatex {
        missing := missing[key := Get(missing, key) + {"Biblatex"}];
      }
      if key !in bibtex {
        missing := missing[key := Get(missing, key) + {"BibTeX"}];
      }
    }
    assert cslOrder[|cslOrder|..] == [];
  }

  /** What one loop adds for a key: the labels lacking it, when the loop
      visits it. */
  lemma {:induction false} MarkAbsentIs(m: map<string, set<string>>, keys: seq<string>,
                                        a: map<string, string>, aName: string, b: map<string, string>, bName: string, k: string)
    ensures var r := MarkAbsent(m, keys, a, aName, b, bName);
            && (k in r <==> k in m || (k in keys && (k !in a || k !in b)))
            && Get(r, k) == Get(m, k) + (if k in keys && k !in a then {aName} else {})
                                      + (if k in keys && k !in b then {bName} else {})
    decreases |keys|
  {
    if |keys| > 0 {
      var m1 := MarkKey(m, keys[0], a, aName, b, bName);
      MarkAbsentIs(m1, keys[1..], a, aName, b, bName, k);
      assert k in keys <==> k == keys[0] || k in keys[1..];
    }
  }

  /** The labels of the sync mappings that lack a key. */
  function Absent(k: string, biblatex: map<string, string>, bibtex: map<string, string>, csl: map<string, string>): set<string> {
    AbsentOf(k in biblatex, k in bibtex, k in csl)
  }

  function AbsentOf(bl: bool, bt: bool, cs: bool): set<string> {
    (if !bl then {"Biblatex"} else {}) + (if !bt then {"BibTeX"} else {}) + (if !cs then {"CSL"} else {})
  }

  /** The set arithmetic behind SyncExact, for one key: `g0` is its entry
      after the contrast, the flags say which mappings hold it. */
  lemma SyncCombine(g0: set<string>, present: bool, bl: bool, bt: bool, cs: bool)
    requires present ==> bl && g0 == AbsentOf(bl, bt, cs)
    requires !present ==> g0 == {}
    requires bl && !bt && !cs ==> present
    requires bt && cs ==> !present
    ensures var g1 := g0 + (if bt && !bl then {"Biblatex"} else {}) + (if bt && !cs then {"CSL"} else {});
            var g2 := g1 + (if cs && !bl then {"Biblatex"} else {}) + (if cs && !bt then {"BibTeX"} else {});
            && (present || (bt && (!bl || !cs)) || (cs && (!bl || !bt)) <==> (bl || bt || cs) && !(bl && bt && cs))
            && ((bl || bt || cs) && !(bl && bt && cs) ==> g2 == AbsentOf(bl, bt, cs))
  {
    assert "Biblatex"[3] != "BibTeX"[3] && "Biblatex"[0] != "CSL"[0] && "BibTeX"[0] != "CSL"[0];
    if bl {
      if bt { if cs { } else { } } else { if cs { } else { } }
    } else {
      if bt { if cs { } else { } } else { if cs { } else { } }
    }
  }

  lemma LackingTwo(k: string, x: Source, y: Source)
    ensures Lacking(k, [x, y]) == (if k !in x.refs then {x.name} else {}) + (if k !in y.refs then {y.name} else {})
  {
    var sx: set<string> := if k !in x.refs then {x.name} else {};
    assert [x, y][..1] == [x];
    assert [x][..0] == [];
    assert Lacking(k, [x]) == {} + sx == sx;
  }

  /** What the contrast of the three mappings leaves in `missing`: keys of
      the first only, with the labels lacking them; a key the other two both
      lack is always there. */
  lemma SyncContrast(biblatex: map<string, string>, biblatexOrder: seq<string>,
                     bibtex: map<string, string>, csl: map<string, string>, k: string)
    requires ListsKeys(biblatexOrder, biblatex)
    ensures var m0 := Contrasted(SyncSources(biblatex, bibtex, csl), biblatexOrder).value.missing;
            && (k in m0 ==> k in biblatex && m0[k] == Absent(k, biblatex, bibtex, csl))
            && (k in biblatex && k !in bibtex && k !in csl ==> k in m0)
            && (k in bibtex && k in csl ==> k !in m0)
  {
    var sources := SyncSources(biblatex, bibtex, csl);
    var others := sources[1..];
    assert others == [Source("BibTeX", bibtex), Source("CSL", csl)];
    ContrastMissing(sources, biblatexOrder, k);
    LackingTwo(k, others[0], others[1]);
    if k in biblatex {
      ErrorLinesEmpty(k, biblatex[k], others);
      if k !in bibtex && k !in csl {
        assert Tolerated(k, biblatex[k], others[0]) && Tolerated(k, biblatex[k], others[1]);
      }
    }
  }

  /** Whatever the contrast found, `sync` ends up listing exactly the keys
      found in some but not all of the three mappings, each with the labels
      of the mappings that lack it. */
  lemma SyncExact(biblatex: map<string, string>, biblatexOrder: seq<string>,
                  bibtex: map<string, string>, bibtexOrder: seq<string>,
                  csl: map<string, string>, cslOrder: seq<string>, k: string)
    requires ListsKeys(biblatexOrder, biblatex)
    requires forall x :: x in bibtexOrder <==> x in bibtex
    requires forall x :: x in cslOrder <==> x in csl
    ensures var r := Synced(biblatex, biblatexOrder, bibtex, bibtexOrder, csl, cslOrder);
            && (k in r <==> (k in biblatex || k in bibtex || k in csl) && !(k in biblatex && k in bibtex && k in csl))
            && (k in r ==> r[k] == Absent(k, biblatex, bibtex, csl))
  {
    var m0 := Contrasted(SyncSources(biblatex, bibtex, csl), biblatexOrder).value.missing;
    var m1 := MarkAbsent(m0, bibtexOrder, biblatex, "Biblatex", csl, "CSL");
    var r := MarkAbsent(m1, cslOrder, biblatex, "Biblatex", bibtex, "BibTeX");
    assert Synced(biblatex, biblatexOrder, bibtex, bibtexOrder, csl, cslOrder) == r;
    SyncContrast(biblatex, biblatexOrder, bibtex, csl, k);
    MarkAbsentIs(m0, bibtexOrder, biblatex, "Biblatex", csl, "CSL", k);
    MarkAbsentIs(m1, cslOrder, biblatex, "Biblatex", bibtex, "BibTeX", k);
    SyncCombine(Get(m0, k), k in m0, k in biblatex, k in bibtex, k in csl);
  }
}

=== FILE: record_facts.dfy ===
/** Whole records through parse_bibitems: a record whose body lines carry no
    markup comes out as its lines joined by single spaces. */
module RecordFacts {
  import opened Wrappers
  import opened Text
  import opened Patterns
  import opened Interpreter

  /** The body and the closing blank line of a record just opened from a
      reset interpreter: the interpreter is reset again and the record holds
      the collapsed join of the body. */
  lemma OpenedRecordCloses(p: Parser, id: string, body: seq<string>)
    requires Ready(p) && p.current.None? && p.state == [Normal] && p.level == 1 && p.exitArgs == [0] && p.exitGobbles == [0]
    requires VerbatimBody(body)
    ensures Lines(p.(current := Some(id), outputs := p.outputs[id := ""]), body + [""])
         == Success(p.(outputs := p.outputs[id := CollapseYearSuffix(Join(body, " "))]))
  {
    var q := p.(current := Some(id), outputs := p.outputs[id := ""]);
    var text := CollapseYearSuffix(Join(body, " "));
    VerbatimBodyThenBlank(q, id, body);
    ResetAfter(p, id, text);
  }

  lemma ResetAfter(p: Parser, id: string, text: string)
    requires p.current.None? && p.state == [Normal] && p.level == 1 && p.exitArgs == [0] && p.exitGobbles == [0]
    ensures Parser(p.outputs[id := ""][id := text], None, [Normal], 1, [0], [0]) == p.(outputs := p.outputs[id := text])
  {
    assert p.outputs[id := ""][id := text] == p.outputs[id := text];
  }

  /** A record whose body lines are verbatim: its text is the body joined by
      single spaces with the year-suffix letters collapsed, and the
      interpreter is reset after the blank line. */
  lemma RecordOfVerbatimLines(p: Parser, header: string, id: string, body: seq<string>)
    requires Ready(p) && p.current.None? && p.state == [Normal] && p.level == 1 && p.exitArgs == [0] && p.exitGobbles == [0]
    requires BibitemId(header) == Some(id)
    requires VerbatimBody(body)
    ensures Lines(p, [header] + (body + [""]))
         == Success(p.(outputs := p.outputs[id := CollapseYearSuffix(Join(body, " "))]))
  {
    OpenedRecordCloses(p, id, body);
    HeaderThen(p, header, id, body + [""]);
  }

  /** parse_bibitems on a single record of verbatim lines. */
  lemma ParsedSingleRecord(header: string, id: string, body: seq<string>)
    requires BibitemId(header) == Some(id)
    requires VerbatimBody(body)
    ensures Parsed(RecordLines(header, body)) == Success(map[id := CollapseYearSuffix(Join(body, " "))])
  {
    RecordOfVerbatimLines(Start, header, id, body);
  }
}

=== FILE: segmenter.dfy ===
/** The segmentation of BibTeX output into records.

    get_bibitems (check.py:81-149) turns the lines of a `.bbl` file (or of a
    `.bbi` file written by biblatex2bibitem) into a flat list with a
    recurring pattern: a complete `\bibitem` line, the record's body lines
    joined by single spaces, and an empty separator. Running `make` to
    produce the file is not part of this model: the lines are a parameter.

    bst/check-output.py:41-60 is an older joiner: after the first `\bibitem`
    line every stripped line joins an accumulation, which is emitted as soon
    as its brackets and braces balance. */
module Segmenter {
  import opened Wrappers
  import opened Text

  const ItemPrefix := "\\bibitem"

  /** The variables of the loop: still in the preamble, the lines emitted so
      far, and the stripped lines of the record being accumulated. */
  datatype Segmenting = Segmenting(preamble: bool, lines: seq<string>, current: seq<string>)

  const SegStart := Segmenting(true, [], [])

  /** Equal numbers of `[` and `]`, and of `{` and `}`. */
  predicate BracketsMatch(s: string) {
    Count(s, '[') == Count(s, ']') && Count(s, '{') == Count(s, '}')
  }

  /** finish_record (check.py:104-107): the accumulation joined by single
      spaces with `\url {` closed up, then the empty separator. */
  function FinishRecord(s: Segmenting): Segmenting {
    s.(lines := s.lines + [Replace(Join(s.current, " "), "\\url {", "\\url{"), ""], current := [])
  }

  /** Whether a stripped line ends a record (check.py:119-128): a blank line
      for BibTeX output; `{}` or `\end{thebibliography}` for biblatex output,
      where blank lines are page breaks. */
  predicate EndsRecord(biblatex: bool, clean: string) {
    if clean == "" then !biblatex else biblatex && (clean == "{}" || clean == "\\end{thebibliography}")
  }

  /** A line that neither ends a record nor is skipped. */
  predicate Content(biblatex: bool, line: string) {
    Strip(line) != "" && !EndsRecord(biblatex, Strip(line))
  }

  /** One line of get_bibitems (check.py:110-144). */
  function SegStep(biblatex: bool, s: Segmenting, line: string): Segmenting {
    if s.preamble && !(ItemPrefix <= line) then s
    else
      var s1 := s.(preamble := false);
      var clean := Strip(line);
      if clean == "" && biblatex then s1
      else if EndsRecord(biblatex, clean) then FinishRecord(s1)
      else
        var joined := Join(s1.current + [clean], " ");
        if ItemPrefix <= joined && BracketsMatch(joined) then s1.(lines := s1.lines + [joined], current := [])
        else s1.(current := s1.current + [clean])
  }

  function SegRun(biblatex: bool, s: Segmenting, lines: seq<string>): Segmenting
    decreases |lines|
  {
    if |lines| == 0 then s else SegRun(biblatex, SegStep(biblatex, s, lines[0]), lines[1..])
  }

  /** What get_bibitems returns: the loop, then the flush of a pending
      record (check.py:146-147). */
  function Segmented(biblatex: bool, lines: seq<string>): seq<string> {
    var s := SegRun(biblatex, SegStart, lines);
    if s.current != [] then FinishRecord(s).lines else s.lines
  }

  lemma {:induction false} SegRunConcat(biblatex: bool, s: Segmenting, a: seq<string>, b: seq<string>)
    ensures SegRun(biblatex, s, a + b) == SegRun(biblatex, SegRun(biblatex, s, a), b)
    decreases |a|
  {
    if |a| == 0 {
      assert a + b == b;
    } else {
      assert (a + b)[0] == a[0] && (a + b)[1..] == a[1..] + b;
      SegRunConcat(biblatex, SegStep(biblatex, s, a[0]), a[1..], b);
    }
  }

  /** Lines before the first `\bibitem` line are dropped. */
  lemma {:induction false} PreambleDropped(biblatex: bool, lines: seq<string>)
    requires forall k :: 0 <= k < |lines| ==> !(ItemPrefix <= lines[k])
    ensures SegRun(biblatex, SegStart, lines) == SegStart
    ensures Segmented(biblatex, lines) == []
    decreases |lines|
  {
    if |lines| > 0 {
      PreambleDropped(biblatex, lines[1..]);
    }
  }

  /** Step fact: once the pending accumulation is empty, a `\bibitem` line
      whose brackets and braces balance is emitted alone, stripped.
      HeaderJoined states the multi-line case. */
  lemma HeaderEmitted(biblatex: bool, s: Segmenting, line: string)
    requires !s.preamble || ItemPrefix <= line
    requires s.current == [] && Content(biblatex, line)
    requires ItemPrefix <= Strip(line) && BracketsMatch(Strip(line))
    ensures SegStep(biblatex, s, line) == Segmenting(false, s.lines + [Strip(line)], [])
  {
    assert [] + [Strip(line)] == [Strip(line)];
  }

  /** Step fact: with BibTeX output a blank line ends the record; with
      biblatex output it changes nothing once the preamble is over. */
  lemma BlankLine(biblatex: bool, s: Segmenting, line: string)
    requires !s.preamble && Strip(line) == ""
    ensures SegStep(biblatex, s, line) == if biblatex then s else FinishRecord(s)
  {
  }

  /** The stripped form of each line. */
  function Stripped(lines: seq<string>): (r: seq<string>)
    ensures |r| == |lines|
  {
    if |lines| == 0 then [] else [Strip(lines[0])] + Stripped(lines[1..])
  }

  /** A space-joined accumulation whose first part does not start with
      `\bibitem` does not either, as `\bibitem` holds no space. */
  lemma JoinKeepsHead(a: string, rest: seq<string>)
    requires a != "" && !(ItemPrefix <= a)
    ensures !(ItemPrefix <= Join([a] + rest, " "))
  {
    var j := Join([a] + rest, " ");
    if |rest| > 0 {
      assert ([a] + rest)[1..] == rest;
      assert j == a + " " + Join(rest, " ");
      if |a| >= |ItemPrefix| {
        assert j[..|ItemPrefix|] == a[..|ItemPrefix|];
      } else {
        assert j[|a|] == ' ' && ItemPrefix[|a|] != ' ';
      }
    } else {
      assert j == a;
    }
  }

  lemma StrippedCons(done: seq<string>, body: seq<string>)
    requires |body| > 0
    ensures done + [Strip(body[0])] + Stripped(body[1..]) == done + Stripped(body)
  {
    var x := Strip(body[0]);
    var t := Stripped(body[1..]);
    assert Stripped(body) == [x] + t;
    SnocThenAppend(done, x, t);
  }

  lemma SegBodyLine(biblatex: bool, s: Segmenting, line: string)
    requires !s.preamble && s.current != [] && s.current[0] != "" && !(ItemPrefix <= s.current[0])
    requires Content(biblatex, line)
    ensures SegStep(biblatex, s, line) == s.(current := s.current + [Strip(line)])
  {
    assert s.current + [Strip(line)] == [s.current[0]] + (s.current[1..] + [Strip(line)]);
    JoinKeepsHead(s.current[0], s.current[1..] + [Strip(line)]);
  }

  /** The body lines of a record accumulate, stripped, while its first line
      does not start with `\bibitem`. */
  lemma {:induction false} SegBody(biblatex: bool, s: Segmenting, body: seq<string>)
    requires !s.preamble && s.current != [] && s.current[0] != "" && !(ItemPrefix <= s.current[0])
    requires forall k :: 0 <= k < |body| ==> Content(biblatex, body[k])
    ensures SegRun(biblatex, s, body) == s.(current := s.current + Stripped(body))
    decreases |body|
  {
    if |body| == 0 {
      assert s.current + Stripped(body) == s.current;
    } else {
      SegBodyLine(biblatex, s, body[0]);
      var s' := s.(current := s.current + [Strip(body[0])]);
      SegBody(biblatex, s', body[1..]);
      StrippedCons(s.current, body);
    }
  }

  lemma SegFirstBodyLine(biblatex: bool, s: Segmenting, line: string)
    requires !s.preamble && s.current == [] && Content(biblatex, line) && !(ItemPrefix <= Strip(line))
    ensures SegStep(biblatex, s, line) == s.(current := [Strip(line)])
  {
    assert [] + [Strip(line)] == [Strip(line)];
    JoinKeepsHead(Strip(line), []);
    assert [Strip(line)] + [] == [Strip(line)];
  }

  /** After a complete `\bibitem` line, a record's body lines and the line
      that ends the record are emitted as one space-joined line, with
      `\url {` closed up, and the empty separator. */
  lemma RecordEmitted(biblatex: bool, s: Segmenting, body: seq<string>, end: string)
    requires !s.preamble && s.current == []
    requires |body| > 0 && !(ItemPrefix <= Strip(body[0]))
    requires forall k :: 0 <= k < |body| ==> Content(biblatex, body[k])
    requires EndsRecord(biblatex, Strip(end))
    ensures SegRun(biblatex, s, body + [end])
         == Segmenting(false, s.lines + [Replace(Join(Stripped(body), " "), "\\url {", "\\url{"), ""], [])
  {
    var s2 := s.(current := Stripped(body));
    BodyAccumulates(biblatex, s, body);
    SegRunConcat(biblatex, s, body, [end]);
    assert SegRun(biblatex, s2, [end]) == SegStep(biblatex, s2, end);
  }

  /** All body lines of a record accumulate, stripped. */
  lemma BodyAccumulates(biblatex: bool, s: Segmenting, body: seq<string>)
    requires !s.preamble && s.current == []
    requires |body| > 0 && !(ItemPrefix <= Strip(body[0]))
    requires forall k :: 0 <= k < |body| ==> Content(biblatex, body[k])
    ensures SegRun(biblatex, s, body) == s.(current := Stripped(body))
  {
    SegFirstBodyLine(biblatex, s, body[0]);
    var s1 := s.(current := [Strip(body[0])]);
    SegBody(biblatex, s1, body[1..]);
    StrippedCons([], body);
    assert [] + [Strip(body[0])] == [Strip(body[0])];
    assert [] + Stripped(body) == Stripped(body);
    assert SegRun(biblatex, s, [body[0]]) == s1;
    SegRunConcat(biblatex, s, [body[0]], body[1..]);
    assert [body[0]] + body[1..] == body;
  }

  /** A join starts with its first part. */
  lemma JoinStartsWithHead(parts: seq<string>, sep: string)
    requires |parts| > 0
    ensures parts[0] <= Join(parts, sep)
  {
    if |parts| > 1 {
      assert Join(parts, sep) == parts[0] + (sep + Join(parts[1..], sep));
    }
  }

  lemma {:induction false} StrippedAt(lines: seq<string>, k: nat)
    requires k < |lines|
    ensures Stripped(lines)[k] == Strip(lines[k])
    decreases k
  {
    if k > 0 {
      assert lines[1..][k - 1] == lines[k];
      StrippedAt(lines[1..], k - 1);
    }
  }

  /** The space-joined accumulation of the first j lines of a run. */
  function JoinedPrefix(run: seq<string>, j: nat): string
    requires j <= |run|
  {
    Join(Stripped(run[..j]), " ")
  }

  /** Brackets and braces balance for the whole run and for none of its
      shorter non-empty beginnings. */
  predicate BalancesAtEnd(run: seq<string>) {
    && |run| > 0
    && (forall j :: 1 <= j < |run| ==> !BracketsMatch(JoinedPrefix(run, j)))
    && BracketsMatch(JoinedPrefix(run, |run|))
  }

  /** SegStep after the preamble on a line that neither ends a record nor
      is skipped: the accumulation with the stripped line is emitted when it
      is a complete `\bibitem` line, and kept otherwise. */
  lemma ContentStep(biblatex: bool, lines: seq<string>, current: seq<string>, line: string)
    requires Content(biblatex, line)
    ensures var joined := Join(current + [Strip(line)], " ");
            SegStep(biblatex, Segmenting(false, lines, current), line)
            == if ItemPrefix <= joined && BracketsMatch(joined) then Segmenting(false, lines + [joined], [])
               else Segmenting(false, lines, current + [Strip(line)])
  {
  }

  /** The accumulation of the first j + 1 lines of a run extends that of
      the first j lines by one stripped line. */
  lemma StrippedPrefixSnoc(run: seq<string>, j: nat)
    requires j < |run|
    ensures Stripped(run[..j]) + [Strip(run[j])] == Stripped(run[..j + 1])
    ensures Stripped(run[..j + 1])[0] == Strip(run[0])
  {
    var long, short := Stripped(run[..j + 1]), Stripped(run[..j]) + [Strip(run[j])];
    forall k | 0 <= k < j + 1 ensures long[k] == short[k] {
      StrippedAt(run[..j + 1], k);
      if k < j {
        StrippedAt(run[..j], k);
      }
    }
    StrippedAt(run[..j + 1], 0);
  }

  /** The next line of a run that begins with a `\bibitem` line is held
      back while the accumulation stays unbalanced. */
  lemma HeaderGrows(biblatex: bool, lines: seq<string>, run: seq<string>, j: nat)
    requires j < |run| && Content(biblatex, run[j])
    requires !BracketsMatch(JoinedPrefix(run, j + 1))
    ensures SegStep(biblatex, Segmenting(false, lines, Stripped(run[..j])), run[j])
            == Segmenting(false, lines, Stripped(run[..j + 1]))
  {
    StrippedPrefixSnoc(run, j);
    ContentStep(biblatex, lines, Stripped(run[..j]), run[j]);
  }

  /** The accumulation of a run that begins with a `\bibitem` line is
      emitted once it balances. */
  lemma HeaderCloses(biblatex: bool, lines: seq<string>, run: seq<string>, j: nat)
    requires j < |run| && Content(biblatex, run[j]) && ItemPrefix <= Strip(run[0])
    requires BracketsMatch(JoinedPrefix(run, j + 1))
    ensures SegStep(biblatex, Segmenting(false, lines, Stripped(run[..j])), run[j])
            == Segmenting(false, lines + [JoinedPrefix(run, j + 1)], [])
  {
    StrippedPrefixSnoc(run, j);
    JoinStartsWithHead(Stripped(run[..j + 1]), " ");
    ContentStep(biblatex, lines, Stripped(run[..j]), run[j]);
  }

  /** From the accumulation of its first j lines, the rest of a run that
      begins with a `\bibitem` line and balances only at its end is emitted
      as one line. */
  lemma {:induction false} HeaderRest(biblatex: bool, lines: seq<string>, run: seq<string>, j: nat)
    requires BalancesAtEnd(run) && j < |run| && ItemPrefix <= Strip(run[0])
    requires forall k :: 0 <= k < |run| ==> Content(biblatex, run[k])
    ensures SegRun(biblatex, Segmenting(false, lines, Stripped(run[..j])), run[j..])
            == Segmenting(false, lines + [JoinedPrefix(run, |run|)], [])
    decreases |run| - j
  {
    assert run[j..][0] == run[j] && run[j..][1..] == run[j + 1..];
    if j + 1 < |run| {
      HeaderGrows(biblatex, lines, run, j);
      HeaderRest(biblatex, lines, run, j + 1);
    } else {
      HeaderCloses(biblatex, lines, run, j);
    }
  }

  /** A `\bibitem` line whose brackets or braces stay open is joined with
      the lines after it, stripped and separated by single spaces, until the
      accumulation balances; then exactly that one line is emitted and
      nothing is pending. */
  lemma HeaderJoined(biblatex: bool, s: Segmenting, run: seq<string>)
    requires s.current == [] && BalancesAtEnd(run)
    requires !s.preamble || ItemPrefix <= run[0]
    requires ItemPrefix <= Strip(run[0])
    requires forall k :: 0 <= k < |run| ==> Content(biblatex, run[k])
    ensures SegRun(biblatex, s, run) == Segmenting(false, s.lines + [Join(Stripped(run), " ")], [])
  {
    var s0 := Segmenting(false, s.lines, []);
    assert SegStep(biblatex, s, run[0]) == SegStep(biblatex, s0, run[0]);
    assert run[..0] == [] && run[0..] == run && run[..|run|] == run;
    HeaderRest(biblatex, s.lines, run, 0);
  }

  /** The final flush of Segmented, spelt out: a record still pending at the
      end of the input is flushed. */
  lemma PendingFlushed(biblatex: bool, lines: seq<string>)
    requires SegRun(biblatex, SegStart, lines).current != []
    ensures var s := SegRun(biblatex, SegStart, lines);
            Segmented(biblatex, lines)
            == s.lines + [Replace(Join(s.current, " "), "\\url {", "\\url{"), ""]
  {
  }

  /** The shape of the output: every line is an empty separator, a complete
      `\bibitem` line, or a record's text followed by a separator. */
  predicate Shaped(lines: seq<string>) {
    forall i :: 0 <= i < |lines| ==>
      || lines[i] == ""
      || (ItemPrefix <= lines[i] && BracketsMatch(lines[i]))
      || (i + 1 < |lines| && lines[i + 1] == "")
  }

  lemma ShapedAt(lines: seq<string>, i: int)
    requires Shaped(lines) && 0 <= i < |lines|
    ensures lines[i] == "" || (ItemPrefix <= lines[i] && BracketsMatch(lines[i])) || (i + 1 < |lines| && lines[i + 1] == "")
  {
  }

  lemma ShapedFinish(s: Segmenting)
    requires Shaped(s.lines)
    ensures Shaped(FinishRecord(s).lines)
  {
    var x := Replace(Join(s.current, " "), "\\url {", "\\url{");
    var out := s.lines + [x, ""];
    assert FinishRecord(s).lines == out;
    var n := |s.lines|;
    assert out[n + 1] == "";
    forall i | 0 <= i < n
      ensures || out[i] == ""
              || (ItemPrefix <= out[i] && BracketsMatch(out[i]))
              || (i + 1 < |out| && out[i + 1] == "")
    {
      ShapedAt(s.lines, i);
      assert out[i] == s.lines[i];
      if i + 1 < n {
        assert out[i + 1] == s.lines[i + 1];
      }
    }
  }

  lemma ShapedItem(lines: seq<string>, x: string)
    requires Shaped(lines) && ItemPrefix <= x && BracketsMatch(x)
    ensures Shaped(lines + [x])
  {
    var out := lines + [x];
    forall i | 0 <= i < |out|
      ensures || out[i] == ""
              || (ItemPrefix <= out[i] && BracketsMatch(out[i]))
              || (i + 1 < |out| && out[i + 1] == "")
    {
      if i < |lines| {
        ShapedAt(lines, i);
        assert out[i] == lines[i];
        if i + 1 < |lines| {
          assert out[i + 1] == lines[i + 1];
        }
      }
    }
  }

  lemma ShapedStep(biblatex: bool, s: Segmenting, line: string)
    requires Shaped(s.lines)
    ensures Shaped(SegStep(biblatex, s, line).lines)
  {
    var s1 := s.(preamble := false);
    var clean := Strip(line);
    var joined := Join(s1.current + [clean], " ");
    if s.preamble && !(ItemPrefix <= line) {
      assert SegStep(biblatex, s, line).lines == s.lines;
    } else if clean == "" && biblatex {
      assert SegStep(biblatex, s, line).lines == s.lines;
    } else if EndsRecord(biblatex, clean) {
      ShapedFinish(s1);
    } else if ItemPrefix <= joined && BracketsMatch(joined) {
      ShapedItem(s.lines, joined);
      assert SegStep(biblatex, s, line).lines == s.lines + [joined];
    } else {
      assert SegStep(biblatex, s, line).lines == s.lines;
    }
  }

  lemma {:induction false} ShapedRun(biblatex: bool, s: Segmenting, lines: seq<string>)
    requires Shaped(s.lines)
    ensures Shaped(SegRun(biblatex, s, lines).lines)
    decreases |lines|
  {
    if |lines| > 0 {
      ShapedStep(biblatex, s, lines[0]);
      ShapedRun(biblatex, SegStep(biblatex, s, lines[0]), lines[1..]);
    }
  }

  /** Every line get_bibitems returns is a separator, a complete `\bibitem`
      line, or a record's text followed by a separator. */
  lemma SegmentedShaped(biblatex: bool, lines: seq<string>)
    ensures Shaped(Segmented(biblatex, lines))
  {
    ShapedRun(biblatex, SegStart, lines);
    var s := SegRun(biblatex, SegStart, lines);
    if s.current != [] {
      ShapedFinish(s);
    }
  }

  /** get_bibitems (check.py:81-149) over the lines of the file, whose name
      ends in `.bbi` exactly when `biblatex` holds. */
  method GetBibitems(biblatex: bool, input: seq<string>) returns (lines: seq<string>)
    ensures lines == Segmented(biblatex, input)
  {
    var preamble := true;
    lines := [];
    var currentLine: seq<string> := [];
    for i := 0 to |input|
      invariant SegRun(biblatex, Segmenting(preamble, lines, currentLine), input[i..]) == SegRun(biblatex, SegStart, input)
    {
      var line := input[i];
      assert input[i..][0] == line && input[i..][1..] == input[i + 1..];
      ghost var before := Segmenting(preamble, lines, currentLine);
      if preamble {
        if ItemPrefix <= line {
          preamble := false;
        } else {
          continue;
        }
      }
      var cleanLine := Strip(line);
      var isEor := false;
      if cleanLine == "" {
        if biblatex {
          assert SegStep(biblatex, before, line) == Segmenting(preamble, lines, currentLine);
          continue;
        } else {
          isEor := true;
        }
      } else if (cleanLine == "{}" || cleanLine == "\\end{thebibliography}") && biblatex {
        isEor := true;
      }
      assert isEor == EndsRecord(biblatex, cleanLine);
      if isEor {
        lines := lines + [Replace(Join(currentLine, " "), "\\url {", "\\url{"), ""];
        currentLine := [];
        assert SegStep(biblatex, before, line) == Segmenting(preamble, lines, currentLine);
        continue;
      }
      currentLine := currentLine + [cleanLine];
      var joined := Join(currentLine, " ");
      if ItemPrefix <= joined && BracketsMatch(joined) {
        lines := lines + [joined];
        currentLine := [];
      }
      assert SegStep(biblatex, before, line) == Segmenting(preamble, lines, currentLine);
    }
    if currentLine != [] {
      lines := lines + [Replace(Join(currentLine, " "), "\\url {", "\\url{"), ""];
      currentLine := [];
    }
  }

  // ---------------------------------------------------------------------
  // The joiner of bst/check-output.py

  /** One line of the older joiner (bst/check-output.py:45-60). */
  function LegacyStep(s: Segmenting, line: string): Segmenting {
    if s.preamble && !(ItemPrefix <= line) then s
    else
      var current := s.current + [Strip(line)];
      var joined := Join(current, " ");
      if BracketsMatch(joined) then Segmenting(false, s.lines + [joined], [])
      else Segmenting(false, s.lines, current)
  }

  function LegacyRun(s: Segmenting, lines: seq<string>): Segmenting
    decreases |lines|
  {
    if |lines| == 0 then s else LegacyRun(LegacyStep(s, lines[0]), lines[1..])
  }

  /** The lines the older joiner emits; an unbalanced accumulation left at
      the end of the input is dropped. */
  function LegacyJoined(lines: seq<string>): seq<string> {
    LegacyRun(SegStart, lines).lines
  }

  /** Step fact: with nothing pending after the preamble, a blank line is
      emitted as the empty separator. */
  lemma LegacyBlankLine(s: Segmenting, line: string)
    requires !s.preamble && s.current == [] && Strip(line) == ""
    ensures LegacyStep(s, line) == Segmenting(false, s.lines + [""], [])
  {
    var current := s.current + [Strip(line)];
    assert current == [""];
    assert Join(current, " ") == "";
    assert BracketsMatch("");
  }

  /** Every emitted line has balanced brackets and braces. */
  predicate AllMatch(lines: seq<string>) {
    forall i :: 0 <= i < |lines| ==> BracketsMatch(lines[i])
  }

  lemma AllMatchSnoc(lines: seq<string>, x: string)
    requires AllMatch(lines) && BracketsMatch(x)
    ensures AllMatch(lines + [x])
  {
    var out := lines + [x];
    forall i | 0 <= i < |out| ensures BracketsMatch(out[i]) {
      if i < |lines| {
        assert out[i] == lines[i];
      }
    }
  }

  lemma LegacyStepMatches(s: Segmenting, line: string)
    requires AllMatch(s.lines)
    ensures AllMatch(LegacyStep(s, line).lines)
  {
    var joined := Join(s.current + [Strip(line)], " ");
    if s.preamble && !(ItemPrefix <= line) {
    } else if BracketsMatch(joined) {
      AllMatchSnoc(s.lines, joined);
    }
  }

  lemma {:induction false} LegacyRunMatches(s: Segmenting, lines: seq<string>)
    requires AllMatch(s.lines)
    ensures AllMatch(LegacyRun(s, lines).lines)
    decreases |lines|
  {
    if |lines| > 0 {
      LegacyStepMatches(s, lines[0]);
      LegacyRunMatches(LegacyStep(s, lines[0]), lines[1..]);
    }
  }

  /** Every line the older joiner emits has balanced brackets and braces. */
  lemma LegacyJoinedMatch(lines: seq<string>)
    ensures AllMatch(LegacyJoined(lines))
  {
    LegacyRunMatches(SegStart, lines);
  }

  /** From the accumulation of its first j lines, the rest of a run that
      balances only at its end is emitted by the older joiner as one line. */
  lemma {:induction false} LegacyRest(lines: seq<string>, run: seq<string>, j: nat)
    requires BalancesAtEnd(run) && j < |run|
    ensures LegacyRun(Segmenting(false, lines, Stripped(run[..j])), run[j..])
            == Segmenting(false, lines + [JoinedPrefix(run, |run|)], [])
    decreases |run| - j
  {
    var st := Segmenting(false, lines, Stripped(run[..j]));
    assert run[j..][0] == run[j] && run[j..][1..] == run[j + 1..];
    assert LegacyRun(st, run[j..]) == LegacyRun(LegacyStep(st, run[j]), run[j + 1..]);
    StrippedPrefixSnoc(run, j);
    PendingLegacyStep(lines, Stripped(run[..j]), run[j]);
    var joined := JoinedPrefix(run, j + 1);
    if j + 1 < |run| {
      assert !BracketsMatch(joined);
      assert LegacyStep(st, run[j]) == Segmenting(false, lines, Stripped(run[..j + 1]));
      LegacyRest(lines, run, j + 1);
    } else {
      assert LegacyStep(st, run[j]) == Segmenting(false, lines + [joined], []);
      assert run[j + 1..] == [];
    }
  }

  /** LegacyStep after the preamble: the accumulation with the stripped line
      is emitted when it balances, and kept otherwise. */
  lemma PendingLegacyStep(lines: seq<string>, current: seq<string>, line: string)
    ensures var joined := Join(current + [Strip(line)], " ");
            LegacyStep(Segmenting(false, lines, current), line)
            == if BracketsMatch(joined) then Segmenting(false, lines + [joined], [])
               else Segmenting(false, lines, current + [Strip(line)])
  {
  }

  /** The older joiner joins a run of lines, stripped and separated by
      single spaces, until the accumulation balances; then exactly that one
      line is emitted and nothing is pending. */
  lemma LegacyJoinedRun(s: Segmenting, run: seq<string>)
    requires s.current == [] && BalancesAtEnd(run)
    requires !s.preamble || ItemPrefix <= run[0]
    ensures LegacyRun(s, run) == Segmenting(false, s.lines + [Join(Stripped(run), " ")], [])
  {
    var s0 := Segmenting(false, s.lines, []);
    assert LegacyStep(s, run[0]) == LegacyStep(s0, run[0]);
    assert run[..0] == [] && run[0..] == run && run[..|run|] == run;
    LegacyRest(s.lines, run, 0);
  }

  /** The joiner of bst/check-output.py:41-60 over the lines of the file. */
  method JoinLegacyLines(input: seq<string>) returns (lines: seq<string>)
    ensures lines == LegacyJoined(input)
  {
    var preamble := true;
    lines := [];
    var currentLine: seq<string> := [];
    for i := 0 to |input|
      invariant LegacyRun(Segmenting(preamble, lines, currentLine), input[i..]) == LegacyRun(SegStart, input)
    {
      var line := input[i];
      assert input[i..][0] == line && input[i..][1..] == input[i + 1..];
      ghost var before := Segmenting(preamble, lines, currentLine);
      if preamble {
        if ItemPrefix <= line {
          preamble := false;
        } else {
          continue;
        }
      }
      currentLine := currentLine + [Strip(line)];
      var l := Join(currentLine, " ");
      if BracketsMatch(l) {
        lines := lines + [l];
        currentLine := [];
      }
      assert LegacyStep(before, line) == Segmenting(preamble, lines, currentLine);
    }
  }
}

=== FILE: simple_normalizer.dfy ===
/** parse_simple_bibitems (check.py:259-277): the lighter reader for the
    output of biblatex2bibitem. A `\bibitem{id}` line opens a record, a
    blank line closes it, and every line in between replaces the record's
    text, after curly quotes become `\enquote`, the date-suffix letter is
    collapsed, the right single quote becomes an apostrophe and the en dash
    becomes `--`. */
module SimpleNormalizer {
  import opened Wrappers
  import opened Text
  import opened Patterns

  const EnDash := '\U{2013}'

  /** The rewrites of one body line (check.py:273-275). No right single
      quote and no en dash survives them. */
  function Normalise(line: string): (r: string)
    ensures CloseQuote !in r && EnDash !in r
  {
    var collapsed := CollapseYearSuffix(Enquote(line));
    var quoted := Replace(collapsed, [CloseQuote], "'");
    ReplaceCharGone(collapsed, CloseQuote, "'", CloseQuote);
    ReplaceCharGone(quoted, EnDash, "--", EnDash);
    ReplaceCharGone(quoted, EnDash, "--", CloseQuote);
    Replace(quoted, [EnDash], "--")
  }

  /** A line with no curly quote, no en dash and no comma is kept as it is. */
  lemma NormaliseKeepsPlain(line: string)
    requires OpenQuote !in line && CloseQuote !in line && EnDash !in line && ',' !in line
    ensures Normalise(line) == line
  {
    forall i | 0 <= i < |line| ensures EnquoteAt(line[i..]).None? {
      assert line[i..][0] == line[i];
    }
    ReSubUnmatched(line, EnquoteAt);
    forall i | 0 <= i < |line| ensures YearSuffix(line[i..]).None? {
      assert line[i..][0] == line[i];
    }
    ReSubUnmatched(line, YearSuffix);
    ReplaceAbsent(line, [CloseQuote], "'");
    ReplaceAbsent(line, [EnDash], "--");
  }

  /** The last two rewrites read character by character: a right single
      quote becomes an apostrophe, an en dash becomes `--`, and every other
      character is kept. */
  function Transliterate(s: string): (r: string)
    ensures |r| >= |s|
    decreases |s|
  {
    if |s| == 0 then ""
    else (if s[0] == CloseQuote then "'" else if s[0] == EnDash then "--" else [s[0]]) + Transliterate(s[1..])
  }

  /** The two chained str.replace calls are that character-by-character
      rewrite. */
  lemma {:induction false} TransliterateReplaces(s: string)
    ensures Replace(Replace(s, [CloseQuote], "'"), [EnDash], "--") == Transliterate(s)
    decreases |s|
  {
    if |s| > 0 {
      var t := s[1..];
      assert s == [s[0]] + t;
      ReplaceCharCons(s[0], t, CloseQuote, "'");
      var h := if s[0] == CloseQuote then "'" else [s[0]];
      assert h == [h[0]];
      ReplaceCharCons(h[0], Replace(t, [CloseQuote], "'"), EnDash, "--");
      TransliterateReplaces(t);
    }
  }

  /** On a line with no left curly quote and no comma neither the `\enquote`
      rewrite nor the date-suffix collapse applies, and Normalise is exactly
      the character-by-character rewrite. */
  lemma NormaliseTransliterates(line: string)
    requires OpenQuote !in line && ',' !in line
    ensures Normalise(line) == Transliterate(line)
  {
    forall i | 0 <= i < |line| ensures EnquoteAt(line[i..]).None? {
      assert line[i..][0] == line[i];
    }
    ReSubUnmatched(line, EnquoteAt);
    forall i | 0 <= i < |line| ensures YearSuffix(line[i..]).None? {
      assert line[i..][0] == line[i];
    }
    ReSubUnmatched(line, YearSuffix);
    TransliterateReplaces(line);
  }

  /** The loop's variables: the record being read, and the texts so far. */
  datatype SimpleScan = SimpleScan(current: Option<string>, outputs: map<string, string>)

  const SimpleStart := SimpleScan(None, map[])

  /** One line of the loop (check.py:266-275). */
  function SimpleStep(s: SimpleScan, line: string): SimpleScan {
    match s.current
    case None => s.(current := SimpleBibitemId(line))
    case Some(id) =>
      if line == "" then s.(current := None)
      else s.(outputs := s.outputs[id := Normalise(line)])
  }

  function SimpleRun(s: SimpleScan, lines: seq<string>): SimpleScan
    decreases |lines|
  {
    if |lines| == 0 then s else SimpleRun(SimpleStep(s, lines[0]), lines[1..])
  }

  /** What parse_simple_bibitems returns. */
  function SimpleParsed(lines: seq<string>): map<string, string> {
    SimpleRun(SimpleStart, lines).outputs
  }

  lemma {:induction false} SimpleRunConcat(s: SimpleScan, a: seq<string>, b: seq<string>)
    ensures SimpleRun(s, a + b) == SimpleRun(SimpleRun(s, a), b)
    decreases |a|
  {
    if |a| == 0 {
      assert a + b == b;
    } else {
      assert (a + b)[0] == a[0] && (a + b)[1..] == a[1..] + b;
      SimpleRunConcat(SimpleStep(s, a[0]), a[1..], b);
    }
  }

  /** No text holds a right single quote or an en dash. */
  predicate Clean(outputs: map<string, string>) {
    forall k :: k in outputs ==> CloseQuote !in outputs[k] && EnDash !in outputs[k]
  }

  lemma {:induction false} SimpleRunClean(s: SimpleScan, lines: seq<string>)
    requires Clean(s.outputs)
    ensures Clean(SimpleRun(s, lines).outputs)
    decreases |lines|
  {
    if |lines| > 0 {
      SimpleRunClean(SimpleStep(s, lines[0]), lines[1..]);
    }
  }

  /** Every text parse_simple_bibitems returns is free of right single
      quotes and en dashes. */
  lemma SimpleParsedClean(lines: seq<string>)
    ensures Clean(SimpleParsed(lines))
  {
    SimpleRunClean(SimpleStart, lines);
  }

  /** An identifier in the result was there before, is the record being
      read, or was named by a `\bibitem{..}` line. */
  lemma {:induction false} SimpleKeysFrom(s: SimpleScan, lines: seq<string>, k: string)
    requires k in SimpleRun(s, lines).outputs
    ensures || k in s.outputs || s.current == Some(k)
            || exists i :: 0 <= i < |lines| && SimpleBibitemId(lines[i]) == Some(k)
    decreases |lines|
  {
    if |lines| > 0 {
      var s1 := SimpleStep(s, lines[0]);
      SimpleKeysFrom(s1, lines[1..], k);
      if exists i :: 0 <= i < |lines[1..]| && SimpleBibitemId(lines[1..][i]) == Some(k) {
        var i :| 0 <= i < |lines[1..]| && SimpleBibitemId(lines[1..][i]) == Some(k);
        assert lines[i + 1] == lines[1..][i];
      } else if s1.current == Some(k) && s.current.None? {
        assert SimpleBibitemId(lines[0]) == Some(k);
      }
    }
  }

  /** Every identifier parse_simple_bibitems returns was named by a
      `\bibitem{..}` line. */
  lemma SimpleKeysFromHeaders(lines: seq<string>, k: string)
    requires k in SimpleParsed(lines)
    ensures exists i :: 0 <= i < |lines| && SimpleBibitemId(lines[i]) == Some(k)
  {
    SimpleKeysFrom(SimpleStart, lines, k);
  }

  /** Inside a record, non-blank lines each replace the record's text: the
      last one wins. */
  lemma {:induction false} SimpleBodyRun(s: SimpleScan, id: string, body: seq<string>)
    requires s.current == Some(id)
    requires forall k :: 0 <= k < |body| ==> body[k] != ""
    ensures SimpleRun(s, body)
         == if body == [] then s else s.(outputs := s.outputs[id := Normalise(body[|body| - 1])])
    decreases |body|
  {
    if |body| > 0 {
      var s1 := s.(outputs := s.outputs[id := Normalise(body[0])]);
      SimpleBodyRun(s1, id, body[1..]);
      if |body| > 1 {
        assert body[1..][|body[1..]| - 1] == body[|body| - 1];
        assert s1.outputs[id := Normalise(body[|body| - 1])] == s.outputs[id := Normalise(body[|body| - 1])];
      }
    }
  }

  /** A whole record: the header names it, the last of its non-blank lines
      gives its text (a record with no line gets no entry), and the blank
      line closes it. */
  lemma SimpleRecord(s: SimpleScan, header: string, id: string, body: seq<string>)
    requires s.current.None? && SimpleBibitemId(header) == Some(id)
    requires forall k :: 0 <= k < |body| ==> body[k] != ""
    ensures SimpleRun(s, [header] + body + [""])
         == SimpleScan(None, if body == [] then s.outputs else s.outputs[id := Normalise(body[|body| - 1])])
  {
    var s1 := s.(current := Some(id));
    assert SimpleRun(s, [header]) == s1;
    SimpleBodyRun(s1, id, body);
    var s2 := SimpleRun(s1, body);
    assert SimpleRun(s2, [""]) == s2.(current := None);
    SimpleRunConcat(s, [header], body);
    SimpleRunConcat(s, [header] + body, [""]);
  }

  /** parse_simple_bibitems (check.py:259-277) over the lines of the file. */
  method ParseSimpleBibitems(lines: seq<string>) returns (outputs: map<string, string>)
    ensures outputs == SimpleParsed(lines)
  {
    outputs := map[];
    var currentId: Option<string> := None;
    for i := 0 to |lines|
      invariant SimpleRun(SimpleScan(currentId, outputs), lines[i..]) == SimpleRun(SimpleStart, lines)
    {
      assert lines[i..][0] == lines[i] && lines[i..][1..] == lines[i + 1..];
      var line := lines[i];
      if currentId.None? {
        currentId := SimpleBibitemId(line);
      } else if line == "" {
        currentId := None;
      } else {
        outputs := outputs[currentId.value := Normalise(line)];
      }
    }
    assert lines[|lines|..] == [];
  }
}

=== FILE: targets.dfy ===
/** The target texts the check scripts compare against.

    extract_dtx_targets (check.py:17-43, and its copy at the top of
    bst/check-output.py:9-27) reads a documented style file: a line opening
    a `bibexbox` box names an identifier, and the lines up to `\tcblower`
    are that identifier's target, cleaned and joined by single spaces.

    extract_csl_targets (check.py:46-78) reads a LaTeX test file: a line of
    `\cite{..}` commands queues identifiers while the queue is empty, and
    every paragraph that follows (up to a blank line) is the target of the
    identifier at the head of the queue. */
module Targets {
  import opened Wrappers
  import opened Text
  import opened Patterns

  // ---------------------------------------------------------------------
  // extract_dtx_targets

  const TcbLower := "\\tcblower"

  /** The scan of a documented style file: the box being read, if any, the
      targets so far, and the order in which identifiers were first added
      (a Python dict keeps that order; re-adding a key keeps its place). */
  datatype DtxScan = DtxScan(current: Option<string>, targets: map<string, string>, order: seq<string>)

  /** The box being read has an entry. */
  predicate DtxReady(s: DtxScan) {
    s.current.Some? ==> s.current.value in s.targets
  }

  /** The order lists each key of the targets exactly once. */
  ghost predicate InOrder(s: DtxScan) {
    && (forall k :: k in s.targets <==> k in s.order)
    && (forall i, j :: 0 <= i < j < |s.order| ==> s.order[i] != s.order[j])
  }

  const DtxStart := DtxScan(None, map[], [])

  /** How check.py cleans a box line (check.py:40-41): the date suffix
      collapsed, the line stripped, `\@` removed and `~` made a space. */
  function CheckClean(line: string): string {
    Replace(Replace(Strip(CollapseYearSuffix(line)), "\\@", ""), "~", " ")
  }

  /** How bst/check-output.py cleans a box line (bst/check-output.py:27):
      stripped and `\@` removed. */
  function LegacyClean(line: string): string {
    Replace(Strip(line), "\\@", "")
  }

  /** A line inside a box that contributes text: not a comment, not the
      `\tcblower` that ends the box, and not blank once cleaned. */
  predicate InBox(line: string, clean: string -> string) {
    !("%" <= line) && !Contains(line, TcbLower) && clean(line) != ""
  }

  /** The line that ends a box. */
  predicate BoxEnd(line: string) {
    !("%" <= line) && Contains(line, TcbLower)
  }

  /** One line of the scan (check.py:26-41). */
  function DtxStep(s: DtxScan, line: string, clean: string -> string): (r: DtxScan)
    requires DtxReady(s)
    ensures DtxReady(r)
    ensures s.current.None? ==> r.current == BibexboxId(line)
  {
    match s.current
    case None =>
      (match BibexboxId(line)
       case Some(id) =>
         var order := if id in s.targets then s.order else s.order + [id];
         DtxScan(Some(id), s.targets[id := ""], order)
       case None => s)
    case Some(id) =>
      if "%" <= line then s
      else if Contains(line, TcbLower) then s.(current := None)
      else s.(targets := s.targets[id := Separated(s.targets[id]) + clean(line)])
  }

  function DtxRun(s: DtxScan, lines: seq<string>, clean: string -> string): (r: DtxScan)
    requires DtxReady(s)
    ensures DtxReady(r)
    decreases |lines|
  {
    if |lines| == 0 then s else DtxRun(DtxStep(s, lines[0], clean), lines[1..], clean)
  }

  /** What extract_dtx_targets returns. */
  function DtxTargets(lines: seq<string>): map<string, string> {
    DtxRun(DtxStart, lines, CheckClean).targets
  }

  lemma {:induction false} DtxRunConcat(s: DtxScan, a: seq<string>, b: seq<string>, clean: string -> string)
    requires DtxReady(s)
    ensures DtxRun(s, a + b, clean) == DtxRun(DtxRun(s, a, clean), b, clean)
    decreases |a|
  {
    if |a| == 0 {
      assert a + b == b;
    } else {
      assert (a + b)[0] == a[0] && (a + b)[1..] == a[1..] + b;
      DtxRunConcat(DtxStep(s, a[0], clean), a[1..], b, clean);
    }
  }

  /** The insertion order keeps listing every key once. */
  lemma DtxStepInOrder(s: DtxScan, line: string, clean: string -> string)
    requires DtxReady(s) && InOrder(s)
    ensures InOrder(DtxStep(s, line, clean))
  {
  }

  lemma {:induction false} DtxRunInOrder(s: DtxScan, lines: seq<string>, clean: string -> string)
    requires DtxReady(s) && InOrder(s)
    ensures InOrder(DtxRun(s, lines, clean))
    decreases |lines|
  {
    if |lines| > 0 {
      DtxStepInOrder(s, lines[0], clean);
      DtxRunInOrder(DtxStep(s, lines[0], clean), lines[1..], clean);
    }
  }

  /** The cleaned text of each line. */
  function Cleaned(lines: seq<string>, clean: string -> string): (r: seq<string>)
    ensures |r| == |lines|
  {
    if |lines| == 0 then [] else [clean(lines[0])] + Cleaned(lines[1..], clean)
  }

  /** Inside a box, each text line extends the target by its cleaned text
      after a single space. */
  lemma {:induction false} DtxBoxBody(s: DtxScan, id: string, done: seq<string>, body: seq<string>, clean: string -> string)
    requires DtxReady(s) && s.current == Some(id)
    requires forall k :: 0 <= k < |done| ==> done[k] != ""
    requires s.targets[id] == Join(done, " ")
    requires forall k :: 0 <= k < |body| ==> InBox(body[k], clean)
    ensures DtxRun(s, body, clean) == s.(targets := s.targets[id := Join(done + Cleaned(body, clean), " ")])
    decreases |body|
  {
    if |body| == 0 {
      assert done + Cleaned(body, clean) == done;
      assert s.targets[id := Join(done, " ")] == s.targets;
    } else {
      var x := clean(body[0]);
      DtxBoxLine(s, id, done, body[0], clean);
      var s' := s.(targets := s.targets[id := Join(done + [x], " ")]);
      DtxBoxBody(s', id, done + [x], body[1..], clean);
      CleanedCons(done, body, clean);
      assert s'.targets[id := Join(done + Cleaned(body, clean), " ")]
          == s.targets[id := Join(done + Cleaned(body, clean), " ")];
    }
  }

  lemma DtxBoxLine(s: DtxScan, id: string, done: seq<string>, line: string, clean: string -> string)
    requires DtxReady(s) && s.current == Some(id)
    requires forall k :: 0 <= k < |done| ==> done[k] != ""
    requires s.targets[id] == Join(done, " ")
    requires InBox(line, clean)
    ensures DtxStep(s, line, clean) == s.(targets := s.targets[id := Join(done + [clean(line)], " ")])
  {
    SeparatedJoin(done, clean(line));
  }

  /** A line inside a box that cleans to nothing still adds the separating
      space when the target already has text, and changes nothing when it
      has none. */
  lemma DtxBlankInBox(s: DtxScan, id: string, line: string, clean: string -> string)
    requires DtxReady(s) && s.current == Some(id)
    requires !("%" <= line) && !Contains(line, TcbLower) && clean(line) == ""
    ensures s.targets[id] != "" ==> DtxStep(s, line, clean) == s.(targets := s.targets[id := s.targets[id] + " "])
    ensures s.targets[id] == "" ==> DtxStep(s, line, clean) == s
  {
    var t := s.targets[id];
    DtxTextStep(s, id, line, clean);
    if t == "" {
      assert Separated(t) + clean(line) == t;
      assert s.targets[id := t] == s.targets;
    } else {
      assert Separated(t) + clean(line) == t + " ";
    }
  }

  /** A line inside a box that is neither a comment nor `\tcblower`. */
  lemma DtxTextStep(s: DtxScan, id: string, line: string, clean: string -> string)
    requires DtxReady(s) && s.current == Some(id)
    requires !("%" <= line) && !Contains(line, TcbLower)
    ensures DtxStep(s, line, clean) == s.(targets := s.targets[id := Separated(s.targets[id]) + clean(line)])
  {
  }

  /** So a blank line between two text lines of a fresh box leaves a double
      space between their cleaned texts. */
  lemma DtxBlankDoubleSpace(s: DtxScan, id: string, a: string, blank: string, b: string, clean: string -> string)
    requires DtxReady(s) && s.current == Some(id) && s.targets[id] == ""
    requires InBox(a, clean) && InBox(b, clean)
    requires !("%" <= blank) && !Contains(blank, TcbLower) && clean(blank) == ""
    ensures DtxRun(s, [a, blank, b], clean) == s.(targets := s.targets[id := clean(a) + "  " + clean(b)])
  {
    var x, y := clean(a), clean(b);
    var s1 := s.(targets := s.targets[id := x]);
    var s2 := s.(targets := s.targets[id := x + " "]);
    var s3 := s.(targets := s.targets[id := x + "  " + y]);
    DtxTextStep(s, id, a, clean);
    assert Separated("") + x == x;
    DtxTextStep(s1, id, blank, clean);
    assert Separated(x) + "" == x + " ";
    assert s1.targets[id := x + " "] == s2.targets;
    DtxTextStep(s2, id, b, clean);
    assert Separated(x + " ") + y == x + "  " + y;
    assert s2.targets[id := x + "  " + y] == s3.targets;
    DtxRunConcat(s, [a], [blank, b], clean);
    DtxRunConcat(s1, [blank], [b], clean);
    DtxRunOne(s, a, clean);
    DtxRunOne(s1, blank, clean);
    DtxRunOne(s2, b, clean);
    assert [a] + [blank, b] == [a, blank, b] && [blank] + [b] == [blank, b];
  }

  lemma CleanedCons(done: seq<string>, body: seq<string>, clean: string -> string)
    requires |body| > 0
    ensures done + [clean(body[0])] + Cleaned(body[1..], clean) == done + Cleaned(body, clean)
  {
    var x := clean(body[0]);
    var t := Cleaned(body[1..], clean);
    assert Cleaned(body, clean) == [x] + t;
    SnocThenAppend(done, x, t);
  }

  /** A whole box: its opening line, its text lines and `\tcblower` give the
      identifier the cleaned lines joined by single spaces, and close the box. */
  lemma DtxBox(s: DtxScan, header: string, id: string, body: seq<string>, closer: string, clean: string -> string)
    requires DtxReady(s) && s.current.None? && BibexboxId(header) == Some(id)
    requires forall k :: 0 <= k < |body| ==> InBox(body[k], clean)
    requires BoxEnd(closer)
    ensures DtxRun(s, [header] + body + [closer], clean).targets == s.targets[id := Join(Cleaned(body, clean), " ")]
    ensures DtxRun(s, [header] + body + [closer], clean).current.None?
  {
    var s1 := DtxStep(s, header, clean);
    DtxOpenStep(s, header, id, clean);
    DtxRunOne(s, header, clean);
    DtxBoxBody(s1, id, [], body, clean);
    JoinEmptyPrefix(Cleaned(body, clean), " ");
    var s2 := s1.(targets := s1.targets[id := Join(Cleaned(body, clean), " ")]);
    DtxCloseStep(s2, closer, clean);
    DtxRunOne(s2, closer, clean);
    DtxRunConcat(s, [header], body, clean);
    DtxRunConcat(s, [header] + body, [closer], clean);
  }

  lemma DtxRunOne(s: DtxScan, line: string, clean: string -> string)
    requires DtxReady(s)
    ensures DtxRun(s, [line], clean) == DtxStep(s, line, clean)
  {
    assert [line][1..] == [];
  }

  lemma DtxOpenStep(s: DtxScan, header: string, id: string, clean: string -> string)
    requires DtxReady(s) && s.current.None? && BibexboxId(header) == Some(id)
    ensures DtxStep(s, header, clean).current == Some(id)
    ensures DtxStep(s, header, clean).targets == s.targets[id := ""]
  {
  }

  lemma DtxCloseStep(s: DtxScan, closer: string, clean: string -> string)
    requires DtxReady(s) && s.current.Some? && BoxEnd(closer)
    ensures DtxStep(s, closer, clean) == s.(current := None)
  {
  }

  /** Outside a box, lines that open none change nothing. */
  lemma {:induction false} DtxOutsideBoxes(s: DtxScan, lines: seq<string>, clean: string -> string)
    requires DtxReady(s) && s.current.None?
    requires forall k :: 0 <= k < |lines| ==> BibexboxId(lines[k]).None?
    ensures DtxRun(s, lines, clean) == s
    decreases |lines|
  {
    if |lines| > 0 {
      DtxOutsideBoxes(s, lines[1..], clean);
    }
  }

  /** Every identifier in the result was there before or was named by a
      line that opens a box. */
  lemma {:induction false} DtxKeysFromBoxes(s: DtxScan, lines: seq<string>, clean: string -> string, k: string)
    requires DtxReady(s)
    requires k in DtxRun(s, lines, clean).targets
    ensures k in s.targets || exists i :: 0 <= i < |lines| && BibexboxId(lines[i]) == Some(k)
    decreases |lines|
  {
    if |lines| > 0 {
      var s1 := DtxStep(s, lines[0], clean);
      DtxKeysFromBoxes(s1, lines[1..], clean, k);
      if k !in s.targets && k !in s1.targets {
        var i :| 0 <= i < |lines[1..]| && BibexboxId(lines[1..][i]) == Some(k);
        assert BibexboxId(lines[i + 1]) == Some(k);
      } else if k !in s.targets {
        assert BibexboxId(lines[0]) == Some(k);
      }
    }
  }

  /** extract_dtx_targets (check.py:17-43) over the lines of the file when
      `clean` is CheckClean, and the target loop of bst/check-output.py:9-27
      when it is LegacyClean; `order` is the order in which the dict holds
      the identifiers. */
  method ExtractDtxTargets(lines: seq<string>, clean: string -> string)
    returns (targets: map<string, string>, order: seq<string>)
    ensures targets == DtxRun(DtxStart, lines, clean).targets
    ensures order == DtxRun(DtxStart, lines, clean).order
  {
    var current: Option<string> := None;
    targets := map[];
    order := [];
    for i := 0 to |lines|
      invariant DtxReady(DtxScan(current, targets, order))
      invariant DtxRun(DtxScan(current, targets, order), lines[i..], clean) == DtxRun(DtxStart, lines, clean)
    {
      var line := lines[i];
      assert lines[i..][0] == line && lines[i..][1..] == lines[i + 1..];
      ghost var before := DtxScan(current, targets, order);
      if current.None? {
        var m := BibexboxId(line);
        if m.Some? {
          current := m;
          order := if m.value in targets then order else order + [m.value];
          targets := targets[m.value := ""];
        }
        assert DtxStep(before, line, clean) == DtxScan(current, targets, order);
        continue;
      } else {
        if "%" <= line {
          continue;
        }
        if Contains(line, TcbLower) {
          current := None;
          continue;
        }
        var id := current.value;
        if targets[id] != "" {
          targets := targets[id := targets[id] + " "];
        }
        var cleaned := clean(line);
        targets := targets[id := targets[id] + cleaned];
        assert DtxStep(before, line, clean) == DtxScan(current, targets, order);
      }
    }
  }

  // ---------------------------------------------------------------------
  // extract_csl_targets

  /** The scan of the LaTeX test file: the queue of identifiers waiting for
      a paragraph, the lines of the paragraph being read, and the targets. */
  datatype CslScan = CslScan(ids: seq<string>, current: seq<string>, targets: map<string, string>)

  /** Text is only gathered while an identifier waits for it, so the head of
      the queue exists whenever a paragraph ends. */
  predicate CslReady(s: CslScan) {
    s.current != [] ==> s.ids != []
  }

  const CslStart := CslScan([], [], map[])

  /** How a paragraph line is cleaned (check.py:75-76): the date suffix
      collapsed, `\@` removed and `~` made a space. */
  function CslText(line: string): string {
    Replace(Replace(CollapseYearSuffix(line), "\\@", ""), "~", " ")
  }

  /** One line of the scan (check.py:56-76). A blank line ends a paragraph
      and assigns it to the head of the queue; while the queue is empty a
      line only contributes the identifiers it cites; `...` is skipped;
      anything else is a paragraph line. */
  function CslStep(s: CslScan, line: string): (r: CslScan)
    requires CslReady(s)
    ensures CslReady(r)
    ensures |r.ids| > |s.ids| ==> s.ids == [] && r.ids == CiteIds(Strip(line))
    ensures r.current != s.current && r.current != [] ==> s.ids != [] && r.ids == s.ids
  {
    var l := Strip(line);
    if l == "" then
      if s.current != [] then CslScan(s.ids[1..], [], s.targets[s.ids[0] := Join(s.current, " ")])
      else s
    else if s.ids == [] then s.(ids := s.ids + CiteIds(l))
    else if l == "..." then s
    else s.(current := s.current + [CslText(l)])
  }

  function CslRun(s: CslScan, lines: seq<string>): (r: CslScan)
    requires CslReady(s)
    ensures CslReady(r)
    decreases |lines|
  {
    if |lines| == 0 then s else CslRun(CslStep(s, lines[0]), lines[1..])
  }

  /** What extract_csl_targets returns. */
  function CslTargets(lines: seq<string>): map<string, string> {
    CslRun(CslStart, lines).targets
  }

  lemma {:induction false} CslRunConcat(s: CslScan, a: seq<string>, b: seq<string>)
    requires CslReady(s)
    ensures CslRun(s, a + b) == CslRun(CslRun(s, a), b)
    decreases |a|
  {
    if |a| == 0 {
      assert a + b == b;
    } else {
      assert (a + b)[0] == a[0] && (a + b)[1..] == a[1..] + b;
      CslRunConcat(CslStep(s, a[0]), a[1..], b);
    }
  }

  /** A line of paragraph text: not blank and not `...`. */
  predicate ParagraphLine(line: string) {
    Strip(line) != "" && Strip(line) != "..."
  }

  /** The cleaned text of each paragraph line. */
  function CslTexts(lines: seq<string>): (r: seq<string>)
    ensures |r| == |lines|
  {
    if |lines| == 0 then [] else [CslText(Strip(lines[0]))] + CslTexts(lines[1..])
  }

  /** While an identifier waits, paragraph lines are gathered in order. */
  lemma {:induction false} CslGathers(s: CslScan, para: seq<string>)
    requires CslReady(s) && s.ids != []
    requires forall k :: 0 <= k < |para| ==> ParagraphLine(para[k])
    ensures CslRun(s, para) == s.(current := s.current + CslTexts(para))
    decreases |para|
  {
    if |para| == 0 {
      assert s.current + CslTexts(para) == s.current;
    } else {
      var s' := s.(current := s.current + [CslText(Strip(para[0]))]);
      CslGathersLine(s, para[0]);
      CslGathers(s', para[1..]);
      CslTextsCons(s.current, para);
    }
  }

  lemma CslGathersLine(s: CslScan, line: string)
    requires CslReady(s) && s.ids != [] && ParagraphLine(line)
    ensures CslStep(s, line) == s.(current := s.current + [CslText(Strip(line))])
  {
  }

  lemma CslTextsCons(done: seq<string>, para: seq<string>)
    requires |para| > 0
    ensures done + [CslText(Strip(para[0]))] + CslTexts(para[1..]) == done + CslTexts(para)
  {
    var x := CslText(Strip(para[0]));
    var t := CslTexts(para[1..]);
    assert CslTexts(para) == [x] + t;
    SnocThenAppend(done, x, t);
  }

  /** A paragraph and the blank line after it become the target of the
      identifier at the head of the queue, which leaves the queue. */
  lemma CslParagraph(s: CslScan, para: seq<string>, blank: string)
    requires CslReady(s) && s.ids != [] && s.current == []
    requires para != [] && forall k :: 0 <= k < |para| ==> ParagraphLine(para[k])
    requires Strip(blank) == ""
    ensures CslRun(s, para + [blank]) == CslScan(s.ids[1..], [], s.targets[s.ids[0] := Join(CslTexts(para), " ")])
  {
    CslGathers(s, para);
    CslRunConcat(s, para, [blank]);
    var s1 := s.(current := s.current + CslTexts(para));
    assert s1.current == CslTexts(para);
    assert CslRun(s1, [blank]) == CslStep(s1, blank);
  }

  /** A citation line met while no identifier waits queues the cited
      identifiers in the order they appear. */
  lemma CslQueuesCitations(s: CslScan, id: string, rest: string)
    requires CslReady(s) && s.ids == []
    requires '}' !in id && Strip(CiteOpen + id + "}" + rest) == CiteOpen + id + "}" + rest
    ensures CslStep(s, CiteOpen + id + "}" + rest).ids == [id] + CiteIds(rest)
  {
    CiteIdsCons(id, rest);
  }

  /** The identifiers of the matches appended to the queue one by one
      (check.py:67-69). */
  method Enqueue(queue: seq<string>, matches: seq<string>) returns (r: seq<string>)
    ensures r == queue + matches
  {
    r := queue;
    for j := 0 to |matches|
      invariant r == queue + matches[..j]
    {
      assert matches[..j + 1] == matches[..j] + [matches[j]];
      r := r + [matches[j]];
    }
    assert matches[..|matches|] == matches;
  }

  /** extract_csl_targets (check.py:46-78) over the lines of the file. */
  method ExtractCslTargets(lines: seq<string>) returns (targets: map<string, string>)
    ensures targets == CslTargets(lines)
  {
    targets := map[];
    var currentIds: seq<string> := [];
    var currentLine: seq<string> := [];
    for i := 0 to |lines|
      invariant CslReady(CslScan(currentIds, currentLine, targets))
      invariant CslRun(CslScan(currentIds, currentLine, targets), lines[i..]) == CslRun(CslStart, lines)
    {
      assert lines[i..][0] == lines[i] && lines[i..][1..] == lines[i + 1..];
      ghost var before := CslScan(currentIds, currentLine, targets);
      var line := Strip(lines[i]);
      if line == "" {
        if currentLine != [] {
          var currentId := currentIds[0];
          currentIds := currentIds[1..];
          targets := targets[currentId := Join(currentLine, " ")];
          currentLine := [];
        }
        assert CslStep(before, lines[i]) == CslScan(currentIds, currentLine, targets);
        continue;
      }
      if currentIds == [] {
        currentIds := Enqueue(currentIds, CiteIds(line));
        assert CslStep(before, lines[i]) == CslScan(currentIds, currentLine, targets);
        continue;
      }
      if line == "..." {
        continue;
      }
      currentLine := currentLine + [CslText(line)];
      assert CslStep(before, lines[i]) == CslScan(currentIds, currentLine, targets);
    }
  }
}

=== FILE: text.dfy ===
/** The Python string operations the check scripts rely on: str.strip,
    str.join, str.count, str.replace, the `in` test, and the left-to-right,
    non-overlapping scan shared by re.sub, re.search and re.finditer. Every
    regular expression of the scripts is a fixed pattern; module Patterns
    writes each one as a matcher that these scans drive. */
module Text {
  import opened Wrappers

  /** The characters Python's str.isspace() accepts, which str.strip() removes. */
  predicate IsSpace(c: char) {
    c == ' ' || ('\t' <= c <= '\r') || ('\U{1c}' <= c <= '\U{1f}') || c == '\U{85}' || c == '\U{a0}'
    || c == '\U{1680}' || ('\U{2000}' <= c <= '\U{200a}') || c == '\U{2028}' || c == '\U{2029}'
    || c == '\U{202f}' || c == '\U{205f}' || c == '\U{3000}'
  }

  function LStrip(s: string): (r: string)
    ensures |r| <= |s| && r == s[|s| - |r|..]
    ensures forall i :: 0 <= i < |s| - |r| ==> IsSpace(s[i])
    ensures r == [] || !IsSpace(r[0])
  {
    if |s| > 0 && IsSpace(s[0]) then LStrip(s[1..]) else s
  }

  function RStrip(s: string): (r: string)
    ensures |r| <= |s| && r == s[..|r|]
    ensures forall i :: |r| <= i < |s| ==> IsSpace(s[i])
    ensures r == [] || !IsSpace(r[|r| - 1])
  {
    if |s| > 0 && IsSpace(s[|s| - 1]) then RStrip(s[..|s| - 1]) else s
  }

  /** str.strip(): the whitespace at both ends removed. */
  function Strip(s: string): string {
    LStrip(RStrip(s))
  }

  /** sep.join(parts). */
  function Join(parts: seq<string>, sep: string): string {
    if |parts| == 0 then "" else if |parts| == 1 then parts[0] else parts[0] + sep + Join(parts[1..], sep)
  }

  lemma {:induction false} JoinSnoc(parts: seq<string>, sep: string, x: string)
    ensures Join(parts + [x], sep) == if parts == [] then x else Join(parts, sep) + sep + x
  {
    if |parts| > 1 {
      assert (parts + [x])[1..] == parts[1..] + [x];
      JoinSnoc(parts[1..], sep, x);
    } else if |parts| == 1 {
      assert (parts + [x])[1..] == [x];
    }
  }

  /** A text followed by a separating space when it is not empty: how
      the scripts grow a text line by line. */
  function Separated(text: string): string {
    if text != "" then text + " " else text
  }

  lemma {:induction false} JoinNonEmpty(parts: seq<string>, sep: string)
    requires |parts| > 0 && parts[|parts| - 1] != ""
    ensures Join(parts, sep) != ""
  {
    var n := |parts| - 1;
    assert parts == parts[..n] + [parts[n]];
    JoinSnoc(parts[..n], sep, parts[n]);
  }

  /** Growing the join of non-empty parts with Separated is joining one
      more part. */
  lemma SeparatedJoin(done: seq<string>, x: string)
    requires forall k :: 0 <= k < |done| ==> done[k] != ""
    ensures Separated(Join(done, " ")) + x == Join(done + [x], " ")
  {
    JoinSnoc(done, " ", x);
    if done != [] {
      JoinNonEmpty(done, " ");
    } else {
      assert "" + x == x;
    }
  }

  lemma JoinRegroup(done: seq<string>, body: seq<string>, sep: string)
    requires |body| > 0
    ensures Join(done + [body[0]] + body[1..], sep) == Join(done + body, sep)
  {
    assert done + [body[0]] + body[1..] == done + body;
  }

  lemma JoinEmptyPrefix(body: seq<string>, sep: string)
    ensures Join([] + body, sep) == Join(body, sep)
  {
    assert [] + body == body;
  }

  lemma SnocThenAppend<T>(done: seq<T>, x: T, rest: seq<T>)
    ensures done + [x] + rest == done + ([x] + rest)
  {
  }

  /** str.count(c) for a single character. */
  function Count(s: string, c: char): nat {
    if |s| == 0 then 0 else (if s[0] == c then 1 else 0) + Count(s[1..], c)
  }

  /** The `in` test for substrings. */
  predicate Contains(s: string, p: string) {
    p <= s || (|s| > 0 && Contains(s[1..], p))
  }

  /** The first index at or after `from` that holds `c`. */
  function IndexOf(s: string, c: char, from: nat): (r: Option<nat>)
    ensures r.Some? ==> from <= r.value < |s| && s[r.value] == c
    ensures r.Some? ==> forall k :: from <= k < r.value ==> s[k] != c
    ensures r.None? ==> forall k :: from <= k < |s| ==> s[k] != c
    decreases |s| - from
  {
    if from >= |s| then None else if s[from] == c then Some(from) else IndexOf(s, c, from + 1)
  }

  lemma IndexOfFinds(s: string, c: char, from: nat, k: nat)
    requires from <= k < |s| && s[k] == c
    requires forall i :: from <= i < k ==> s[i] != c
    ensures IndexOf(s, c, from) == Some(k)
  {
  }

  /** A text without `c` starts with another character and goes on without `c`. */
  lemma TailLacks(t: string, c: char)
    requires |t| > 0 && c !in t
    ensures t[0] != c && c !in t[1..]
  {
    assert t[0] in t;
    assert forall x :: x in t[1..] ==> x in t;
  }

  /** A slice that copies a text without `c` holds no `c`. */
  lemma SliceLacks(t: string, lo: nat, x: string, c: char)
    requires lo + |x| <= |t| && t[lo..lo + |x|] == x && c !in x
    ensures forall i :: lo <= i < lo + |x| ==> t[i] != c
  {
    forall i | lo <= i < lo + |x| ensures t[i] != c {
      assert t[i] == x[i - lo];
      assert x[i - lo] in x;
    }
  }

  /** The last index in [lo, hi) that holds `c`. */
  function LastIndexOf(s: string, c: char, lo: nat, hi: nat): (r: Option<nat>)
    requires hi <= |s|
    ensures r.Some? ==> lo <= r.value < hi && s[r.value] == c
    ensures r.Some? ==> forall k :: r.value < k < hi ==> s[k] != c
    ensures r.None? ==> forall k :: lo <= k < hi ==> s[k] != c
    decreases hi
  {
    if hi <= lo then None else if s[hi - 1] == c then Some(hi - 1) else LastIndexOf(s, c, lo, hi - 1)
  }

  lemma {:induction false} LastIndexOfFinds(s: string, c: char, lo: nat, hi: nat, j: nat)
    requires lo <= j < hi <= |s| && s[j] == c
    requires forall i :: j < i < hi ==> s[i] != c
    ensures LastIndexOf(s, c, lo, hi) == Some(j)
    decreases hi
  {
    if hi - 1 != j {
      LastIndexOfFinds(s, c, lo, hi - 1, j);
    }
  }

  /** A match of a fixed pattern at the start of a string: how many
      characters it covers, and the text it yields (the replacement for
      re.sub, the named group for re.search and re.finditer). */
  datatype Hit = Hit(len: nat, text: string)

  /** A pattern, tried at the start of a string. */
  type Matcher = string -> Option<Hit>

  /** re.sub: scan left to right; where the pattern matches, emit its
      replacement and resume after the match, elsewhere copy one character.
      (None of the scripts' patterns matches the empty string; a hit that
      would cover no character is treated as no match.) */
  function ReSub(s: string, at: Matcher): string
    decreases |s|
  {
    if |s| == 0 then ""
    else match at(s)
      case Some(h) => if 0 < h.len <= |s| then h.text + ReSub(s[h.len..], at) else [s[0]] + ReSub(s[1..], at)
      case None => [s[0]] + ReSub(s[1..], at)
  }

  /** re.finditer, keeping the group of every non-overlapping match. */
  function FindAll(s: string, at: Matcher): seq<string>
    decreases |s|
  {
    if |s| == 0 then []
    else match at(s)
      case Some(h) => if 0 < h.len <= |s| then [h.text] + FindAll(s[h.len..], at) else FindAll(s[1..], at)
      case None => FindAll(s[1..], at)
  }

  /** A match found by re.search: where it starts and what it yields. */
  datatype Found = Found(start: nat, hit: Hit)

  /** re.search: the leftmost position at which the pattern matches. */
  function Search(s: string, at: Matcher): (r: Option<Found>)
    ensures r.Some? ==> r.value.start < |s| && at(s[r.value.start..]) == Some(r.value.hit)
    ensures r.Some? ==> forall i :: 0 <= i < r.value.start ==> at(s[i..]).None?
    ensures r.None? ==> forall i :: 0 <= i < |s| ==> at(s[i..]).None?
    decreases |s|
  {
    if |s| == 0 then None
    else match at(s)
      case Some(h) => Some(Found(0, h))
      case None =>
        var rest := Search(s[1..], at);
        assert forall i :: 1 <= i <= |s| ==> s[1..][i - 1..] == s[i..];
        match rest
        case Some(f) => Some(Found(f.start + 1, f.hit))
        case None => None
  }

  /** The literal pattern `pat`, replaced by `rep`. */
  function Literal(pat: string, rep: string): Matcher {
    t => if 0 < |pat| && pat <= t then Some(Hit(|pat|, rep)) else None
  }

  /** str.replace(pat, rep): every non-overlapping occurrence, left to right. */
  function Replace(s: string, pat: string, rep: string): string {
    ReSub(s, Literal(pat, rep))
  }

  /** Where a pattern matches nowhere, re.sub returns its input unchanged. */
  lemma {:induction false} ReSubUnmatched(s: string, at: Matcher)
    requires forall i :: 0 <= i < |s| ==> at(s[i..]).None?
    ensures ReSub(s, at) == s
  {
    if |s| > 0 {
      assert s[0..] == s;
      assert forall i :: 0 <= i < |s| - 1 ==> s[1..][i..] == s[i + 1..];
      ReSubUnmatched(s[1..], at);
    }
  }

  /** str.replace is the identity when the first character of `pat` never occurs. */
  lemma ReplaceAbsent(s: string, pat: string, rep: string)
    requires 0 < |pat| && pat[0] !in s
    ensures Replace(s, pat, rep) == s
  {
    forall i | 0 <= i < |s| ensures Literal(pat, rep)(s[i..]).None? {
      assert s[i..][0] == s[i];
    }
    ReSubUnmatched(s, Literal(pat, rep));
  }

  /** A replacement no longer than its pattern never lengthens the text. */
  lemma {:induction false} ReplaceShrinks(s: string, pat: string, rep: string)
    requires |rep| <= |pat|
    ensures |Replace(s, pat, rep)| <= |s|
    decreases |s|
  {
    if |s| > 0 {
      if 0 < |pat| && pat <= s {
        assert Replace(s, pat, rep) == rep + Replace(s[|pat|..], pat, rep);
        ReplaceShrinks(s[|pat|..], pat, rep);
      } else {
        assert Replace(s, pat, rep) == [s[0]] + Replace(s[1..], pat, rep);
        ReplaceShrinks(s[1..], pat, rep);
      }
    }
  }

  /** Replacing a single character, one character at a time. */
  lemma ReplaceCharCons(c: char, s: string, a: char, rep: string)
    ensures Replace([c] + s, [a], rep) == (if c == a then rep else [c]) + Replace(s, [a], rep)
  {
    var u := [c] + s;
    assert u[0] == c && u[1..] == s;
    if c == a {
      assert [a] <= u;
    } else {
      assert !([a] <= u);
    }
  }

  /** Replacing a character by text that does not hold it leaves none behind,
      and a character found neither in the input nor in the replacement never
      appears. */
  lemma {:induction false} ReplaceCharGone(s: string, a: char, rep: string, c: char)
    requires c !in rep
    requires c == a || c !in s
    ensures c !in Replace(s, [a], rep)
  {
    if |s| > 0 {
      ReplaceCharGone(s[1..], a, rep, c);
    }
  }
  /** Python's str.replace skips a prefix in which the pattern's first
      character does not occur. */
  lemma {:induction false} ReplaceSkips(u: string, v: string, pat: string, rep: string)
    requires 0 < |pat| && pat[0] !in u
    ensures Replace(u + v, pat, rep) == u + Replace(v, pat, rep)
    decreases |u|
  {
    if |u| > 0 {
      assert (u + v)[1..] == u[1..] + v;
      assert (u + v)[0] == u[0];
      ReplaceSkips(u[1..], v, pat, rep);
      assert [u[0]] + (u[1..] + Replace(v, pat, rep)) == u + Replace(v, pat, rep);
    } else {
      assert u + v == v;
    }
  }

  /** A text in which `pat` never occurs is left alone by str.replace. */
  lemma {:induction false} ReplaceNowhere(s: string, pat: string, rep: string)
    requires 0 < |pat| && !Contains(s, pat)
    ensures Replace(s, pat, rep) == s
    decreases |s|
  {
    if |s| > 0 {
      ReplaceNowhere(s[1..], pat, rep);
    }
  }

  /** The pattern found at the start, then text free of it: one replacement. */
  lemma ReplaceOnce(s: string, rest: string, rep: string)
    requires 0 < |s| && !Contains(rest, s)
    ensures Replace(s + rest, s, rep) == rep + rest
  {
    assert (s + rest)[|s|..] == rest;
    ReplaceNowhere(rest, s, rep);
  }


  /** str.replace copies a prefix at none of whose positions the pattern
      begins. */
  lemma {:induction false} ReplaceSkipsUnmatched(u: string, v: string, pat: string, rep: string)
    requires 0 < |pat|
    requires forall i :: 0 <= i < |u| ==> !(pat <= (u + v)[i..])
    ensures Replace(u + v, pat, rep) == u + Replace(v, pat, rep)
    decreases |u|
  {
    if |u| > 0 {
      assert (u + v)[0..] == u + v;
      assert (u + v)[1..] == u[1..] + v;
      forall i | 0 <= i < |u[1..]| ensures !(pat <= (u[1..] + v)[i..]) {
        assert (u[1..] + v)[i..] == (u + v)[i + 1..];
      }
      ReplaceSkipsUnmatched(u[1..], v, pat, rep);
      assert [u[0]] + (u[1..] + Replace(v, pat, rep)) == u + Replace(v, pat, rep);
    } else {
      assert u + v == v;
    }
  }
}

=== FILE: wrappers.dfy ===
/** Optional values and the outcome of an operation that may raise, as the
    scripts' exceptions are modelled. */
module Wrappers {

  datatype Option<+T> = None | Some(value: T)

  datatype Result<+T, +E> = Success(value: T) | Failure(error: E)
}
